=== FILE: README.md ===
# quicksell persistence layer and domain rules, in Dafny

A model of the core of the quicksell marketplace backend: the database session manager,
the generic entity layer every model inherits, the category tree and its cache, listing
search and view counting, and the rules of offers, accounts, favourites, chats and push
notifications. The relational store is an in-memory table (a `seq` of rows inside a class,
objects referred to by their position); the ORM's query helpers are functions over those
rows; handlers that change state are methods of the table classes, proved against the
functions that specify them.

| file | module | what it holds |
|---|---|---|
| `errors.dfy` | `Errors` | `Option`, `Result` and the exceptions the code raises or maps to HTTP statuses |
| `text.dfy` | `Text` | `str.find`, `str.split`, `str.lower` and the string order `sorted` uses |
| `database.dfy` | `Database` | the retrying `execute`, `start_session` as a trace of steps, the migration walk |
| `model_base.dfy` | `ModelBase` | table registry, unique-violation parsing, `select`/`scalar`/`paginate`, `save`/`insert`/`update`/`delete`, `association`, the location mixin |
| `categories.dfy` | `Categories` | `categories_tree` over a heap of dict handles, its cache and `tree_generator` |
| `listings.dfy` | `Listings` | listing defaults, search filter assembly, view counting, the create/update category checks |
| `guards.dfy` | `Guards` | `current_user`, `fetch`, `fetch_allowed`, `unique_violation_check` |
| `offers.dfy` | `Offers` | the offer state machine and the one-active-offer rule |
| `users.dfy` | `Users` | registration, login, favourites |
| `chats.dfy` | `Chats` | chat get-or-create, messages, pages newest first |
| `notifications.dfy` | `Notifications` | the device failure counter and the recipients of a chat message |

Modelling choices that shape every file:

- Foreign calls are parameters. These are the password check, the token and hash generators, the clock (`now`, `ts`), the outcome of each store round trip (`underlying`, `flush`, `commit`, `connectOk`) and the FCM response (`PushOutcome`).
- `Model.scalar` and `.first()` return the first matching row. `Guards.FirstIndex` gives its position, and `Guards.FirstIndexIsScalar` ties the two together.
- `categories_tree` builds dicts that alias one another: a branch dict is stored both at the top level and inside its parent. The model keeps that sharing as a heap of handles (`map<nat, map<string, nat>>`). Handle 0 is the top-level dict, and handle `k + 1` is the branch created for row `k`.
- Python truthiness is written out. `Truthy` holds for a non-empty string. An empty tree counts as falsy (`TreeTruthy`).
- SQLAlchemy's `paginate` applies `.unique()` to the page after offset and limit. A negative offset makes PostgreSQL refuse the query with SQLSTATE 2201X (`NEGATIVE_OFFSET`).

Three behaviours of the code that are easy to miss, and that the model keeps:

- `start_session` swallows a commit error that is an `SQLAlchemyError`, after rolling back. Any other commit error escapes, once the `finally` clause has closed the session and reset the binding.
- When the body of `start_session` raises, nothing after its `yield` runs. There is no close and no context reset.
- `migrate` skips only `DropTableOp`; other destructive operations such as dropping a column are invoked.

## Model

| member | source | states |
|---|---|---|
| Database.Execute | quicksell/database.py:22-30 | at most two attempts; a second attempt exactly when the first call was not a retry and failed with `OperationalError`; the outcome is that of the last attempt |
| Database.ExecuteErrors | quicksell/database.py:23-28 | an error other than `OperationalError` propagates after one attempt; an `OperationalError` on the retry propagates |
| Database.ScopeStepsOrder | quicksell/database.py:72-81 | the session is created, bound and the body run; commit is attempted exactly once and only on a normal exit; rollback exactly when commit raised an `SQLAlchemyError`; close and context reset end every normal exit, whatever commit raised; nothing more when the body raises |
| Database.SessionSteps | quicksell/database.py:69-81 | a connection is attempted exactly when no engine exists, and comes first; a session is created only when the session factory exists |
| Database.ScopeRaised | quicksell/database.py:74-79 | the body's error escapes when there is one; otherwise nothing escapes exactly when commit succeeded or raised an `SQLAlchemyError`, and any other commit error escapes as it was raised |
| Database.Database.constructor | quicksell/database.py:50 | no engine, no session factory, nothing bound |
| Database.Database.Connect | quicksell/database.py:54-65 | the engine is set; the session factory exists only after a successful connection; a failed one raises `TimeoutError("Database connection failed")` |
| Database.Database.StartSession | quicksell/database.py:67-81 | the new steps are exactly `SessionSteps`; a failed lazy connection raises `TimeoutError`; an engine without a session factory raises `AttributeError`; otherwise one session is created and what escapes is `ScopeRaised`: the body's error, else a commit error that is not an `SQLAlchemyError` |
| Database.Database.Scope | quicksell/database.py:72-81 | the binding is restored after a normal exit, even one whose commit raised, and left on the new session when the body raises; the body's error is re-raised; a commit `SQLAlchemyError` is swallowed after a rollback and any other commit error is re-raised (`ScopeRaised`) |
| Database.Migrate | quicksell/database.py:83-107 | an empty container invokes nothing; the invoked operations are the breadth-first order of the tree, none is a `DropTableOp` or a container, and they are a permutation of the tree's invocable leaves |
| Database.LevelOrderIsPermutationOfLeaves | quicksell/database.py:96-106 | the breadth-first order of a work list is a permutation of the invocable leaves below it |
| Database.LevelOrderInvocable | quicksell/database.py:100-106 | the breadth-first order contains neither a `DropTableOp` nor a container |
| ModelBase.ForeignKeyColumn | quicksell/models/base.py:129-133 | an `Integer` column, not a primary key, referencing `<table>.id`, with the given nullability and index flag |
| ModelBase.ColumnNamed | quicksell/models/base.py:30 | the column of the table with that key, or none when the table has no such column |
| ModelBase.ParseDetail | quicksell/models/base.py:26-28 | a detail that does not split into exactly two parts at `)=(` raises `ValueError` |
| ModelBase.NewUniqueViolation | quicksell/models/base.py:21-31 | a detail that does not split in two raises `ValueError`; otherwise the parse succeeds exactly when the table is registered and has a column with the parsed key, and fails with `KeyError` otherwise; a violation carries the diagnostic's table, the parsed value and the column's doc or name |
| ModelBase.ParseDetailRoundTrip | quicksell/models/base.py:26-28 | parsing `Key (c)=(v) already exists.` gives back `c` and `v` |
| ModelBase.UniqueViolationFromDetail | quicksell/models/base.py:21-34 | from such a detail the violation reports the table, the column's reported name and `v` |
| ModelBase.Select | quicksell/models/base.py:63-67 | exactly the rows satisfying the filters, each once |
| ModelBase.Scalar | quicksell/models/base.py:69-71 | none iff no row satisfies the filters; otherwise the first that does |
| ModelBase.Window | quicksell/models/base.py:77 | at most `limit` rows, exactly those at positions `offset` to `offset + limit - 1` |
| ModelBase.Paginate | quicksell/models/base.py:73-78 | the offset `page * size` is negative, and the query refused, exactly for a negative page of a non-empty size; otherwise at most a page of distinct rows, all satisfying the filters |
| ModelBase.PagePastEndIsEmpty | quicksell/models/base.py:73-78 | a page starting past the last match is empty |
| ModelBase.PagesDisjoint | quicksell/models/base.py:73-78 | two different pages share no row when the matches are distinct |
| ModelBase.PageContains | quicksell/models/base.py:73-78 | the `k`-th match appears on page `k / PAGE_SIZE` |
| ModelBase.PagePositions | quicksell/models/base.py:73-78 | for distinct matching rows a non-negative page holds exactly the matches from `page * size` on, `size` of them or what is left, in the store's order |
| ModelBase.FlushError | quicksell/models/base.py:49-57 | an `IntegrityError` with code 23505 becomes the `UniqueViolation` its diagnostic parses to, or the error the parsing raises; every other error passes unchanged |
| ModelBase.KwargsMap | quicksell/models/base.py:80-82 | the keys set are exactly the keyword names and each gets its last value |
| ModelBase.UpdateSetsGiven | quicksell/models/base.py:80-83 | every given attribute takes the given value and every other attribute keeps its value |
| ModelBase.Session.constructor | quicksell/database.py:72 | a new session has added, deleted and flushed nothing |
| ModelBase.Entity.constructor | quicksell/models/base.py:42-44 | the table name is the class name |
| ModelBase.Entity.Save | quicksell/models/base.py:49-57 | the object is added and flushed once; it is returned on success, otherwise the flush error as `FlushError` translates it |
| ModelBase.Entity.Update | quicksell/models/base.py:80-83 | the attributes become the old ones overridden by the keywords, then the object is saved |
| ModelBase.Entity.Delete | quicksell/models/base.py:85-86 | the object is marked deleted and nothing is flushed |
| ModelBase.Insert | quicksell/models/base.py:59-61 | a new object with the keywords is saved |
| ModelBase.SaveDuplicateRaisesViolation | quicksell/models/base.py:49-57 | a duplicate key reported by the store surfaces as the violation of that table, column and value |
| ModelBase.AssociationName | quicksell/models/base.py:114 | `Association` followed by the two names in sorted order |
| ModelBase.AssociationNameSymmetric | quicksell/models/base.py:114 | the name does not depend on the argument order |
| ModelBase.AssociationTable | quicksell/models/base.py:116-125 | two primary-key, indexed columns `lower(name)_id` referencing `name.id`, for both names in call order |
| ModelBase.Metadata.constructor | quicksell/models/base.py:115 | the registry holds the declared tables |
| ModelBase.Metadata.Association | quicksell/models/base.py:113-126 | an existing link table is reused and the registry unchanged; otherwise exactly that table is added; the relationship targets the second name through it |
| ModelBase.AssociationBothWays | quicksell/models/base.py:113-126 | both orders share one link table and at most one table is created |
| ModelBase.Located.constructor | quicksell/models/base.py:92-94 | no coordinates, no address |
| ModelBase.Located.Location | quicksell/models/base.py:96-104 | none iff the address is falsy; otherwise the three stored fields |
| ModelBase.Located.SetLocation | quicksell/models/base.py:106-110 | the three fields are stored and reading back gives the same dict when its address is truthy |
| Categories.IndexOfId | quicksell/routes/listings.py:86 | the row with the id, or none when no row has it |
| Categories.NameIndex | quicksell/routes/listings.py:84 | a position of a row with the name, or -1; the row owns the branch stored under that name |
| Categories.NameIndexLast | quicksell/routes/listings.py:84 | the position is that of the last row with the name, since a later row overwrites the entry; -1 exactly when no row has the name |
| Categories.LinkBranches | quicksell/routes/listings.py:82-87 | after the first loop every row has its own branch, placed at the top and inside the parent's branch as the later rows leave them |
| Categories.BuildTree | quicksell/routes/listings.py:80-90 | the result has the shape `TreeShape` describes: parentless rows at the top, each branch holding exactly the children iterated after their parent |
| Categories.TopLevelIsParentless | quicksell/routes/listings.py:81-90 | a name is a top-level key iff some category without a parent has it, and it maps to that category's branch |
| Categories.ChildNested | quicksell/routes/listings.py:82-87 | a category iterated after its parent sits in the parent's branch, and nothing else does |
| Categories.ParentsFirstComplete | quicksell/routes/listings.py:81-90 | when parents come before their children, every child is nested under its parent |
| Categories.ChildBeforeParentLost | quicksell/routes/listings.py:84-87 | a child iterated before its parent appears nowhere in the tree |
| Categories.ElectronicsPhones | quicksell/routes/listings.py:81-90 | Electronics with child Phones gives `{"Electronics": {"Phones": {}}}` |
| Categories.CategoryTable.constructor | quicksell/models/listing.py:65 | no tree is cached |
| Categories.CategoryTable.CategoriesTree | quicksell/routes/listings.py:76-92 | a truthy cached tree is returned without rebuilding; otherwise the tree is built once and cached; the result always has the tree shape |
| Categories.CategoryTable.InsertAsWritten | quicksell/models/listing.py:76-82 | as the code runs, the row is added and the cached tree kept; a cached tree of valid rows stops describing them once a new top-level category is added |
| Categories.StaleTree | quicksell/routes/listings.py:76-92 | the tree of the rows has no entry for a new top-level category, so it is not the tree of the extended rows |
| Categories.CategoryTable.Insert | quicksell/models/listing.py:76-82 | with the hook in place, the row is added and the cache cleared, so any cached tree describes the rows |
| Categories.CategoryTable.Update | quicksell/models/listing.py:76-82 | the row is replaced and the cache cleared |
| Categories.CategoryTable.Delete | quicksell/models/listing.py:76-82 | the row is removed and the cache cleared |
| Categories.TwoRequests | quicksell/routes/listings.py:78-79 | a second request returns the first one's tree when that is truthy; an empty tree is rebuilt every time |
| Categories.Generate | quicksell/models/listing.py:67-74 | one category per key at every level of the nested dict |
| Categories.GenerateFollowsPreorder | quicksell/models/listing.py:68-74 | the categories come in pre-order of the keys, each assignable iff its children dict is empty |
| Categories.GenerateIds | quicksell/models/listing.py:70-74 | when each category is flushed as it is yielded, ids are consecutive from the first |
| Categories.GenerateParentsEarlier | quicksell/models/listing.py:71-74 | with flushing, every parent id is the given parent or the id of an earlier category |
| Categories.ParentPositionsTree | quicksell/models/listing.py:68-74 | the parent position of every key is an earlier key whose children dict holds it, or -1 for a key of the top level |
| Categories.GenerateParentIds | quicksell/models/listing.py:70-74 | with flushing, a top-level category gets the caller's `parent_id` and every other category the id of its parent key's category |
| Categories.GenerateUnflushed | quicksell/models/listing.py:70-74 | without flushing no category has an id; a top-level category gets the caller's `parent_id` and every category below the top level gets None |
| Categories.GeneratedParentsFirst | quicksell/models/listing.py:67-74 | flushed categories come parents first, which is what `categories_tree` needs |
| Listings.ExpirationDate | quicksell/models/listing.py:13-17 | thirty days after creation |
| Listings.Listing.constructor | quicksell/models/listing.py:35-47 | the body's title, description, price and novelty, its quantity or else 1, the given seller, category and location; active, nothing sold, no views, expiring in thirty days |
| Listings.RemovePrefix | quicksell/routes/listings.py:50 | `str.removeprefix`: a string that starts with the prefix is the prefix followed by the result; any other string is returned as it is |
| Listings.DistanceOrderSpellings | quicksell/routes/listings.py:49-54 | the distance ordering is chosen for exactly `distance` and `-distance` |
| Listings.PriceFilters | quicksell/routes/listings.py:37-42 | a price bound is added iff given and not negative; the novelty filter iff given |
| Listings.JoinFilters | quicksell/routes/listings.py:43-48 | the category and seller joins are added iff their values are truthy |
| Listings.ColumnFilters | quicksell/routes/listings.py:34-48 | the title filter iff the title has at least 3 characters, and the price, novelty and join filters as above |
| Listings.AppendRange | quicksell/routes/listings.py:55 | adding the range filter keeps every column filter |
| Listings.ListingPaginateAsWritten | quicksell/models/base.py:73-78 | `Listing.paginate` raises `AttributeError` for every query, because no `PAGE_SIZE` is declared; a class that declares one answers page 0 |
| Listings.SearchListings | quicksell/routes/listings.py:19-56 | distance ordering iff all three geo parameters are truthy and the ordering names distance, descending iff it starts with `-`; the range filter iff the geo parameters are given on the paginated path |
| Listings.ViewTable.constructor | quicksell/routes/listings.py:102 | no view recorded |
| Listings.ViewTable.Insert | quicksell/routes/listings.py:102 | a second view of the same listing from the same address records nothing and raises what `save` makes of the store's unique-violation diagnostic; a new pair is recorded |
| Listings.RepeatViewCaught | quicksell/models/base.py:21-31 | when the diagnostic names a column of `View`, the repeated view raises `UniqueViolation` |
| Listings.RepeatViewComposite | quicksell/models/base.py:21-31 | when the constraint spans `(listing_id, ip)` and `View` has no column of that combined name, the repeated view raises `KeyError` instead |
| Listings.ViewersAdd | quicksell/routes/listings.py:100-106 | a new view adds exactly one viewer to its listing and none to another |
| Listings.GetListing | quicksell/routes/listings.py:95-107 | the view count goes up by one iff the address had not viewed the listing; a repeated view is ignored when it raises `UniqueViolation` and its error escapes otherwise; views stay equal to the number of distinct viewers; no other column of the listing changes |
| Listings.NewListingCounted | quicksell/models/listing.py:47 | a new listing without views is counted correctly |
| Listings.ChooseLocation | quicksell/routes/listings.py:65-67 | the body's location, else the profile's default; none iff neither is given |
| Listings.AssignableCategory | quicksell/routes/listings.py:68-70 | the first category with the name if it is assignable, otherwise `BadRequest("Invalid category")` |
| Listings.AssignableCategoryIff | quicksell/routes/listings.py:68-70 | with unique names, an existing category passes iff it is assignable |
| Listings.CreateListingCheck | quicksell/routes/listings.py:64-70 | the location check comes first, then the category check |
| Listings.CreateListing | quicksell/routes/listings.py:59-73 | a failed check is its error; then a failed flush is what `save` makes of it; otherwise a new active listing without views carrying the body's fields and the caller as seller, in an assignable category of that name, at the chosen location; this is the corrected half, where a sent location is kept as the three fields it carries |
| Listings.UpdateListing | quicksell/routes/listings.py:110-121 | a truthy category name that is not assignable is refused with the listing unchanged; otherwise every sent field before the category is set; an empty category name then raises `AttributeError` with the later fields untouched; otherwise the category, quantity and location are set too and the save's outcome is returned; seller, state, views, sold and expiry never change |
| Listings.ApplyUpdate | quicksell/models/base.py:80-83 | `setattr` for each sent field in the body's order, then `save` |
| Listings.CreateListingAsWritten | quicksell/routes/listings.py:64-73 | as written: a failed check is its error; a location sent in the body is bound to the `String` column as a dict, so the insert raises the store's `ProgrammingError` unchanged; a listing is created only with the profile's default location |
| Listings.UpdateListingAsWritten | quicksell/routes/listings.py:116-121 | as written: once the category check passes, a sent location makes the save raise the store's `ProgrammingError`; a listing is returned only when no location was sent, and its location is then unchanged |
| Guards.FirstIndex | quicksell/models/base.py:69-71 | the position of the first row satisfying the condition, or -1 when none does |
| Guards.FirstIndexIsScalar | quicksell/models/base.py:69-71 | that position holds exactly the object `scalar` returns |
| Guards.CurrentUser | quicksell/routes/base.py:14-18 | `Unauthorized` iff no user holds the token; otherwise the first user who does |
| Guards.Fetch | quicksell/routes/base.py:21-27 | `NotFound("<Class> not found")` iff no object has the uuid and passes the filters; otherwise one that does |
| Guards.FetchAllowed | quicksell/routes/base.py:30-36 | the caller is resolved first, then the object, then `allowed`; the object is returned iff it is allowed, and otherwise `Forbidden` |
| Guards.FetchAllowedAsWritten | quicksell/routes/base.py:30-36 | for a class without `allowed`: 401 for an unknown token, then 404 for an unknown object, and otherwise `AttributeError("allowed")`; it never returns the object |
| Guards.FetchAllowedAsWrittenRefusesAll | quicksell/routes/base.py:30-36 | whatever `allowed` was meant, the 401 and 404 answers agree with the intended guard, and every request it would answer with the object or with 403 raises `AttributeError` instead |
| Guards.UniqueViolationCheck | quicksell/routes/base.py:39-44 | a unique violation becomes `Conflict` with its message; anything else passes through |
| Guards.UniqueViolationCheckIdempotent | quicksell/routes/base.py:39-44 | no unique violation escapes, and applying the check twice is applying it once |
| Offers.NewOffer | quicksell/models/offer.py:20-21 | a new offer is active and unanswered |
| Offers.OffersList | quicksell/routes/offers.py:16-22 | `Unauthorized` exactly when the token names no user; otherwise at most `PAGE_SIZE` offers, each active and visible to the caller: the company's own, or those on the caller's listings for a user without a company |
| Offers.OffersListFirstPage | quicksell/routes/offers.py:16-22 | no page is passed, so the handler always serves page 0: every one of the first `PAGE_SIZE` visible offers is in the answer |
| Offers.SellerOf | quicksell/routes/offers.py:61 | `offer.listing.seller`: no seller exactly when no listing has the id; otherwise the seller of a listing with that id |
| Offers.OfferTable.constructor | quicksell/models/offer.py:9 | no offers |
| Offers.OfferTable.CreateOffer | quicksell/routes/offers.py:25-42 | one outcome per case, in the code's order: `Unauthorized` for an unknown token, `BadRequest(NO_COMPANY)` without a company, `NotFound` for an unknown listing, `BadRequest(OWN_LISTING)` on the caller's own listing, `Conflict(ALREADY_OFFERED)` when the company already has an active offer on it, otherwise exactly `NewOffer(..)` on that listing and company is appended; every refusal leaves the offers unchanged; at most one active offer per company and listing is kept |
| Offers.OfferTable.UpdateOffer | quicksell/routes/offers.py:45-52 | only the offering company may edit an active offer; an accepted one is refused unchanged; only the fields sent change |
| Offers.OfferTable.AcceptOffer | quicksell/routes/offers.py:55-66 | only active unanswered offers are found; a caller who is not the listing's seller gets `Forbidden(NOT_FOR_YOU)` and nothing changes; the seller gets `Ok` and exactly that offer is answered: accepting keeps it active, rejecting deactivates it; no offer becomes active |
| Offers.OfferTable.DeleteOffer | quicksell/routes/offers.py:69-73 | a soft delete: the row stays and only `active` becomes false |
| Offers.AppendKeepsOneActive | quicksell/routes/offers.py:36-42 | appending an offer whose company has no active offer on the listing keeps the rule |
| Offers.ReplaceKeepsOneActive | quicksell/routes/offers.py:63-73 | changing an offer without activating it or changing its key keeps the rule |
| Users.RemoveFirst | quicksell/routes/users.py:76-79 | `list.remove`: nothing changes for a missing element; otherwise exactly one occurrence goes |
| Users.AddThenRemove | quicksell/routes/users.py:61-79 | adding a listing that was not a favourite and removing it restores the list |
| Users.RemoveFirstSplits | quicksell/routes/users.py:76-79 | it is the first occurrence that goes, the rest stay in order |
| Users.RegistrationViolation | quicksell/routes/users.py:29-35 | no violation iff email and phone are both new; a taken email is reported before a taken phone |
| Users.UserTable.constructor | quicksell/routes/users.py:27 | no users |
| Users.BodyField | quicksell/schemas/user.py:39-46 | reading a field of the registration body succeeds exactly for the five fields `UserCreate` declares; any other name raises `AttributeError` with that name |
| Users.UserTable.CreateUserAsWritten | quicksell/routes/users.py:27-35 | as written, every registration raises `AttributeError("name")` and no user is added |
| Users.UserTable.CreateUser | quicksell/routes/users.py:27-35 | registration with the profile built from the declared `full_name`: a taken email or phone is a `Conflict` with the violation's message and no user is added; otherwise exactly the new user is appended |
| Users.UserTable.Login | quicksell/routes/users.py:47-53 | `Unauthorized` when no user has the email or the password check fails; otherwise the user's token is replaced by the new one, which is returned |
| Users.UserTable.AddToFavorites | quicksell/routes/users.py:61-67 | `Unauthorized`, then `NotFound`; otherwise the listing is appended to the caller's favourites |
| Users.UserTable.RemoveFromFavorites | quicksell/routes/users.py:70-79 | `Unauthorized`, then `NotFound`; otherwise the first occurrence leaves the caller's favourites |
| Users.LoginThenCurrentUser | quicksell/routes/users.py:52-53 | after a login the new token identifies the user who logged in |
| Chats.AboutListing | quicksell/models/chat.py:36-38 | subject is the listing's title, the seller is the only member, no last message |
| Chats.MembersTable | quicksell/models/chat.py:20 | members are stored in `AssociationChatProfile` |
| Chats.Page | quicksell/routes/chats.py:33 | a negative page is refused; otherwise the rows from `page * 30` on, at most 30 of them, in order |
| Chats.InsertByTs | quicksell/models/chat.py:28-34 | inserting a message keeps every other message |
| Chats.InsertByTsOrdered | quicksell/models/chat.py:28-34 | inserting into messages ordered newest first keeps them ordered |
| Chats.NewestFirst | quicksell/models/chat.py:28-34 | the ordering is a permutation of the messages |
| Chats.NewestFirstOrdered | quicksell/models/chat.py:28-34 | the ordering puts newer messages first |
| Chats.NewestIsFirst | quicksell/models/chat.py:28-34 | the newest message heads the ordering |
| Chats.PageKeepsOrder | quicksell/routes/chats.py:60 | a page of an ordered sequence is ordered |
| Chats.ChatsPage | quicksell/routes/chats.py:28-33 | a negative page is refused with `NEGATIVE_OFFSET`; otherwise the page holds 30 of the caller's chats or what is left after `30 * page`, each with the caller as a member |
| Chats.ChatOnSomePage | quicksell/routes/chats.py:28-33 | every chat the caller is a member of is on some non-negative page |
| Chats.MessagesPage | quicksell/routes/chats.py:55-60 | a negative page is refused with `NEGATIVE_OFFSET`; otherwise message `i` of the page is message `30 * page + i` of the chat's messages newest first, the page holds 30 of them or what is left after `30 * page`, and each belongs to that chat |
| Chats.FetchChat | quicksell/routes/chats.py:17-25 | `NotFound("Chat not found")` unless the first chat with the uuid has the caller as a member |
| Chats.ChatStore.constructor | quicksell/models/chat.py:11 | no chats, no messages |
| Chats.ChatStore.CreateChat | quicksell/routes/chats.py:36-52 | `NotFound` for an unknown listing; an existing chat of the caller about the listing is returned and nothing changes; otherwise a chat with the seller and the caller, once each, is appended |
| Chats.ChatStore.CreateMessage | quicksell/routes/chats.py:63-74 | through `fetch_chat`; the message is stored and becomes the chat's last message |
| Chats.CreateChatTwice | quicksell/routes/chats.py:45-52 | asking twice gives the same chat and creates at most one |
| Chats.FirstIndexAppend | quicksell/routes/chats.py:45 | a chat appended when none matched is the one found next time |
| Chats.PostedMessageHeadsFirstPage | quicksell/models/chat.py:28-34 | the newest message of a chat heads its first page |
| Notifications.PushNeverReactivates | quicksell/notifications.py:14-30 | `push` never activates a device |
| Notifications.PushUntouched | quicksell/notifications.py:15-24 | an inactive device, or an `FCMError`, changes nothing |
| Notifications.PushCounts | quicksell/notifications.py:25-30 | a failed delivery adds one failure and deactivates exactly at the threshold; a delivered message leaves an active device without failures |
| Notifications.PushKeepsBelowThreshold | quicksell/notifications.py:25-28 | an active device keeps fewer failures than the threshold |
| Notifications.PushAll | quicksell/notifications.py:14-15 | a sequence of pushes leaves an inactive device alone |
| Notifications.FailuresDeactivate | quicksell/notifications.py:25-28 | enough failed deliveries in a row deactivate a device |
| Notifications.AsWrittenNeverDeactivates | quicksell/notifications.py:25-28 | as written, no outcome deactivates a device and every failed delivery raises |
| Notifications.AsWrittenFirstFailure | quicksell/notifications.py:26-27 | as written, a first failure with a threshold of one raises and leaves the device active |
| Notifications.Device.constructor | quicksell/models/user.py:77-78 | a device starts active with no failures |
| Notifications.Device.Push | quicksell/notifications.py:14-30 | the device's new state is `PushStep` of the old one; delivery is tried iff the device was active |
| Notifications.Device.PushAsWritten | quicksell/notifications.py:14-30 | the new state and the outcome are those of `push` as written |
| Notifications.NotifyChatMembers | quicksell/notifications.py:33-43 | every member except the author is pushed to, in member order, and the author's device is untouched |
| Notifications.ProfileAttribute | quicksell/models/user.py:42-58 | an attribute of a profile can be read exactly when `Profile` declares it as a column or it is the `user` backref; any other raises `AttributeError` with its name |
| Notifications.NotifyChatMembersAsWritten | quicksell/notifications.py:33-35 | as written, the title reads `message.author.name`, so every call raises `AttributeError("name")` and no device changes |
| Notifications.RecipientsAreOthers | quicksell/notifications.py:41-42 | the author is not a recipient and every other member is |

## Left out

- `Database.connect`: the URI built from the environment, `create_engine` and the connection attempt are I/O. Only their outcome is modelled, as `connectOk`.
- `Database.Database.Scope`: `session.rollback()` and `session.close()` are assumed not to raise; an error raised by either is not modelled.
- The `ContextVar` binding is task-local. Concurrent requests are not modelled; a single `bound` field stands for the binding.
- SQL semantics are not modelled. `ilike`, joins and the `order_by` strings become filter values and predicates, and the store's ordering is not modelled.
- Geo search (`Listing.in_range`, `ordered_by_distance`) is not modelled. The model only records that it was requested, with which arguments and ordering.
- `quicksell/authorization.py` and `quicksell/security.py` (bcrypt, JWT) are not part of this model. They are parameters: `checkPassword`, `newToken` and `passwordHash`. `get_current_user` in the chat routes becomes the caller's profile id.
- FCM delivery is not modelled, and neither are the notification title and data payload it would carry. The response is the `PushOutcome` parameter.
- Pydantic validation of request bodies is not part of this model. That covers non-negative listing prices and positive offer prices, uuid format, and which fields a PATCH body leaves unset.
- Integer widths are not modelled: `SmallInteger` for `fails_count` and 32-bit `Integer` for prices and views.
- `Listing.allowed`: neither `Listing` (quicksell/models/listing.py:20-53) nor its base `Model` (quicksell/models/base.py:37-86) defines it; only `Offer` does (quicksell/models/offer.py:26), and that one is `Offers.Allowed`. The "## Findings" table records what `fetch_allowed(Listing)` does as written. Which users `Listing.allowed` was meant to admit is not known, so `Listings.UpdateListing` takes the listing as already fetched and allowed.
- `Categories.CategoryTable.CategoriesTree`: the nested dict the route returns is described by its shape (`TreeShape`) over the heap of handles, not unfolded into a nested value.
- `ModelBase.ParseDetailRoundTrip`: the round trip holds only when the column name has no parentheses and the value has no `)`. Other inputs parse differently, as the code does.
- `Chats.ChatsPage`: the order of `user.profile.chats` is whatever the store returns. The model takes table order, so the position of a chat within its page is not stated; membership, the page size and that every chat is on some page are.
- `Chats.NewestFirst`: messages with the same `ts_spawn` keep their table order. The store may return such ties in any order, since `order_by(desc(ts_spawn))` does not break them.
- `Listings.UpdateListing`, `Listings.ApplyUpdate`: these store a sent location as it is given. As written the save then raises (`Listings.UpdateListingAsWritten`), and the handler is not reached at all (`Guards.FetchAllowedAsWritten`).
- `Notifications.NotifyChatMembers`: each member is assumed to have a device. A member without one makes `push(None)` raise in the code, and that case is not modelled.
- `delete_chat`, `delete_listing`'s cascade, `get_favorites`, `get_profile`, `get_current_user` and `update_profile` are left out. They are single reads, or a store delete whose effect on dependent rows depends on cascade settings this model does not include. `update_profile` is `Entity.Update` inside `unique_violation_check`.
- `Guards.Fetch`, `Guards.FetchAllowed`: quicksell/routes/base.py:21-36 defines `fetch(cls)` and `fetch_allowed(cls)` with one parameter, yet quicksell/routes/offers.py:48,58,71 passes further conditions such as `Offer.active`. As written those calls raise `TypeError` when the module is imported. The model reads the extra arguments as further filters on the fetched row, which is what they evidently mean.
- quicksell/models/listing.py:11 and quicksell/models/chat.py:8 import `UUIDColumn`, but quicksell/models/base.py defines the helper as `ColumnUUID`. As written those imports fail; the model reads it as `ColumnUUID`. Other names that the code uses but does not define are read the same way, as what they evidently mean: `get_session` (quicksell/routes/chats.py:7), `ModelBase` (quicksell/models/user.py:14) and `user.favorites` (quicksell/routes/users.py:58,67,77).
- `Categories.CategoryTable.Update`, `Categories.CategoryTable.Delete`: these model the cache clearing that the update and delete hooks were meant to do. As the code runs, no hook is registered, exactly as for inserts (`Categories.CategoryTable.InsertAsWritten`); no separate as-written members are given for them.
- `Text.Lower`: only ASCII letters are lowered. Python's `str.lower` also lowers other letters, such as `É`, and the model does not.
- `Listings.ViewTable.Insert`: the `View` model is not part of this model, so the diagnostic the store reports for a repeated view is a parameter. `Listings.RepeatViewCaught` and `Listings.RepeatViewComposite` give the two outcomes for a one-column key and for a `(listing_id, ip)` key.
- `quicksell/schemas/*`, `main.py`, `router.py`, `exceptions.py`, and `models/shop.py`/`routes/shops.py` are declarations and wiring with no logic of their own.

## Findings

| source | as written | input that shows it | evidently intended | confidence | as-written member | corrected member |
|---|---|---|---|---|---|---|
| quicksell/notifications.py:27 | `Device.MAX_FAILS` is read, but `Device` (quicksell/models/user.py:61-78) declares no `MAX_FAILS`, so the first failed delivery counts the failure and then raises `AttributeError`; no device is ever deactivated | an active device with `fails_count == 0` and a response with `success == 0` | the device is deactivated once `fails_count` reaches a threshold | medium, not executed | Notifications.AsWrittenFirstFailure | Notifications.FailuresDeactivate |
| quicksell/notifications.py:35 | the title is built from `message.author.name`, but `Profile` (quicksell/models/user.py:42-58) declares `full_name` and no `name`, so every call raises `AttributeError` before the loop; no chat member is ever notified | any chat whose last message has an author | `f"{message.author.full_name} @ {chat.subject}"` | high, not executed | Notifications.NotifyChatMembersAsWritten | Notifications.NotifyChatMembers |
| quicksell/routes/listings.py:65 | a location sent in the body is a `LocationSchema`, which `body.dict()` turns into a dict, and it is passed on to `Listing.location`, a `Column(String)` (quicksell/models/listing.py:49); the store cannot bind a dict to it, and `save` re-raises the resulting `ProgrammingError`, so a listing can only be created or updated without a location in the body | a `ListingCreate` body with a `location` and an assignable category | `Listing` keeps the location as `Shop` does, through `LocationMixin` (quicksell/models/base.py:89-110) | high, not executed | Listings.CreateListingAsWritten | Listings.CreateListing |
| quicksell/routes/listings.py:113 | `fetch_allowed(Listing)` calls `obj.allowed(user)` (quicksell/routes/base.py:33), but neither `Listing` nor `Model` defines `allowed`, so every authenticated PATCH or DELETE of an existing listing raises `AttributeError` and `update_listing`'s body never runs | a PATCH of an existing listing with a valid token | `Listing` defines `allowed`, as `Offer` does, and the owner may edit the listing | high, not executed | Guards.FetchAllowedAsWritten | Listings.UpdateListing |
| quicksell/routes/users.py:34 | the profile is built with `name=body.name`, but `UserCreate` (quicksell/schemas/user.py:39-46) declares `full_name` and no `name`, so reading it raises `AttributeError` before anything is inserted; no account can ever be registered | any registration body | `Profile(phone=body.phone, full_name=body.full_name)` | high, not executed | Users.UserTable.CreateUserAsWritten | Users.UserTable.CreateUser |
| quicksell/models/listing.py:76-82 | `setup_events` registers the cache-clearing hooks but nothing calls it, and `clear_cache()` takes no arguments while mapper events call their listeners with `(mapper, connection, target)`; the cached category tree is never cleared | a request that caches a tree, then a new top-level category | the cache is cleared after every insert, update and delete of a category | medium, not executed | Categories.CategoryTable.InsertAsWritten | Categories.CategoryTable.Insert |
| quicksell/models/base.py:77 | `paginate` reads `cls.PAGE_SIZE`, but neither `Listing` (quicksell/models/listing.py:20-53) nor `Model` declares it, so every paginated listing search raises `AttributeError` | any listing search that is not ordered by distance | `Listing` declares a page size, as `Offer` does | high, not executed | Listings.ListingPaginateAsWritten | ModelBase.PagePositions |

=== FILE: categories.dfy ===
/** Listing categories: the flat rows of the `Category` table, the nested name tree the
    `/listings/categories/` endpoint builds from them, its class-level cache, and the
    generator that flattens a nested dict into rows. */
module Categories {
  import opened Errors

  /** A row of the `Category` table; `parent` is `parent_id`. */
  datatype Category = Category(id: nat, name: string, parent: Option<nat>, assignable: bool)

  /** `if category.parent_id:`, Python truthiness: None and 0 are no parent. */
  predicate HasParent(c: Category)
  {
    c.parent.Some? && c.parent.value != 0
  }

  /** Row `j` names row `k` as its parent. */
  predicate ChildOf(rows: seq<Category>, j: int, k: int)
    requires 0 <= j < |rows| && 0 <= k < |rows|
  {
    HasParent(rows[j]) && rows[j].parent.value == rows[k].id
  }

  predicate DistinctIds(rows: seq<Category>)
  {
    forall j, k :: 0 <= j < k < |rows| ==> rows[j].id != rows[k].id
  }

  predicate DistinctNames(rows: seq<Category>)
  {
    forall j, k :: 0 <= j < k < |rows| ==> rows[j].name != rows[k].name
  }

  /** What the table's constraints guarantee: ids are a primary key, names are unique and
      every parent id refers to a row. */
  predicate WellFormed(rows: seq<Category>)
  {
    && DistinctIds(rows)
    && DistinctNames(rows)
    && forall j :: 0 <= j < |rows| && HasParent(rows[j]) ==>
         exists k :: 0 <= k < |rows| && rows[k].id == rows[j].parent.value
  }

  /** `categories[id]`: the position of the row with that id. */
  function IndexOfId(rows: seq<Category>, id: nat): (k: int)
    ensures -1 <= k < |rows|
    ensures k >= 0 ==> rows[k].id == id
    ensures k < 0 ==> forall j :: 0 <= j < |rows| ==> rows[j].id != id
  {
    if rows == [] then -1
    else if rows[|rows| - 1].id == id then |rows| - 1
    else IndexOfId(rows[..|rows| - 1], id)
  }

  // ---------------------------------------------------------------------------
  // The dicts as the endpoint builds them
  // ---------------------------------------------------------------------------

  /** Python dicts that alias one another: each handle names one dict, whose values are the
      handles of the dicts nested in it. Handle 0 is `tree`; row `k`'s `category_branch` is
      handle `k + 1`; the dicts `setdefault` creates get handles above the rows'. */
  type Heap = map<nat, map<string, nat>>

  /** Every handle stored in a dict names a dict. */
  predicate Closed(heap: Heap)
  {
    forall h, n :: h in heap && n in heap[h] ==> heap[h][n] in heap
  }

  /** Row `k`'s branch handle. */
  function BranchHandle(k: int): nat
  {
    if k < 0 then 0 else k + 1
  }

  /** The position of the last row named `n`, or -1 when no row has that name. */
  function NameIndex(rows: seq<Category>, n: string): (k: int)
    ensures -1 <= k < |rows|
    ensures k >= 0 ==> rows[k].name == n
  {
    if rows == [] then -1
    else if rows[|rows| - 1].name == n then |rows| - 1
    else NameIndex(rows[..|rows| - 1], n)
  }

  /** `NameIndex` finds the last row with the name, and -1 means that no row has it. */
  lemma {:induction false} NameIndexLast(rows: seq<Category>, n: string)
    ensures var k := NameIndex(rows, n);
      && (k >= 0 ==> forall j :: k < j < |rows| ==> rows[j].name != n)
      && (k == -1 <==> forall j :: 0 <= j < |rows| ==> rows[j].name != n)
  {
    if rows != [] && rows[|rows| - 1].name != n {
      var init := rows[..|rows| - 1];
      NameIndexLast(init, n);
      assert forall j :: 0 <= j < |init| ==> init[j] == rows[j];
    }
  }

  lemma NameIndexOf(rows: seq<Category>, j: int)
    requires DistinctNames(rows) && 0 <= j < |rows|
    ensures NameIndex(rows, rows[j].name) == j
  {
  }

  /** Row `j` is in row `k`'s branch once the first loop has visited rows `0 .. i-1`. */
  predicate InBranch(rows: seq<Category>, j: int, k: int, i: int)
  {
    0 <= k <= j < i && j < |rows| && ChildOf(rows, j, k)
  }

  /** Row `k` is still in `tree` once the second loop has visited rows `0 .. i-1`. */
  predicate OnTop(rows: seq<Category>, k: int, i: int)
  {
    0 <= k < |rows| && (i <= k || !HasParent(rows[k]))
  }

  /** `m` holds exactly the branches of the rows `InBranch` of `k`, under their names. */
  ghost predicate BranchIs(rows: seq<Category>, m: map<string, nat>, k: int, i: int)
  {
    && (forall n :: n in m <==> InBranch(rows, NameIndex(rows, n), k, i))
    && (forall n :: n in m ==> m[n] == BranchHandle(NameIndex(rows, n)))
  }

  /** `m` holds exactly the branches of the rows `OnTop`, under their names. */
  ghost predicate TopIs(rows: seq<Category>, m: map<string, nat>, i: int)
  {
    && (forall n :: n in m <==> OnTop(rows, NameIndex(rows, n), i))
    && (forall n :: n in m ==> m[n] == BranchHandle(NameIndex(rows, n)))
  }

  /** What the first loop knows of `tree` after visiting rows `0 .. v-1`: each visited name
      maps to its row's branch, and any other name in it is the name of a later row, mapped
      to a dict that `setdefault` created. */
  ghost predicate RootInv(rows: seq<Category>, root: map<string, nat>, v: int)
  {
    && (forall n :: 0 <= NameIndex(rows, n) < v ==> n in root)
    && (forall n :: n in root ==> NameIndex(rows, n) >= 0)
    && (forall n :: n in root && NameIndex(rows, n) < v ==> root[n] == BranchHandle(NameIndex(rows, n)))
    && (forall n :: n in root && NameIndex(rows, n) >= v ==> root[n] > |rows|)
  }

  /** The branches of rows `0 .. bound-1` hold their children among rows `0 .. i-1`. */
  ghost predicate BranchesUpTo(rows: seq<Category>, heap: Heap, bound: int, i: int)
  {
    forall k :: 0 <= k < bound ==> BranchHandle(k) in heap && BranchIs(rows, heap[BranchHandle(k)], k, i)
  }

  /** The state of the dicts after the first loop visited rows `0 .. i-1`. */
  ghost predicate FirstLoopInv(rows: seq<Category>, heap: Heap, i: nat, spare: nat)
  {
    && spare > |rows|
    && 0 in heap && Closed(heap)
    && BranchesUpTo(rows, heap, i, i)
    && RootInv(rows, heap[0], i)
  }

  /** The first loop half-way through row `i`: `tree[name] = category_branch` is done, the
      parent link is not. */
  ghost predicate MidInv(rows: seq<Category>, heap: Heap, i: nat, spare: nat)
  {
    && spare > |rows|
    && 0 in heap && Closed(heap)
    && BranchesUpTo(rows, heap, i + 1, i)
    && RootInv(rows, heap[0], i + 1)
  }

  /** The state of the dicts after the second loop visited rows `0 .. i-1`. */
  ghost predicate SecondLoopInv(rows: seq<Category>, heap: Heap, i: nat)
  {
    && 0 in heap && Closed(heap)
    && BranchesDone(rows, heap)
    && TopIs(rows, heap[0], i)
  }

  lemma FirstLoopStart(rows: seq<Category>, heap: Heap, spare: nat)
    requires heap == map[0 := map[]] && spare == |rows| + 1
    ensures FirstLoopInv(rows, heap, 0, spare)
  {
  }

  /** Once the first loop has visited every row, `tree` maps every name to its row's branch. */
  lemma RootAfterFirstLoop(rows: seq<Category>, heap: Heap, spare: nat)
    requires FirstLoopInv(rows, heap, |rows|, spare)
    ensures TopIs(rows, heap[0], 0) && BranchesDone(rows, heap)
  {
  }

  /** `tree.pop(category.name)` for a row with a parent; the name is always there. */
  lemma TopStep(rows: seq<Category>, m: map<string, nat>, i: nat)
    requires DistinctNames(rows) && i < |rows| && TopIs(rows, m, i)
    ensures rows[i].name in m
    ensures TopIs(rows, if HasParent(rows[i]) then m - {rows[i].name} else m, i + 1)
  {
    NameIndexOf(rows, i);
  }

  /** Storing a dict whose handles all name dicts keeps the heap closed. */
  lemma ClosedStore(heap: Heap, h: nat, m: map<string, nat>)
    requires Closed(heap)
    requires forall n :: n in m ==> m[n] in heap || m[n] == h
    ensures Closed(heap[h := m])
  {
  }

  /** Storing into a handle that is no branch of rows `0 .. bound-1` leaves those branches. */
  lemma BranchesFrame(rows: seq<Category>, heap: Heap, h: nat, m: map<string, nat>, bound: int, i: int)
    requires BranchesUpTo(rows, heap, bound, i)
    requires forall k :: 0 <= k < bound ==> BranchHandle(k) != h
    ensures BranchesUpTo(rows, heap[h := m], bound, i)
  {
    forall k | 0 <= k < bound
      ensures BranchHandle(k) in heap[h := m] && heap[h := m][BranchHandle(k)] == heap[BranchHandle(k)]
    {
    }
  }

  /** `tree[category.name] = category_branch` on what the first loop knows of `tree`. */
  lemma RootOwn(rows: seq<Category>, root: map<string, nat>, i: nat)
    requires DistinctNames(rows) && i < |rows| && RootInv(rows, root, i)
    ensures RootInv(rows, root[rows[i].name := BranchHandle(i)], i + 1)
  {
    NameIndexOf(rows, i);
  }

  /** `tree.setdefault(parent_name, {})` for a parent the first loop has not reached. */
  lemma RootPlaceholder(rows: seq<Category>, root: map<string, nat>, i: nat, name: string, spare: nat)
    requires RootInv(rows, root, i + 1) && name !in root && NameIndex(rows, name) >= 0 && spare > |rows|
    ensures NameIndex(rows, name) > i
    ensures RootInv(rows, root[name := spare], i + 1)
  {
  }

  /** Row `i` is nobody's child among rows up to `i` but its parent: its branch set is
      unaffected. */
  lemma BranchIsSkip(rows: seq<Category>, m: map<string, nat>, k: int, i: nat)
    requires BranchIs(rows, m, k, i) && i < |rows| && 0 <= k
    requires !(k <= i && ChildOf(rows, i, k))
    ensures BranchIs(rows, m, k, i + 1)
  {
    forall n
      ensures InBranch(rows, NameIndex(rows, n), k, i + 1) <==> InBranch(rows, NameIndex(rows, n), k, i)
    {
    }
  }

  /** Hanging row `i` under its parent `k`. */
  lemma BranchIsAdd(rows: seq<Category>, m: map<string, nat>, k: int, i: nat)
    requires DistinctNames(rows) && BranchIs(rows, m, k, i) && 0 <= k <= i < |rows| && ChildOf(rows, i, k)
    ensures BranchIs(rows, m[rows[i].name := BranchHandle(i)], k, i + 1)
  {
    NameIndexOf(rows, i);
  }

  /** `category_branch = {}`: row `i`'s branch starts empty. */
  lemma NewBranchStep(rows: seq<Category>, heap: Heap, i: nat, spare: nat)
    requires i < |rows| && FirstLoopInv(rows, heap, i, spare)
    ensures var h := heap[BranchHandle(i) := map[]];
      && 0 in h && Closed(h) && h[0] == heap[0]
      && BranchesUpTo(rows, h, i + 1, i)
  {
    var h := heap[BranchHandle(i) := map[]];
    ClosedStore(heap, BranchHandle(i), map[]);
    BranchesFrame(rows, heap, BranchHandle(i), map[], i, i);
    assert BranchIs(rows, h[BranchHandle(i)], i, i);
  }

  /** `tree[category.name] = category_branch`, with a fresh branch. */
  lemma OwnBranchStep(rows: seq<Category>, heap: Heap, i: nat, spare: nat)
    requires DistinctNames(rows) && i < |rows| && FirstLoopInv(rows, heap, i, spare)
    ensures MidInv(rows, heap[BranchHandle(i) := map[]][0 := heap[0][rows[i].name := BranchHandle(i)]], i, spare)
  {
    var h1 := heap[BranchHandle(i) := map[]];
    NewBranchStep(rows, heap, i, spare);
    var root := heap[0][rows[i].name := BranchHandle(i)];
    ClosedStore(h1, 0, root);
    BranchesFrame(rows, h1, 0, root, i + 1, i);
    RootOwn(rows, heap[0], i);
  }

  /** A row without a parent completes its step as soon as it has its own branch. */
  lemma NoParentStep(rows: seq<Category>, heap: Heap, i: nat, spare: nat)
    requires i < |rows| && MidInv(rows, heap, i, spare) && !HasParent(rows[i])
    ensures FirstLoopInv(rows, heap, i + 1, spare)
  {
    forall k | 0 <= k < i + 1
      ensures BranchIs(rows, heap[BranchHandle(k)], k, i + 1)
    {
      BranchIsSkip(rows, heap[BranchHandle(k)], k, i);
    }
  }

  /** `tree.setdefault(parent_name, {})` when the parent's name is not in `tree` yet. */
  lemma PlaceholderStep(rows: seq<Category>, heap: Heap, i: nat, spare: nat, parentName: string)
    requires i < |rows| && MidInv(rows, heap, i, spare)
    requires parentName !in heap[0] && NameIndex(rows, parentName) >= 0
    ensures var h := heap[spare := map[]][0 := heap[0][parentName := spare]];
      MidInv(rows, h, i, spare + 1) && parentName in h[0] && h[0][parentName] == spare
  {
    var h1 := heap[spare := map[]];
    ClosedStore(heap, spare, map[]);
    BranchesFrame(rows, heap, spare, map[], i + 1, i);
    var root := heap[0][parentName := spare];
    ClosedStore(h1, 0, root);
    BranchesFrame(rows, h1, 0, root, i + 1, i);
    RootPlaceholder(rows, heap[0], i, parentName, spare);
  }

  /** Hanging row `i` under the dict `tree` holds for its parent's name. */
  lemma AttachBranches(rows: seq<Category>, heap: Heap, i: nat, spare: nat, p: int)
    requires WellFormed(rows) && i < |rows| && MidInv(rows, heap, i, spare)
    requires HasParent(rows[i]) && 0 <= p < |rows| && rows[p].id == rows[i].parent.value
    requires rows[p].name in heap[0]
    ensures var target := heap[0][rows[p].name];
      BranchesUpTo(rows, heap[target := heap[target][rows[i].name := BranchHandle(i)]], i + 1, i + 1)
  {
    var target := heap[0][rows[p].name];
    var h := heap[target := heap[target][rows[i].name := BranchHandle(i)]];
    NameIndexOf(rows, p);
    forall k | 0 <= k < i + 1
      ensures BranchHandle(k) in h && BranchIs(rows, h[BranchHandle(k)], k, i + 1)
    {
      if k == p {
        BranchIsAdd(rows, heap[BranchHandle(k)], k, i);
      } else {
        assert rows[k].id != rows[p].id;
        BranchIsSkip(rows, heap[BranchHandle(k)], k, i);
        assert target != BranchHandle(k);
      }
    }
  }

  /** `tree.setdefault(parent_name, {})[category.name] = category_branch` once the parent's
      name is in `tree`. */
  lemma AttachStep(rows: seq<Category>, heap: Heap, i: nat, spare: nat, p: int)
    requires WellFormed(rows) && i < |rows| && MidInv(rows, heap, i, spare)
    requires HasParent(rows[i]) && 0 <= p < |rows| && rows[p].id == rows[i].parent.value
    requires rows[p].name in heap[0]
    ensures var target := heap[0][rows[p].name];
      FirstLoopInv(rows, heap[target := heap[target][rows[i].name := BranchHandle(i)]], i + 1, spare)
  {
    var target := heap[0][rows[p].name];
    assert target != 0;
    assert BranchHandle(i) in heap;
    ClosedStore(heap, target, heap[target][rows[i].name := BranchHandle(i)]);
    AttachBranches(rows, heap, i, spare, p);
  }

  /** One pass of the first loop: `tree[name] = category_branch`, then hang the branch under
      the parent's name, creating the parent's entry with `setdefault` if need be. */
  method VisitRow(rows: seq<Category>, heap0: Heap, i: nat, spare0: nat) returns (heap: Heap, spare: nat)
    requires WellFormed(rows) && i < |rows| && FirstLoopInv(rows, heap0, i, spare0)
    ensures FirstLoopInv(rows, heap, i + 1, spare)
  {
    var category := rows[i];
    var branch := BranchHandle(i);
    OwnBranchStep(rows, heap0, i, spare0);
    var empty: map<string, nat> := map[];
    heap := heap0[branch := empty];
    heap := heap[0 := heap0[0][category.name := branch]];
    spare := spare0;
    if !HasParent(category) {
      NoParentStep(rows, heap, i, spare);
      return;
    }
    var p := IndexOfId(rows, category.parent.value);
    var parentName := rows[p].name;
    NameIndexOf(rows, p);
    if parentName !in heap[0] {
      PlaceholderStep(rows, heap, i, spare, parentName);
      var placeholder: map<string, nat> := map[];
      heap := heap[spare := placeholder];
      var top: map<string, nat> := heap[0][parentName := spare];
      heap := heap[0 := top];
      spare := spare + 1;
    }
    var target := heap[0][parentName];
    AttachStep(rows, heap, i, spare, p);
    heap := heap[target := heap[target][category.name := branch]];
  }

  /** The dicts `categories_tree` leaves behind: `tree` (handle 0) maps the name of every row
      without a parent to that row's branch dict, and each row's branch dict maps the name of
      every row that names it as parent and comes no earlier to that row's branch dict. */
  ghost predicate TreeShape(rows: seq<Category>, heap: Heap)
  {
    && 0 in heap && Closed(heap)
    && BranchesDone(rows, heap)
    && TopIs(rows, heap[0], |rows|)
  }

  /** Every row's branch dict holds exactly its children's branches. */
  ghost predicate BranchesDone(rows: seq<Category>, heap: Heap)
  {
    forall k :: 0 <= k < |rows| ==> BranchHandle(k) in heap && BranchIs(rows, heap[BranchHandle(k)], k, |rows|)
  }

  /** The first loop of `categories_tree`: a branch per row, stored under the row's name in
      `tree` and hung under its parent's name. */
  method LinkBranches(rows: seq<Category>) returns (heap: Heap)
    requires WellFormed(rows)
    ensures SecondLoopInv(rows, heap, 0)
  {
    var tree: map<string, nat> := map[];
    heap := map[0 := tree];
    var spare: nat := |rows| + 1;
    FirstLoopStart(rows, heap, spare);
    for i := 0 to |rows|
      invariant FirstLoopInv(rows, heap, i, spare)
    {
      heap, spare := VisitRow(rows, heap, i, spare);
    }
    RootAfterFirstLoop(rows, heap, spare);
  }

  /** `categories_tree` without its cache: link the branches, then pop the names of rows
      that have a parent from `tree`. The result is the dict behind handle 0. */
  method BuildTree(rows: seq<Category>) returns (heap: Heap)
    requires WellFormed(rows)
    ensures TreeShape(rows, heap)
  {
    heap := LinkBranches(rows);
    for i := 0 to |rows|
      invariant SecondLoopInv(rows, heap, i)
    {
      var category := rows[i];
      PopStep(rows, heap, i);
      if HasParent(category) {
        heap := heap[0 := heap[0] - {category.name}];
      }
    }
  }

  /** One pass of the second loop: `tree.pop(category.name)` for a row with a parent. */
  lemma PopStep(rows: seq<Category>, heap: Heap, i: nat)
    requires WellFormed(rows) && i < |rows| && SecondLoopInv(rows, heap, i)
    ensures rows[i].name in heap[0]
    ensures SecondLoopInv(rows, if HasParent(rows[i]) then heap[0 := heap[0] - {rows[i].name}] else heap, i + 1)
  {
    TopStep(rows, heap[0], i);
    if HasParent(rows[i]) {
      var root := heap[0] - {rows[i].name};
      ClosedStore(heap, 0, root);
      var h := heap[0 := root];
      forall k | 0 <= k < |rows|
        ensures BranchHandle(k) in h && BranchIs(rows, h[BranchHandle(k)], k, |rows|)
      {
        assert h[BranchHandle(k)] == heap[BranchHandle(k)];
      }
    }
  }

  // ---------------------------------------------------------------------------
  // What the result holds
  // ---------------------------------------------------------------------------

  /** Every row comes after the row it names as parent. */
  predicate ParentsFirst(rows: seq<Category>)
  {
    forall j, k :: 0 <= j < |rows| && 0 <= k < |rows| && ChildOf(rows, j, k) ==> k < j
  }

  /** The top-level keys are exactly the names of the rows without a parent, each mapped to
      that row's branch. */
  lemma TopLevelIsParentless(rows: seq<Category>, heap: Heap, n: string)
    requires WellFormed(rows) && TreeShape(rows, heap)
    ensures n in heap[0] <==> exists k :: 0 <= k < |rows| && rows[k].name == n && !HasParent(rows[k])
    ensures n in heap[0] ==> heap[0][n] == BranchHandle(NameIndex(rows, n))
  {
    if exists k :: 0 <= k < |rows| && rows[k].name == n && !HasParent(rows[k]) {
      var k :| 0 <= k < |rows| && rows[k].name == n && !HasParent(rows[k]);
      NameIndexOf(rows, k);
    }
  }

  /** A row that comes no earlier than row `k` is in `k`'s branch exactly when it names `k`
      as parent, and then under its own branch. */
  lemma ChildNested(rows: seq<Category>, heap: Heap, j: int, k: int)
    requires WellFormed(rows) && TreeShape(rows, heap) && 0 <= k <= j < |rows|
    ensures BranchHandle(k) in heap
    ensures rows[j].name in heap[BranchHandle(k)] <==> ChildOf(rows, j, k)
    ensures ChildOf(rows, j, k) ==> heap[BranchHandle(k)][rows[j].name] == BranchHandle(j)
  {
    NameIndexOf(rows, j);
  }

  /** When every parent is listed before its children, every child is nested under its
      parent's name. */
  lemma ParentsFirstComplete(rows: seq<Category>, heap: Heap, j: int, k: int)
    requires WellFormed(rows) && ParentsFirst(rows) && TreeShape(rows, heap)
    requires 0 <= j < |rows| && 0 <= k < |rows| && ChildOf(rows, j, k)
    ensures BranchHandle(k) in heap && rows[j].name in heap[BranchHandle(k)]
    ensures heap[BranchHandle(k)][rows[j].name] == BranchHandle(j)
  {
    ChildNested(rows, heap, j, k);
  }

  /** A row listed before its parent is lost: the parent's `category_branch = {}` came after
      the child was hung, and its name is popped from the top level. */
  lemma ChildBeforeParentLost(rows: seq<Category>, heap: Heap, j: int, k: int)
    requires WellFormed(rows) && TreeShape(rows, heap)
    requires 0 <= j < k < |rows| && ChildOf(rows, j, k)
    ensures rows[j].name !in heap[0]
    ensures forall m :: 0 <= m < |rows| ==> BranchHandle(m) in heap && rows[j].name !in heap[BranchHandle(m)]
  {
    NameIndexOf(rows, j);
    forall m | 0 <= m < |rows|
      ensures BranchHandle(m) in heap && rows[j].name !in heap[BranchHandle(m)]
    {
      assert ChildOf(rows, j, m) ==> m == k;
    }
  }

  /** Electronics with its child Phones gives `{"Electronics": {"Phones": {}}}`. */
  lemma ElectronicsPhones(heap: Heap)
    requires TreeShape([Category(1, "Electronics", None, false), Category(2, "Phones", Some(1), true)], heap)
    ensures heap[0] == map["Electronics" := 1]
    ensures 1 in heap && heap[1] == map["Phones" := 2]
    ensures 2 in heap && heap[2] == map[]
  {
    var rows := [Category(1, "Electronics", None, false), Category(2, "Phones", Some(1), true)];
    assert NameIndex(rows, "Electronics") == 0;
    assert NameIndex(rows, "Phones") == 1;
    forall n | n != "Electronics" && n != "Phones"
      ensures NameIndex(rows, n) == -1
    {
      assert rows[..1] == [rows[0]];
    }
    assert BranchIs(rows, heap[1], 0, 2);
    assert BranchIs(rows, heap[2], 1, 2);
  }

  // ---------------------------------------------------------------------------
  // The cache
  // ---------------------------------------------------------------------------

  /** Python truthiness of a cached tree: `None` and `{}` are falsy. */
  predicate TreeTruthy(cached: Option<Heap>)
  {
    cached.Some? && 0 in cached.value && cached.value[0] != map[]
  }

  /** The `Category` table with the class attribute `Category.cached_tree`. `builds` counts
      the times the tree was computed from the rows. */
  class CategoryTable {
    var rows: seq<Category>
    var cachedTree: Option<Heap>
    var builds: nat

    /** A cached tree is the tree of the current rows. */
    ghost predicate Valid()
      reads this
    {
      cachedTree.Some? ==> TreeShape(rows, cachedTree.value)
    }

    constructor (initial: seq<Category>)
      ensures rows == initial && cachedTree == None && builds == 0 && Valid()
    {
      rows := initial;
      cachedTree := None;
      builds := 0;
    }

    /** `categories_tree`: a truthy cached tree is returned as it is; otherwise the tree is
        computed and cached. */
    method CategoriesTree() returns (tree: Heap)
      requires WellFormed(rows) && Valid()
      modifies this
      ensures rows == old(rows) && Valid()
      ensures TreeShape(rows, tree) && cachedTree == Some(tree)
      ensures old(TreeTruthy(cachedTree)) ==> tree == old(cachedTree).value && builds == old(builds)
      ensures !old(TreeTruthy(cachedTree)) ==> builds == old(builds) + 1
    {
      if TreeTruthy(cachedTree) {
        return cachedTree.value;
      }
      tree := BuildTree(rows);
      cachedTree := Some(tree);
      builds := builds + 1;
    }

    /** The `after_insert` hook. */
    method Insert(c: Category)
      modifies this
      ensures rows == old(rows) + [c] && cachedTree == None && builds == old(builds) && Valid()
    {
      rows := rows + [c];
      cachedTree := None;
    }

    /** `Category.insert` as the code runs it: `setup_events` is never called, so no hook
        clears the cache; and were it called, `clear_cache()` takes no arguments while mapper
        events pass `(mapper, connection, target)`. A cached tree then outlives the insert
        and, for a new top-level category, no longer describes the rows. */
    method InsertAsWritten(c: Category)
      modifies this
      ensures rows == old(rows) + [c] && cachedTree == old(cachedTree) && builds == old(builds)
      ensures (&& old(Valid()) && old(cachedTree).Some? && !HasParent(c)
               && forall j :: 0 <= j < |old(rows)| ==> old(rows)[j].name != c.name) ==> !Valid()
    {
      if Valid() && cachedTree.Some? && !HasParent(c) && forall j :: 0 <= j < |rows| ==> rows[j].name != c.name {
        StaleTree(rows, cachedTree.value, c);
      }
      rows := rows + [c];
    }

    /** The `after_update` hook. */
    method Update(k: nat, c: Category)
      requires k < |rows|
      modifies this
      ensures rows == old(rows)[k := c] && cachedTree == None && builds == old(builds) && Valid()
    {
      rows := rows[k := c];
      cachedTree := None;
    }

    /** The `after_delete` hook. */
    method Delete(k: nat)
      requires k < |rows|
      modifies this
      ensures rows == old(rows)[..k] + old(rows)[k + 1..] && cachedTree == None
      ensures builds == old(builds) && Valid()
    {
      rows := rows[..k] + rows[k + 1..];
      cachedTree := None;
    }
  }

  /** The tree of `rows` has no entry for a new top-level category, so it is not the tree of
      the rows once that category is added. */
  lemma StaleTree(rows: seq<Category>, heap: Heap, c: Category)
    requires TreeShape(rows, heap) && !HasParent(c)
    requires forall j :: 0 <= j < |rows| ==> rows[j].name != c.name
    ensures !TreeShape(rows + [c], heap)
  {
    NameIndexLast(rows, c.name);
    assert c.name !in heap[0];
    var more := rows + [c];
    assert NameIndex(more, c.name) == |rows| && more[|rows|] == c;
    assert OnTop(more, |rows|, |more|);
  }

  /** Two requests with no change in between compute a non-empty tree at most once; an
      empty tree is falsy and is computed again. */
  method TwoRequests(table: CategoryTable) returns (first: Heap, second: Heap)
    requires WellFormed(table.rows) && table.Valid()
    modifies table
    ensures TreeShape(table.rows, first) && TreeShape(table.rows, second)
    ensures TreeTruthy(Some(first)) ==> second == first && table.builds <= old(table.builds) + 1
    ensures !TreeTruthy(Some(first)) ==> table.builds == old(table.builds) + 2
  {
    first := table.CategoriesTree();
    second := table.CategoriesTree();
  }

  // ---------------------------------------------------------------------------
  // Flattening a nested dict into rows
  // ---------------------------------------------------------------------------

  /** A key of the nested dict `tree_generator` flattens, with the dict of its children. */
  datatype CategoryNode = CategoryNode(name: string, children: seq<CategoryNode>)

  /** A `Category` as the generator yields it; `id` stays None unless the caller flushes it
      before asking for the next one. */
  datatype NewCategory = NewCategory(name: string, parent: Option<nat>, assignable: bool, id: Option<nat>)

  /** The number of keys at every nesting level. */
  function Size(items: seq<CategoryNode>): nat
    decreases items
  {
    if items == [] then 0 else 1 + Size(items[0].children) + Size(items[1..])
  }

  /** The keys in pre-order: each key, then its children's keys, then its later siblings'. */
  function Preorder(items: seq<CategoryNode>): (r: seq<CategoryNode>)
    ensures |r| == Size(items)
    decreases items
  {
    if items == [] then [] else [items[0]] + Preorder(items[0].children) + Preorder(items[1..])
  }

  /** The id a flushed row receives: the store hands out consecutive ids from `next`. */
  function Advance(next: Option<nat>, step: nat): Option<nat>
  {
    if next.Some? then Some(next.value + step) else None
  }

  /** `Category.tree_generator(categories, parent_id)`. With `next == Some(n)` the caller
      flushes every yielded row, which then gets id `n`, `n + 1`, ... in order; with
      `next == None` nothing is flushed and every id is None. */
  function Generate(items: seq<CategoryNode>, parent: Option<nat>, next: Option<nat>): (r: seq<NewCategory>)
    ensures |r| == Size(items)
    decreases items
  {
    if items == [] then []
    else
      var subcategory := NewCategory(items[0].name, parent, items[0].children == [], next);
      [subcategory]
      + Generate(items[0].children, subcategory.id, Advance(next, 1))
      + Generate(items[1..], parent, Advance(next, 1 + Size(items[0].children)))
  }

  /** Row `i` carries the name of key `i` and is assignable exactly when that key has no
      children. */
  predicate MatchesKeys(r: seq<NewCategory>, keys: seq<CategoryNode>)
  {
    |r| == |keys| && forall i :: 0 <= i < |r| ==> r[i].name == keys[i].name && (r[i].assignable <==> keys[i].children == [])
  }

  /** Row `i` has id `n + i`. */
  predicate IdsFrom(r: seq<NewCategory>, n: nat)
  {
    forall i :: 0 <= i < |r| ==> r[i].id == Some(n + i)
  }

  /** Every row's parent is `parent` or the id of an earlier row, the ids starting at `n`. */
  predicate ParentsEarlier(r: seq<NewCategory>, parent: Option<nat>, n: nat)
  {
    forall i :: 0 <= i < |r| ==> r[i].parent == parent || (r[i].parent.Some? && n <= r[i].parent.value < n + i)
  }

  /** `Generate` on a non-empty forest: the first key's row, its subtree's rows, then the
      rows of the remaining keys. */
  lemma {:induction false} GenerateCons(items: seq<CategoryNode>, parent: Option<nat>, next: Option<nat>,
                      kidsNext: Option<nat>, restNext: Option<nat>)
    requires items != []
    requires kidsNext == Advance(next, 1) && restNext == Advance(next, 1 + Size(items[0].children))
    ensures Generate(items, parent, next) ==
      ([NewCategory(items[0].name, parent, items[0].children == [], next)]
       + Generate(items[0].children, next, kidsNext))
      + Generate(items[1..], parent, restNext)
  {
  }

  lemma MatchesConcat(a: seq<NewCategory>, ka: seq<CategoryNode>, b: seq<NewCategory>, kb: seq<CategoryNode>)
    requires MatchesKeys(a, ka) && MatchesKeys(b, kb)
    ensures MatchesKeys(a + b, ka + kb)
  {
    forall i | 0 <= i < |a + b|
      ensures (a + b)[i].name == (ka + kb)[i].name && ((a + b)[i].assignable <==> (ka + kb)[i].children == [])
    {
      if i >= |a| {
        assert (a + b)[i] == b[i - |a|] && (ka + kb)[i] == kb[i - |a|];
      }
    }
  }

  lemma IdsConcat(a: seq<NewCategory>, b: seq<NewCategory>, n: nat, m: nat)
    requires m == n + |a| && IdsFrom(a, n) && IdsFrom(b, m)
    ensures IdsFrom(a + b, n)
  {
    forall i | |a| <= i < |a + b| ensures (a + b)[i].id == Some(n + i) {
      assert (a + b)[i] == b[i - |a|];
    }
  }

  lemma ParentsConcat(a: seq<NewCategory>, b: seq<NewCategory>, parent: Option<nat>, n: nat, pb: Option<nat>, m: nat)
    requires m == n + |a| && ParentsEarlier(a, parent, n) && ParentsEarlier(b, pb, m)
    requires pb == parent || (pb.Some? && n <= pb.value < m)
    ensures ParentsEarlier(a + b, parent, n)
  {
    forall i | |a| <= i < |a + b|
      ensures (a + b)[i].parent == parent || ((a + b)[i].parent.Some? && n <= (a + b)[i].parent.value < n + i)
    {
      assert (a + b)[i] == b[i - |a|];
    }
  }

  /** Exactly one row per key, in pre-order, assignable exactly when its key has no children. */
  lemma {:induction false} GenerateFollowsPreorder(items: seq<CategoryNode>, parent: Option<nat>, next: Option<nat>)
    ensures MatchesKeys(Generate(items, parent, next), Preorder(items))
    decreases items
  {
    if items != [] {
      var ch := items[0].children;
      GenerateFollowsPreorder(ch, next, Advance(next, 1));
      GenerateFollowsPreorder(items[1..], parent, Advance(next, 1 + Size(ch)));
      var head := [NewCategory(items[0].name, parent, ch == [], next)];
      var kids := Generate(ch, next, Advance(next, 1));
      GenerateCons(items, parent, next, Advance(next, 1), Advance(next, 1 + Size(ch)));
      MatchesConcat(head, [items[0]], kids, Preorder(ch));
      MatchesConcat(head + kids, [items[0]] + Preorder(ch), Generate(items[1..], parent, Advance(next, 1 + Size(ch))),
                    Preorder(items[1..]));
    }
  }

  /** With a flush after every yield, the rows get consecutive ids in the order yielded. */
  lemma {:induction false} GenerateIds(items: seq<CategoryNode>, parent: Option<nat>, n: nat)
    ensures IdsFrom(Generate(items, parent, Some(n)), n)
    decreases items
  {
    if items != [] {
      var ch := items[0].children;
      var head := [NewCategory(items[0].name, parent, ch == [], Some(n))];
      var kids := Generate(ch, Some(n), Some(n + 1));
      var rest := Generate(items[1..], parent, Some(n + 1 + Size(ch)));
      assert IdsFrom(head + kids, n) by {
        GenerateIds(ch, Some(n), n + 1);
        IdsConcat(head, kids, n, n + 1);
      }
      assert IdsFrom((head + kids) + rest, n) by {
        GenerateIds(items[1..], parent, n + 1 + Size(ch));
        IdsConcat(head + kids, rest, n, n + 1 + Size(ch));
      }
      GenerateCons(items, parent, Some(n), Some(n + 1), Some(n + 1 + Size(ch)));
    }
  }

  /** With a flush after every yield, a row's parent is either the caller's `parent_id` or
      the id of a row yielded before it: a category comes before all its descendants. */
  lemma {:induction false} GenerateParentsEarlier(items: seq<CategoryNode>, parent: Option<nat>, n: nat)
    ensures ParentsEarlier(Generate(items, parent, Some(n)), parent, n)
    decreases items
  {
    if items != [] {
      var ch := items[0].children;
      var head := [NewCategory(items[0].name, parent, ch == [], Some(n))];
      var kids := Generate(ch, Some(n), Some(n + 1));
      var rest := Generate(items[1..], parent, Some(n + 1 + Size(ch)));
      assert ParentsEarlier(head + kids, parent, n) by {
        GenerateParentsEarlier(ch, Some(n), n + 1);
        ParentsConcat(head, kids, parent, n, Some(n), n + 1);
      }
      assert ParentsEarlier((head + kids) + rest, parent, n) by {
        GenerateParentsEarlier(items[1..], parent, n + 1 + Size(ch));
        ParentsConcat(head + kids, rest, parent, n, parent, n + 1 + Size(ch));
      }
      GenerateCons(items, parent, Some(n), Some(n + 1), Some(n + 1 + Size(ch)));
    }
  }

  /** Renumbers the parent positions of a block of keys placed `off` positions further on:
      a top-level key of the block (-1) gets `top`, any other key moves with the block. */
  function Shift(ps: seq<int>, off: nat, top: int): (r: seq<int>)
    ensures |r| == |ps|
  {
    seq(|ps|, i requires 0 <= i < |ps| => if ps[i] < 0 then top else ps[i] + off)
  }

  /** For every key in pre-order, the pre-order position of the key whose children dict holds
      it, or -1 for a key of the top level. */
  function ParentPositions(items: seq<CategoryNode>): (pp: seq<int>)
    ensures |pp| == Size(items)
    decreases items
  {
    if items == [] then []
    else
      var ch := items[0].children;
      [-1] + Shift(ParentPositions(ch), 1, 0) + Shift(ParentPositions(items[1..]), 1 + Size(ch), -1)
  }

  /** Unfolds `ParentPositions` once. */
  lemma {:induction false} ParentPositionsCons(items: seq<CategoryNode>)
    requires items != []
    ensures ParentPositions(items) ==
      ([-1] + Shift(ParentPositions(items[0].children), 1, 0))
      + Shift(ParentPositions(items[1..]), 1 + Size(items[0].children), -1)
  {
  }

  /** `pp` gives, for each key of `keys`, an earlier key holding it among its children, or -1
      for a key of `items` itself. */
  predicate TreeParents(items: seq<CategoryNode>, keys: seq<CategoryNode>, pp: seq<int>)
  {
    && |keys| == |pp|
    && forall i :: 0 <= i < |pp| ==>
         && -1 <= pp[i] < i
         && (pp[i] < 0 ==> keys[i] in items)
         && (pp[i] >= 0 ==> keys[i] in keys[pp[i]].children)
  }

  /** `ParentPositions` does point at the parent key: a key at position `pp[i]` before `i`
      whose children hold key `i`, and -1 exactly for the keys of the top level. */
  lemma {:induction false} ParentPositionsTree(items: seq<CategoryNode>)
    ensures TreeParents(items, Preorder(items), ParentPositions(items))
    decreases items
  {
    if items != [] {
      var ch := items[0].children;
      ParentPositionsTree(ch);
      ParentPositionsTree(items[1..]);
      var keys := Preorder(items);
      var pp := ParentPositions(items);
      forall i | 0 <= i < |pp|
        ensures -1 <= pp[i] < i
        ensures pp[i] < 0 ==> keys[i] in items
        ensures pp[i] >= 0 ==> keys[i] in keys[pp[i]].children
      {
        if i == 0 {
          assert keys[0] == items[0];
        } else if i < 1 + Size(ch) {
          ChildParentAt(items, i);
        } else {
          SiblingParentAt(items, i);
        }
      }
    }
  }

  /** A key below the first top-level key: its parent is the first key itself, or a key of
      that subtree, shifted by one. */
  lemma ChildParentAt(items: seq<CategoryNode>, i: int)
    requires items != [] && 0 < i < 1 + Size(items[0].children)
    requires TreeParents(items[0].children, Preorder(items[0].children), ParentPositions(items[0].children))
    ensures var keys, pp := Preorder(items), ParentPositions(items);
      0 <= pp[i] < i && keys[i] in keys[pp[i]].children
  {
    var ch := items[0].children;
    var kr, pr := Preorder(items[1..]), ParentPositions(items[1..]);
    BlockParentAt(items[0], Preorder(ch), kr, ParentPositions(ch), pr, i);
  }

  lemma BlockParentAt(x: CategoryNode, kc: seq<CategoryNode>, kr: seq<CategoryNode>, pc: seq<int>, pr: seq<int>, i: int)
    requires TreeParents(x.children, kc, pc) && 0 < i < 1 + |kc| && |kr| == |pr|
    ensures var keys, pp := [x] + kc + kr, [-1] + Shift(pc, 1, 0) + Shift(pr, 1 + |kc|, -1);
      0 <= pp[i] < i && keys[i] in keys[pp[i]].children
  {
    var j := i - 1;
    var keys, pp := [x] + kc + kr, [-1] + Shift(pc, 1, 0) + Shift(pr, 1 + |kc|, -1);
    assert keys[i] == kc[j] by {
      ConsConcatAt(x, kc, kr, i);
    }
    assert pp[i] == if pc[j] < 0 then 0 else pc[j] + 1 by {
      ConsConcatAt(-1, Shift(pc, 1, 0), Shift(pr, 1 + |kc|, -1), i);
    }
    if pc[j] >= 0 {
      assert keys[pc[j] + 1] == kc[pc[j]] by {
        ConsConcatAt(x, kc, kr, pc[j] + 1);
      }
    } else {
      assert keys[0] == x;
    }
  }

  /** A key after the first top-level key's subtree: a later top-level key, or one whose
      parent lies in the same part, shifted past the first subtree. */
  lemma SiblingParentAt(items: seq<CategoryNode>, i: int)
    requires items != [] && 1 + Size(items[0].children) <= i < Size(items)
    requires TreeParents(items[1..], Preorder(items[1..]), ParentPositions(items[1..]))
    ensures var keys, pp := Preorder(items), ParentPositions(items);
      && -1 <= pp[i] < i
      && (pp[i] < 0 ==> keys[i] in items)
      && (pp[i] >= 0 ==> keys[i] in keys[pp[i]].children)
  {
    var ch := items[0].children;
    var kc, kr := Preorder(ch), Preorder(items[1..]);
    var pc, pr := ParentPositions(ch), ParentPositions(items[1..]);
    RestParentAt(items[0], items[1..], kc, kr, pc, pr, Size(ch), i);
    var keys, pp := [items[0]] + kc + kr, [-1] + Shift(pc, 1, 0) + Shift(pr, 1 + Size(ch), -1);
    assert pp[i] < 0 ==> keys[i] in items by {
      if pp[i] < 0 {
        var k :| 0 <= k < |items[1..]| && items[1..][k] == keys[i];
        assert items[k + 1] == keys[i];
      }
    }
  }

  lemma RestParentAt(x: CategoryNode, rest: seq<CategoryNode>, kc: seq<CategoryNode>, kr: seq<CategoryNode>,
                     pc: seq<int>, pr: seq<int>, size: nat, i: int)
    requires TreeParents(rest, kr, pr) && |kc| == |pc| == size && 1 + size <= i < 1 + size + |kr|
    ensures var keys, pp := [x] + kc + kr, [-1] + Shift(pc, 1, 0) + Shift(pr, 1 + size, -1);
      && -1 <= pp[i] < i
      && (pp[i] < 0 ==> keys[i] in rest)
      && (pp[i] >= 0 ==> keys[i] in keys[pp[i]].children)
  {
    var j := i - 1 - size;
    var keys, pp := [x] + kc + kr, [-1] + Shift(pc, 1, 0) + Shift(pr, 1 + size, -1);
    assert keys[i] == kr[j] by {
      ConsConcatAt(x, kc, kr, i);
    }
    assert pp[i] == if pr[j] < 0 then -1 else pr[j] + 1 + size by {
      ConsConcatAt(-1, Shift(pc, 1, 0), Shift(pr, 1 + size, -1), i);
    }
    if pr[j] >= 0 {
      assert keys[pr[j] + 1 + size] == kr[pr[j]] by {
        ConsConcatAt(x, kc, kr, pr[j] + 1 + size);
      }
    }
  }

  /** Position `i > 0` of `[x] + a + b` lies in `a` or in `b`. */
  lemma ConsConcatAt<T>(x: T, a: seq<T>, b: seq<T>, i: int)
    requires 0 < i < 1 + |a| + |b|
    ensures i < 1 + |a| ==> ([x] + a + b)[i] == a[i - 1]
    ensures i >= 1 + |a| ==> ([x] + a + b)[i] == b[i - 1 - |a|]
  {
  }

  /** With ids from `n`, row `i` has the caller's `parent` when it is a top-level key and
      otherwise the id of the row of its parent key. */
  predicate ParentIdsAt(r: seq<NewCategory>, pp: seq<int>, parent: Option<nat>, n: nat)
  {
    |r| == |pp| && forall i :: 0 <= i < |r| ==> r[i].parent == (if pp[i] < 0 then parent else Some(n + pp[i]))
  }

  /** Without ids, row `i` has no id, and has the caller's `parent` when it is a top-level
      key and None otherwise. */
  predicate UnflushedAt(r: seq<NewCategory>, pp: seq<int>, parent: Option<nat>)
  {
    |r| == |pp| && forall i :: 0 <= i < |r| ==> r[i].id == None && r[i].parent == (if pp[i] < 0 then parent else None)
  }

  lemma ParentIdsConcat(a: seq<NewCategory>, pa: seq<int>, b: seq<NewCategory>, pb: seq<int>, parent: Option<nat>, n: nat)
    requires ParentIdsAt(a, pa, parent, n) && ParentIdsAt(b, pb, parent, n)
    ensures ParentIdsAt(a + b, pa + pb, parent, n)
  {
    forall i | |a| <= i < |a + b|
      ensures (a + b)[i].parent == (if (pa + pb)[i] < 0 then parent else Some(n + (pa + pb)[i]))
    {
      assert (a + b)[i] == b[i - |a|] && (pa + pb)[i] == pb[i - |a|];
    }
  }

  /** A block whose parents were stated from `m` on, with `p` for its own top level, seen
      from `n`: its top level gets `top`, which stands for `p`. */
  lemma ParentIdsShift(b: seq<NewCategory>, pb: seq<int>, p: Option<nat>, m: nat, parent: Option<nat>, n: nat, top: int)
    requires ParentIdsAt(b, pb, p, m) && n <= m
    requires (top == -1 && p == parent) || (top == 0 && p == Some(n))
    ensures ParentIdsAt(b, Shift(pb, m - n, top), parent, n)
  {
  }

  lemma UnflushedConcat(a: seq<NewCategory>, pa: seq<int>, b: seq<NewCategory>, pb: seq<int>, parent: Option<nat>)
    requires UnflushedAt(a, pa, parent) && UnflushedAt(b, pb, parent)
    ensures UnflushedAt(a + b, pa + pb, parent)
  {
    forall i | |a| <= i < |a + b|
      ensures (a + b)[i].id == None && (a + b)[i].parent == (if (pa + pb)[i] < 0 then parent else None)
    {
      assert (a + b)[i] == b[i - |a|] && (pa + pb)[i] == pb[i - |a|];
    }
  }

  lemma UnflushedShift(b: seq<NewCategory>, pb: seq<int>, p: Option<nat>, parent: Option<nat>, off: nat, top: int)
    requires UnflushedAt(b, pb, p)
    requires (top == -1 && p == parent) || (top == 0 && p == None)
    ensures UnflushedAt(b, Shift(pb, off, top), parent)
  {
  }

  /** The parent ids of a key's row, its children's rows and its later siblings' rows. */
  lemma ParentIdsStep(r: seq<NewCategory>, pp: seq<int>, head: seq<NewCategory>, kids: seq<NewCategory>,
                      rest: seq<NewCategory>, pc: seq<int>, ps: seq<int>, parent: Option<nat>, n: nat, size: nat)
    requires r == (head + kids) + rest && pp == ([-1] + Shift(pc, 1, 0)) + Shift(ps, 1 + size, -1)
    requires |head| == 1 && head[0].parent == parent
    requires ParentIdsAt(kids, pc, Some(n), n + 1)
    requires ParentIdsAt(rest, ps, parent, n + 1 + size)
    ensures ParentIdsAt(r, pp, parent, n)
  {
    var pk := Shift(pc, 1, 0);
    assert ParentIdsAt(head + kids, [-1] + pk, parent, n) by {
      ParentIdsShift(kids, pc, Some(n), n + 1, parent, n, 0);
      ParentIdsConcat(head, [-1], kids, pk, parent, n);
    }
    ParentIdsShift(rest, ps, parent, n + 1 + size, parent, n, -1);
    ParentIdsConcat(head + kids, [-1] + pk, rest, Shift(ps, 1 + size, -1), parent, n);
  }

  /** With a flush after every yield, a top-level row gets the caller's `parent_id` and every
      other row the id of the row of its parent key. */
  lemma {:induction false} GenerateParentIds(items: seq<CategoryNode>, parent: Option<nat>, n: nat)
    ensures ParentIdsAt(Generate(items, parent, Some(n)), ParentPositions(items), parent, n)
    decreases items
  {
    if items != [] {
      GenerateCons(items, parent, Some(n), Some(n + 1), Some(n + 1 + Size(items[0].children)));
      ParentPositionsCons(items);
      GenerateParentIds(items[0].children, Some(n), n + 1);
      GenerateParentIds(items[1..], parent, n + 1 + Size(items[0].children));
      ParentIdsStep(Generate(items, parent, Some(n)), ParentPositions(items),
                    [NewCategory(items[0].name, parent, items[0].children == [], Some(n))],
                    Generate(items[0].children, Some(n), Some(n + 1)),
                    Generate(items[1..], parent, Some(n + 1 + Size(items[0].children))),
                    ParentPositions(items[0].children), ParentPositions(items[1..]), parent, n, Size(items[0].children));
    }
  }

  /** Without flushes no row has an id; a top-level row gets the caller's `parent_id` and every
      row below the top level gets None. */
  lemma {:induction false} GenerateUnflushed(items: seq<CategoryNode>, parent: Option<nat>)
    ensures UnflushedAt(Generate(items, parent, None), ParentPositions(items), parent)
    decreases items
  {
    if items != [] {
      var ch := items[0].children;
      var head := [NewCategory(items[0].name, parent, ch == [], None)];
      var kids := Generate(ch, None, None);
      var rest := Generate(items[1..], parent, None);
      var pk := Shift(ParentPositions(ch), 1, 0);
      var pr := Shift(ParentPositions(items[1..]), 1 + Size(ch), -1);
      assert UnflushedAt(head + kids, [-1] + pk, parent) by {
        GenerateUnflushed(ch, None);
        UnflushedShift(kids, ParentPositions(ch), None, parent, 1, 0);
        UnflushedConcat(head, [-1], kids, pk, parent);
      }
      assert UnflushedAt((head + kids) + rest, ([-1] + pk) + pr, parent) by {
        GenerateUnflushed(items[1..], parent);
        UnflushedShift(rest, ParentPositions(items[1..]), parent, parent, 1 + Size(ch), -1);
        UnflushedConcat(head + kids, [-1] + pk, rest, pr, parent);
      }
      GenerateCons(items, parent, None, None, None);
    }
  }

  /** The rows the store holds after a flushed run from the top level: row `i` has id `n + i`
      (see GenerateIds). */
  function StoredRows(r: seq<NewCategory>, n: nat): (rows: seq<Category>)
    ensures |rows| == |r|
    ensures forall i :: 0 <= i < |r| ==> rows[i] == Category(n + i, r[i].name, r[i].parent, r[i].assignable)
  {
    seq(|r|, i requires 0 <= i < |r| => Category(n + i, r[i].name, r[i].parent, r[i].assignable))
  }

  /** Populating the table from the top level with a flush after every yield lists every
      parent before its children, so `categories_tree` nests every row under its parent. */
  lemma GeneratedParentsFirst(items: seq<CategoryNode>, n: nat)
    ensures ParentsFirst(StoredRows(Generate(items, None, Some(n)), n))
  {
    var r := Generate(items, None, Some(n));
    var rows := StoredRows(r, n);
    GenerateParentsEarlier(items, None, n);
    forall j, k | 0 <= j < |rows| && 0 <= k < |rows| && ChildOf(rows, j, k)
      ensures k < j
    {
      assert r[j].parent.Some? && n <= r[j].parent.value < n + j;
    }
  }
}

=== FILE: chats.dfy ===
/** Chats about listings: who may open one, get-or-create on a listing, posting a message
    and the pages of chats and of messages (newest first). */
module Chats {
  import opened Errors
  import opened Text
  import opened ModelBase
  import opened Guards

  /** `PAGE_SIZE` of the chat routes. */
  const PAGE_SIZE: nat := 30

  /** A row of the `Chat` table; `members` are profile ids, `lastMessage` a message id. */
  datatype Chat = Chat(
    id: nat,
    uuid: string,
    listing: Option<nat>,
    subject: string,
    members: seq<nat>,
    lastMessage: Option<nat>)

  /** A row of the `Message` table; `ts` is `ts_spawn`. */
  datatype Message = Message(id: nat, chat: nat, author: nat, text: string, ts: int)

  /** `Chat.about_listing(listing)`: the listing's title as subject and its seller as the
      only member. */
  function AboutListing(id: nat, uuid: string, listing: ListingInfo): (c: Chat)
    ensures c.subject == listing.title && c.listing == Some(listing.id)
    ensures c.members == [listing.seller] && c.lastMessage.None?
  {
    Chat(id, uuid, Some(listing.id), listing.title, [listing.seller], None)
  }

  /** `Chat.members` is stored in the link table `association('Chat', 'Profile')`. */
  lemma MembersTable()
    ensures AssociationName("Chat", "Profile") == "AssociationChatProfile"
  {
    assert LexLessEq("Chat", "Profile");
  }

  // ---------------------------------------------------------------------------
  // Pages
  // ---------------------------------------------------------------------------

  /** `.offset(page * PAGE_SIZE).limit(PAGE_SIZE).all()`; a negative offset is refused by
      the store. */
  function Page<T(==,!new)>(rows: seq<T>, page: int): (r: Result<seq<T>>)
    ensures r.Err? <==> page < 0
    ensures r.Err? ==> r.error == NEGATIVE_OFFSET
    ensures r.Ok? ==> |r.value| <= PAGE_SIZE
    ensures r.Ok? ==> forall i :: 0 <= i < |r.value| ==>
      page * PAGE_SIZE + i < |rows| && r.value[i] == rows[page * PAGE_SIZE + i]
    ensures r.Ok? && page * PAGE_SIZE + PAGE_SIZE <= |rows| ==> |r.value| == PAGE_SIZE
    ensures r.Ok? && page * PAGE_SIZE < |rows| < page * PAGE_SIZE + PAGE_SIZE ==>
      page * PAGE_SIZE + |r.value| == |rows|
    ensures r.Ok? && |rows| <= page * PAGE_SIZE ==> r.value == []
    ensures r.Ok? ==> forall x :: x in r.value ==> x in rows
  {
    if page < 0 then Err(NEGATIVE_OFFSET)
    else Ok(Window(rows, page * PAGE_SIZE, PAGE_SIZE))
  }

  /** Messages ordered by `desc(Message.ts_spawn)`. */
  predicate NewestFirstOrder(s: seq<Message>)
  {
    forall i, j :: 0 <= i < j < |s| ==> s[i].ts >= s[j].ts
  }

  /** Put `m` in front of the first message that is older than it. */
  function InsertByTs(m: Message, s: seq<Message>): (r: seq<Message>)
    ensures multiset(r) == multiset(s) + multiset{m}
  {
    if s == [] then [m]
    else if m.ts >= s[0].ts then [m] + s
    else
      assert s == [s[0]] + s[1..];
      [s[0]] + InsertByTs(m, s[1..])
  }

  /** No message in `s` is newer than `ts`. */
  predicate NoneNewer(s: seq<Message>, ts: int)
  {
    forall k :: 0 <= k < |s| ==> s[k].ts <= ts
  }

  /** Inserting a message no newer than `ts` keeps every message no newer than `ts`. */
  lemma {:induction false} InsertByTsNoneNewer(m: Message, s: seq<Message>, ts: int)
    requires NoneNewer(s, ts) && m.ts <= ts
    ensures NoneNewer(InsertByTs(m, s), ts)
  {
    if s != [] && m.ts < s[0].ts {
      var rest := InsertByTs(m, s[1..]);
      assert NoneNewer(s[1..], ts) by {
        forall k | 0 <= k < |s[1..]| ensures s[1..][k].ts <= ts {
          assert s[1..][k] == s[k + 1];
        }
      }
      InsertByTsNoneNewer(m, s[1..], ts);
      var r := [s[0]] + rest;
      forall k | 0 <= k < |r| ensures r[k].ts <= ts {
        if k > 0 {
          assert r[k] == rest[k - 1];
        }
      }
    }
  }

  /** A message in front of ordered messages no newer than it keeps them ordered. */
  lemma ConsOrdered(x: Message, rest: seq<Message>)
    requires NewestFirstOrder(rest) && NoneNewer(rest, x.ts)
    ensures NewestFirstOrder([x] + rest)
  {
    var r := [x] + rest;
    forall i, j | 0 <= i < j < |r|
      ensures r[i].ts >= r[j].ts
    {
      assert r[j] == rest[j - 1];
      if i > 0 {
        assert r[i] == rest[i - 1];
      }
    }
  }

  /** Inserting into messages newest first keeps them newest first. */
  lemma {:induction false} InsertByTsOrdered(m: Message, s: seq<Message>)
    requires NewestFirstOrder(s)
    ensures NewestFirstOrder(InsertByTs(m, s))
  {
    if s == [] {
      assert InsertByTs(m, s) == [m];
    } else if m.ts >= s[0].ts {
      ConsOrdered(m, s);
    } else {
      var tail := s[1..];
      assert NewestFirstOrder(tail) by {
        forall i, j | 0 <= i < j < |tail| ensures tail[i].ts >= tail[j].ts {
          assert tail[i] == s[i + 1] && tail[j] == s[j + 1];
        }
      }
      assert NoneNewer(tail, s[0].ts) by {
        forall k | 0 <= k < |tail| ensures tail[k].ts <= s[0].ts {
          assert tail[k] == s[k + 1];
        }
      }
      InsertByTsOrdered(m, tail);
      InsertByTsNoneNewer(m, tail, s[0].ts);
      ConsOrdered(s[0], InsertByTs(m, tail));
    }
  }

  /** The messages in the order the `messages` relationship returns them, newest first.
      Messages with the same `ts_spawn` keep their table order here; the store may return
      them in any order, and the model fixes this one. */
  function NewestFirst(s: seq<Message>): (r: seq<Message>)
    ensures multiset(r) == multiset(s)
  {
    if s == [] then []
    else
      assert s == [s[0]] + s[1..];
      InsertByTs(s[0], NewestFirst(s[1..]))
  }

  /** `NewestFirst` is ordered newest first. */
  lemma {:induction false} NewestFirstOrdered(s: seq<Message>)
    ensures NewestFirstOrder(NewestFirst(s))
  {
    if s != [] {
      NewestFirstOrdered(s[1..]);
      InsertByTsOrdered(s[0], NewestFirst(s[1..]));
    }
  }

  /** A message at least as recent as every other message comes first. */
  lemma {:induction false} NewestIsFirst(s: seq<Message>, m: Message)
    requires m in s && forall x :: x in s ==> x.ts <= m.ts
    ensures NewestFirst(s) != [] && NewestFirst(s)[0].ts == m.ts
  {
    var r := NewestFirst(s);
    assert m in multiset(r);
    assert forall x :: x in r ==> x in multiset(s);
    NewestFirstOrdered(s);
    var k :| 0 <= k < |r| && r[k] == m;
    assert r[0].ts >= r[k].ts;
    assert r[0] in multiset(r);
    assert r[0] in s;
  }

  function InChat(chatId: nat): Message -> bool
  {
    (m: Message) => m.chat == chatId
  }

  function HasMember(profile: nat): Chat -> bool
  {
    (c: Chat) => profile in c.members
  }

  /** `get_chats`: a page of the chats the profile is a member of; the page holds 30 of them,
      or what is left after `30 * page`. */
  function ChatsPage(chats: seq<Chat>, profile: nat, page: int): (r: Result<seq<Chat>>)
    ensures r.Err? <==> page < 0
    ensures r.Err? ==> r.error == NEGATIVE_OFFSET
    ensures r.Ok? ==> |r.value| <= PAGE_SIZE && forall c :: c in r.value ==> c in chats && profile in c.members
    ensures var n := |Filter(chats, HasMember(profile))|;
      r.Ok? ==> |r.value| == (if n <= page * PAGE_SIZE then 0
                              else if page * PAGE_SIZE + PAGE_SIZE <= n then PAGE_SIZE
                              else n - page * PAGE_SIZE)
  {
    Page(Filter(chats, HasMember(profile)), page)
  }

  /** Every chat the profile is a member of is on some page. */
  lemma ChatOnSomePage(chats: seq<Chat>, profile: nat, c: Chat)
    requires c in chats && profile in c.members
    ensures exists page :: page >= 0 && ChatsPage(chats, profile, page).Ok? && c in ChatsPage(chats, profile, page).value
  {
    var own := Filter(chats, HasMember(profile));
    assert c in own;
    var k :| 0 <= k < |own| && own[k] == c;
    var page := k / PAGE_SIZE;
    DivBounds(k, PAGE_SIZE);
    var r := ChatsPage(chats, profile, page);
    assert r.value[k - page * PAGE_SIZE] == c;
  }

  /** `get_chat_messages`: a page of the chat's messages, newest first. */
  function MessagesPage(messages: seq<Message>, chatId: nat, page: int): (r: Result<seq<Message>>)
    ensures r.Err? <==> page < 0
    ensures r.Ok? ==> |r.value| <= PAGE_SIZE && NewestFirstOrder(r.value)
    ensures r.Ok? ==> forall m :: m in r.value ==> m in messages && m.chat == chatId
    ensures r.Err? ==> r.error == NEGATIVE_OFFSET
    ensures var o := NewestFirst(Filter(messages, InChat(chatId)));
      r.Ok? ==> forall i :: 0 <= i < |r.value| ==>
        page * PAGE_SIZE + i < |o| && r.value[i] == o[page * PAGE_SIZE + i]
    ensures var o := NewestFirst(Filter(messages, InChat(chatId)));
      r.Ok? ==> |r.value| == (if |o| <= page * PAGE_SIZE then 0
                              else if page * PAGE_SIZE + PAGE_SIZE <= |o| then PAGE_SIZE
                              else |o| - page * PAGE_SIZE)
  {
    var own := Filter(messages, InChat(chatId));
    var ordered := NewestFirst(own);
    NewestFirstOrdered(own);
    PageKeepsOrder(ordered, page);
    SameElements(ordered, own);
    Page(ordered, page)
  }

  /** A page of messages ordered newest first is itself ordered newest first. */
  lemma PageKeepsOrder(s: seq<Message>, page: int)
    requires NewestFirstOrder(s)
    ensures Page(s, page).Ok? ==> NewestFirstOrder(Page(s, page).value)
  {
    if page >= 0 {
      var r := Page(s, page).value;
      forall i, j | 0 <= i < j < |r|
        ensures r[i].ts >= r[j].ts
      {
        assert r[i] == s[page * PAGE_SIZE + i] && r[j] == s[page * PAGE_SIZE + j];
      }
    }
  }

  /** Sequences with the same multiset have the same members. */
  lemma SameElements<T>(a: seq<T>, b: seq<T>)
    requires multiset(a) == multiset(b)
    ensures forall x :: x in a ==> x in b
  {
    forall x | x in a
      ensures x in b
    {
      assert x in multiset(a);
    }
  }

  // ---------------------------------------------------------------------------
  // Handlers
  // ---------------------------------------------------------------------------

  const CHAT_NOT_FOUND: string := "Chat not found"
  const LISTING_NOT_FOUND: string := "Listing not found"

  function ChatUuid(uuid: string): Chat -> bool
  {
    (c: Chat) => c.uuid == uuid
  }

  /** `fetch_chat`: the first chat with the uuid, provided the profile is a member; 404
      otherwise. */
  function FetchChat(chats: seq<Chat>, uuid: string, profile: nat): (r: Result<nat>)
    ensures r.Ok? ==> r.value < |chats| && chats[r.value].uuid == uuid && profile in chats[r.value].members
    ensures r.Err? ==> r.error == NotFound(CHAT_NOT_FOUND)
    ensures r.Err? <==> FirstIndex(chats, ChatUuid(uuid)) < 0 || profile !in chats[FirstIndex(chats, ChatUuid(uuid))].members
  {
    var k := FirstIndex(chats, ChatUuid(uuid));
    if k < 0 || profile !in chats[k].members then Err(NotFound(CHAT_NOT_FOUND)) else Ok(k)
  }

  /** The first of the profile's chats about the listing. */
  function ChatAbout(profile: nat, listing: nat): Chat -> bool
  {
    (c: Chat) => profile in c.members && c.listing == Some(listing)
  }

  /** The first listing with the uuid. */
  function ListingWithUuid(uuid: string): ListingInfo -> bool
  {
    (l: ListingInfo) => l.uuid == uuid
  }

  /** The `Chat` and `Message` tables. */
  class ChatStore {
    var chats: seq<Chat>
    var messages: seq<Message>

    /** Nobody is listed twice among a chat's members. */
    ghost predicate Valid()
      reads this
    {
      forall c :: c in chats ==> Distinct(c.members)
    }

    constructor ()
      ensures chats == [] && messages == [] && Valid()
    {
      chats := [];
      messages := [];
    }

    /** `create_chat`: 404 for an unknown listing; an existing chat of the caller about the
        listing is returned as it is; otherwise a chat about the listing is created with the
        seller and, when it is someone else, the caller as members. */
    method CreateChat(listings: seq<ListingInfo>, profile: nat, listingUuid: string, id: nat, uuid: string)
      returns (r: Result<Chat>)
      requires Valid()
      modifies this
      ensures Valid() && messages == old(messages)
      ensures FirstIndex(listings, ListingWithUuid(listingUuid)) < 0 ==>
        r == Err(NotFound(LISTING_NOT_FOUND)) && chats == old(chats)
      ensures r.Ok? <==> FirstIndex(listings, ListingWithUuid(listingUuid)) >= 0
      ensures r.Ok? ==>
        var l := listings[FirstIndex(listings, ListingWithUuid(listingUuid))];
        var k := FirstIndex(old(chats), ChatAbout(profile, l.id));
        && (k >= 0 ==> r.value == old(chats)[k] && chats == old(chats))
        && (k < 0 ==> chats == old(chats) + [r.value] && r.value.id == id && r.value.uuid == uuid
                      && r.value.subject == l.title && r.value.listing == Some(l.id)
                      && r.value.members == (if profile == l.seller then [l.seller] else [l.seller, profile]))
      ensures r.Ok? ==> profile in r.value.members && Distinct(r.value.members)
      ensures r.Err? ==> chats == old(chats)
    {
      var found := FirstIndex(listings, ListingWithUuid(listingUuid));
      if found < 0 {
        return Err(NotFound(LISTING_NOT_FOUND));
      }
      var listing := listings[found];
      var k := FirstIndex(chats, ChatAbout(profile, listing.id));
      if k >= 0 {
        return Ok(chats[k]);
      }
      var chat := AboutListing(id, uuid, listing);
      if profile != listing.seller {
        chat := chat.(members := chat.members + [profile]);
      }
      chats := chats + [chat];
      r := Ok(chat);
    }

    /** `create_message`: through `fetch_chat`; the message is stored and becomes the chat's
        last message. */
    method CreateMessage(uuid: string, profile: nat, text: string, id: nat, ts: int)
      returns (r: Result<Message>)
      requires Valid()
      modifies this
      ensures Valid()
      ensures var f := FetchChat(old(chats), uuid, profile);
        && (f.Err? ==> r == Err(f.error) && chats == old(chats) && messages == old(messages))
        && (f.Ok? ==>
              var c := old(chats)[f.value];
              && r == Ok(Message(id, c.id, profile, text, ts))
              && messages == old(messages) + [r.value]
              && chats == old(chats)[f.value := c.(lastMessage := Some(id))])
    {
      var f := FetchChat(chats, uuid, profile);
      if f.Err? {
        return Err(f.error);
      }
      var chat := chats[f.value];
      var message := Message(id, chat.id, profile, text, ts);
      chats := chats[f.value := chat.(lastMessage := Some(id))];
      assert forall c :: c in chats ==> c in old(chats) || c.members == chat.members;
      messages := messages + [message];
      r := Ok(message);
    }
  }

  /** Asking twice for a chat about the same listing gives the same chat and creates at most
      one. */
  method CreateChatTwice(store: ChatStore, listings: seq<ListingInfo>, profile: nat, listingUuid: string,
                         id: nat, uuid: string, id2: nat, uuid2: string)
    returns (first: Result<Chat>, second: Result<Chat>)
    requires store.Valid()
    modifies store
    ensures first.Ok? ==> second == first
    ensures |store.chats| <= |old(store.chats)| + 1
  {
    ghost var before := store.chats;
    first := store.CreateChat(listings, profile, listingUuid, id, uuid);
    ghost var middle := store.chats;
    if first.Ok? {
      var l := listings[FirstIndex(listings, ListingWithUuid(listingUuid))];
      var about := ChatAbout(profile, l.id);
      if FirstIndex(before, about) < 0 {
        assert about(first.value);
        FirstIndexAppend(before, first.value, about);
        assert FirstIndex(middle, about) == |before|;
      } else {
        assert middle == before;
      }
      assert middle[FirstIndex(middle, about)] == first.value;
    }
    second := store.CreateChat(listings, profile, listingUuid, id2, uuid2);
  }

  /** Appending the first row that satisfies `p` makes it the one found. */
  lemma FirstIndexAppend<T>(rows: seq<T>, x: T, p: T -> bool)
    requires FirstIndex(rows, p) < 0 && p(x)
    ensures FirstIndex(rows + [x], p) == |rows|
  {
    var k := FirstIndex(rows + [x], p);
    assert (rows + [x])[|rows|] == x;
    assert forall j :: 0 <= j < |rows| ==> (rows + [x])[j] == rows[j];
  }

  /** A message posted at a time no earlier than any other message of its chat heads the
      first page of that chat. */
  lemma PostedMessageHeadsFirstPage(messages: seq<Message>, m: Message)
    requires forall x :: x in messages && x.chat == m.chat ==> x.ts <= m.ts
    ensures var p := MessagesPage(messages + [m], m.chat, 0);
      p.Ok? && p.value != [] && p.value[0].ts == m.ts
  {
    var s := messages + [m];
    var own := Filter(s, InChat(m.chat));
    assert m in s;
    NewestIsFirst(own, m);
  }
}

=== FILE: database.dfy ===
/** The database manager: the retrying executor, the session scope and the migration walk. */
module Database {
  import opened Errors

  // ---------------------------------------------------------------------------
  // RetryingSession.execute
  // ---------------------------------------------------------------------------

  /** What one call of the underlying `Session.execute` produces. */
  datatype Attempt<T> = Rows(rows: T) | Failed(error: Error)

  /** The result of `RetryingSession.execute` and how many underlying calls it made. */
  datatype Execution<T> = Execution(outcome: Result<T>, calls: nat)

  function AsResult<T>(a: Attempt<T>): Result<T>
  {
    match a
    case Rows(rows) => Ok(rows)
    case Failed(e) => Err(e)
  }

  /** `RetryingSession.execute(..., retry)`. The store is an oracle: `underlying(k)` is what
      the k-th underlying call returns, and this call starts at call number `first`. */
  function Execute<T>(underlying: nat -> Attempt<T>, first: nat, retry: bool): (r: Execution<T>)
    ensures 1 <= r.calls <= 2
    ensures r.calls == 2 <==> !retry && underlying(first) == Failed(OperationalError)
    ensures r.calls == 1 ==> r.outcome == AsResult(underlying(first))
    ensures r.calls == 2 ==> r.outcome == AsResult(underlying(first + 1))
    decreases if retry then 0 else 1
  {
    match underlying(first)
    case Rows(rows) => Execution(Ok(rows), 1)
    case Failed(e) =>
      if e != OperationalError || retry then Execution(Err(e), 1)
      else
        var again := Execute(underlying, first + 1, true);
        Execution(again.outcome, again.calls + 1)
  }

  /** An `OperationalError` escapes only when both attempts failed with it; any other
      error escapes from the first attempt, without a retry. */
  lemma ExecuteErrors<T>(underlying: nat -> Attempt<T>, first: nat)
    ensures var r := Execute(underlying, first, false);
      && (r.outcome == Err(OperationalError) <==>
          underlying(first) == Failed(OperationalError) && underlying(first + 1) == Failed(OperationalError))
      && (underlying(first).Failed? && underlying(first).error != OperationalError ==>
          r == Execution(Err(underlying(first).error), 1))
  {
  }

  // ---------------------------------------------------------------------------
  // Database.start_session
  // ---------------------------------------------------------------------------

  /** What `start_session` does, in order. Sessions are numbered in creation order. */
  datatype Step =
    | ConnectAttempt           // Database.connect() was called
    | CreateSession(id: nat)   // Database.sessionmaker()
    | Bind(id: nat)            // session_context.set(session)
    | RunBody(bound: nat)      // the scope's body ran, seeing this bound session
    | Commit(id: nat)
    | Rollback(id: nat)
    | Close(id: nat)
    | Reset                    // session_context.reset(token)

  /** `session.commit()` raised `e` and the `except SQLAlchemyError` clause caught it. */
  predicate RolledBack(commit: Option<Error>)
  {
    commit.Some? && IsStoreError(commit.value)
  }

  /** The steps of one `start_session` scope once a session `s` exists: a raising body
      (`body == Some(e)`) stops everything after `yield`; `commit` is what `session.commit()`
      raised (None when it succeeded). */
  function ScopeSteps(s: nat, body: Option<Error>, commit: Option<Error>): seq<Step>
  {
    [CreateSession(s), Bind(s), RunBody(s)] +
    if body.Some? then []
    else [Commit(s)] + (if RolledBack(commit) then [Rollback(s)] else []) + [Close(s), Reset]
  }

  /** The session is created, bound and the body run, in that order; commit is attempted
      exactly on a normal exit and rolled back exactly when it raised a store error; close
      and reset end every normal exit, whatever the commit raised; a scope never connects. */
  lemma ScopeStepsOrder(s: nat, body: Option<Error>, commit: Option<Error>)
    ensures var r := ScopeSteps(s, body, commit);
      && |r| >= 3 && r[..3] == [CreateSession(s), Bind(s), RunBody(s)]
      && (body.Some? <==> |r| == 3)
      && (body.None? ==> r[|r| - 2..] == [Close(s), Reset])
      && ((Commit(s) in r) <==> body.None?)
      && ((Rollback(s) in r) <==> body.None? && commit.Some? && IsStoreError(commit.value))
      && (body.None? ==> |r| == (if RolledBack(commit) then 7 else 6) && r[3] == Commit(s))
      && ConnectAttempt !in r
  {
  }

  /** What escapes a `start_session` scope: the body's error; otherwise a commit error that
      is not an `SQLAlchemyError`, which the `except` clause does not catch. */
  function ScopeRaised(body: Option<Error>, commit: Option<Error>): (r: Option<Error>)
    ensures body.Some? ==> r == body
    ensures body.None? ==> (r.None? <==> commit.None? || IsStoreError(commit.value))
    ensures body.None? && r.Some? ==> r == commit
  {
    if body.Some? then body
    else if commit.Some? && !IsStoreError(commit.value) then commit
    else None
  }

  /** The steps of `start_session` from a database state (`connected`: `Database.engine` is set;
      `ready`: `Database.sessionmaker` exists). */
  function SessionSteps(connected: bool, ready: bool, connectOk: bool, s: nat,
                        body: Option<Error>, commit: Option<Error>): (r: seq<Step>)
    ensures (ConnectAttempt in r) <==> !connected
    ensures !connected ==> r[0] == ConnectAttempt
    ensures (CreateSession(s) in r) <==>
            (if connected then ready else connectOk)
  {
    ScopeStepsOrder(s, body, commit);
    if !connected then
      [ConnectAttempt] + (if connectOk then ScopeSteps(s, body, commit) else [])
    else if ready then ScopeSteps(s, body, commit)
    else []
  }

  /** The process-wide database manager: `Database.engine`, `Database.sessionmaker`, the
      `session_context` binding and a record of the session calls made. */
  class Database {
    var engine: bool              // Database.engine is set
    var sessionmakerReady: bool   // Database.sessionmaker has been assigned
    var bound: Option<nat>        // the value session_context holds
    var sessions: nat             // sessions created so far
    var trace: seq<Step>

    constructor ()
      ensures !engine && !sessionmakerReady && bound == None && sessions == 0 && trace == []
    {
      engine, sessionmakerReady, bound, sessions, trace := false, false, None, 0, [];
    }

    /** `Database.connect()`: the engine is assigned before the connection is tried, so a
        failed connection leaves `engine` set and no sessionmaker. */
    method Connect(connectOk: bool) returns (r: Option<Error>)
      modifies this
      ensures engine
      ensures sessionmakerReady == (connectOk || old(sessionmakerReady))
      ensures r == if connectOk then None else Some(TimeoutError("Database connection failed"))
      ensures bound == old(bound) && sessions == old(sessions) && trace == old(trace) + [ConnectAttempt]
    {
      engine := true;
      trace := trace + [ConnectAttempt];
      if !connectOk {
        return Some(TimeoutError("Database connection failed"));
      }
      sessionmakerReady := true;
      r := None;
    }

    /** `with Database.start_session(): body`. The body, the connection attempt and the commit
        are inputs: `body` is what the body raised (None for a normal exit), `connectOk` whether
        a lazy connect succeeds and `commit` what `session.commit()` raised (None on success). */
    method StartSession(connectOk: bool, body: Option<Error>, commit: Option<Error>) returns (raised: Option<Error>)
      modifies this
      ensures trace == old(trace) + SessionSteps(old(engine), old(sessionmakerReady), connectOk, old(sessions), body, commit)
      ensures engine
      ensures !old(engine) && !connectOk ==>
        raised == Some(TimeoutError("Database connection failed")) && bound == old(bound) && sessions == old(sessions)
      ensures old(engine) && !old(sessionmakerReady) ==>
        raised == Some(AttributeError("sessionmaker")) && bound == old(bound) && sessions == old(sessions)
      ensures (if old(engine) then old(sessionmakerReady) else connectOk) ==>
        sessions == old(sessions) + 1 &&
        raised == ScopeRaised(body, commit) &&
        bound == (if body.None? then old(bound) else Some(old(sessions)))
    {
      if !engine {
        var failed := Connect(connectOk);
        if failed.Some? {
          return failed;
        }
      }
      if !sessionmakerReady {
        return Some(AttributeError("sessionmaker"));
      }
      raised := Scope(body, commit);
    }

    /** The part of `start_session` after the engine check: create, bind, run the body, then
        commit (rolling back on a store error), close and reset. */
    method Scope(body: Option<Error>, commit: Option<Error>) returns (raised: Option<Error>)
      modifies this
      ensures trace == old(trace) + ScopeSteps(old(sessions), body, commit)
      ensures sessions == old(sessions) + 1 && raised == ScopeRaised(body, commit)
      ensures bound == (if body.None? then old(bound) else Some(old(sessions)))
      ensures engine == old(engine) && sessionmakerReady == old(sessionmakerReady)
    {
      var s := sessions;
      sessions := sessions + 1;
      trace := trace + [CreateSession(s)];
      var token := bound;
      bound := Some(s);
      trace := trace + [Bind(s)];
      trace := trace + [RunBody(bound.value)];
      if body.Some? {
        assert trace == old(trace) + ScopeSteps(s, body, commit);
        return body;
      }
      ghost var opening := trace;
      trace := trace + [Commit(s)];
      raised := None;
      if commit.Some? {
        if IsStoreError(commit.value) {
          trace := trace + [Rollback(s)];
        } else {
          raised := commit;
        }
      }
      trace := trace + [Close(s)];
      bound := token;
      trace := trace + [Reset];
      assert trace == old(trace) + ScopeSteps(s, body, commit) by {
        assert opening == old(trace) + [CreateSession(s), Bind(s), RunBody(s)];
        assert trace == opening + ([Commit(s)] + (if RolledBack(commit) then [Rollback(s)] else []) + [Close(s), Reset]);
      }
    }
  }

  // ---------------------------------------------------------------------------
  // Database.migrate
  // ---------------------------------------------------------------------------

  datatype OpKind =
    | CreateTable | DropTable | AddColumn | DropColumn | AlterColumn
    | CreateIndex | DropIndex | AddConstraint | DropConstraint

  /** An alembic migration operation: a container (UpgradeOps, ModifyTableOps) or a leaf. */
  datatype MigrationOp = Container(ops: seq<MigrationOp>) | Leaf(kind: OpKind, target: string)

  predicate Invocable(op: MigrationOp)
  {
    op.Leaf? && op.kind != DropTable
  }

  function Size(op: MigrationOp): nat
    decreases op
  {
    match op
    case Leaf(_, _) => 1
    case Container(ops) => 1 + SizeAll(ops)
  }

  function SizeAll(ops: seq<MigrationOp>): nat
    decreases ops
  {
    if ops == [] then 0 else Size(ops[0]) + SizeAll(ops[1..])
  }

  lemma {:induction false} SizeAllAppend(a: seq<MigrationOp>, b: seq<MigrationOp>)
    ensures SizeAll(a + b) == SizeAll(a) + SizeAll(b)
  {
    if a == [] {
      assert a + b == b;
    } else {
      assert (a + b)[0] == a[0];
      assert (a + b)[1..] == a[1..] + b;
      SizeAllAppend(a[1..], b);
      assert SizeAll(a + b) == Size(a[0]) + SizeAll(a[1..] + b);
    }
  }

  /** What popping `op` invokes: itself when it is an invocable leaf. */
  function Own(op: MigrationOp): seq<MigrationOp>
  {
    if Invocable(op) then [op] else []
  }

  /** What popping `op` appends to the work list: its operations when it is a container. */
  function Kids(op: MigrationOp): seq<MigrationOp>
  {
    if op.Container? then op.ops else []
  }

  /** The leaves of one level that `migrate` invokes, in order. */
  function Invoked(q: seq<MigrationOp>): seq<MigrationOp>
  {
    if q == [] then [] else Own(q[0]) + Invoked(q[1..])
  }

  /** The next level: the operations of the containers of `q`, in order. */
  function Children(q: seq<MigrationOp>): seq<MigrationOp>
  {
    if q == [] then [] else Kids(q[0]) + Children(q[1..])
  }

  lemma {:induction false} ChildrenSize(q: seq<MigrationOp>)
    ensures SizeAll(Children(q)) + |q| == SizeAll(q)
  {
    if q != [] {
      ChildrenSize(q[1..]);
      SizeAllAppend(Kids(q[0]), Children(q[1..]));
    }
  }

  /** Breadth-first order: the invocable leaves of one level, then those of the next. */
  function LevelOrder(q: seq<MigrationOp>): seq<MigrationOp>
    decreases SizeAll(q)
  {
    if q == [] then []
    else
      ChildrenSize(q);
      Invoked(q) + LevelOrder(Children(q))
  }

  /** Every leaf in tree order, drop-table operations left out: the reference for "each
      invocable leaf exactly once". */
  function Leaves(op: MigrationOp): seq<MigrationOp>
    decreases op
  {
    match op
    case Leaf(_, _) => if Invocable(op) then [op] else []
    case Container(ops) => LeavesAll(ops)
  }

  function LeavesAll(ops: seq<MigrationOp>): seq<MigrationOp>
    decreases ops
  {
    if ops == [] then [] else Leaves(ops[0]) + LeavesAll(ops[1..])
  }

  lemma {:induction false} LeavesAllAppend(a: seq<MigrationOp>, b: seq<MigrationOp>)
    ensures LeavesAll(a + b) == LeavesAll(a) + LeavesAll(b)
  {
    if a == [] {
      assert a + b == b;
    } else {
      assert (a + b)[0] == a[0];
      assert (a + b)[1..] == a[1..] + b;
      LeavesAllAppend(a[1..], b);
      assert LeavesAll(a + b) == Leaves(a[0]) + LeavesAll(a[1..] + b);
    }
  }

  lemma {:induction false} LeavesSplit(q: seq<MigrationOp>)
    ensures multiset(LeavesAll(q)) == multiset(Invoked(q)) + multiset(LeavesAll(Children(q)))
  {
    if q != [] {
      LeavesSplit(q[1..]);
      LeavesAllAppend(Kids(q[0]), Children(q[1..]));
    }
  }

  /** `migrate` invokes exactly the non-drop-table leaves, each as often as it occurs. */
  lemma {:induction false} LevelOrderIsPermutationOfLeaves(q: seq<MigrationOp>)
    ensures multiset(LevelOrder(q)) == multiset(LeavesAll(q))
    decreases SizeAll(q)
  {
    if q != [] {
      ChildrenSize(q);
      LevelOrderIsPermutationOfLeaves(Children(q));
      LeavesSplit(q);
    }
  }

  /** No drop-table operation (and no container) is ever invoked. */
  lemma {:induction false} LevelOrderInvocable(q: seq<MigrationOp>)
    ensures forall op :: op in LevelOrder(q) ==> Invocable(op)
    decreases SizeAll(q)
  {
    if q != [] {
      ChildrenSize(q);
      LevelOrderInvocable(Children(q));
      InvokedInvocable(q);
    }
  }

  lemma {:induction false} InvokedInvocable(q: seq<MigrationOp>)
    ensures forall op :: op in Invoked(q) ==> Invocable(op)
  {
    if q != [] {
      InvokedInvocable(q[1..]);
    }
  }

  /** `Database.migrate` after the diff is produced: walks the operation tree with a FIFO
      work list and returns the operations passed to `operations.invoke`, in order. */
  method Migrate(upgradeOps: MigrationOp) returns (invoked: seq<MigrationOp>)
    requires upgradeOps.Container?
    ensures upgradeOps.ops == [] ==> invoked == []
    ensures invoked == LevelOrder([upgradeOps])
    ensures forall op :: op in invoked ==> Invocable(op)
    ensures multiset(invoked) == multiset(Leaves(upgradeOps))
  {
    LevelOrderInvocable([upgradeOps]);
    LevelOrderIsPermutationOfLeaves([upgradeOps]);
    assert LeavesAll([upgradeOps]) == Leaves(upgradeOps);
    if upgradeOps.ops == [] {
      assert Children([upgradeOps]) == [];
      return [];
    }
    invoked := [];
    var stack := [upgradeOps];
    // the work list is the rest of one level followed by the start of the next
    ghost var current := stack;
    ghost var next: seq<MigrationOp> := [];
    PendingStart(upgradeOps);
    while stack != []
      invariant stack == current + next
      invariant Pending(invoked, current, next, LevelOrder([upgradeOps]))
      decreases SizeAll(stack)
    {
      if current == [] {
        PendingNextLevel(invoked, next, LevelOrder([upgradeOps]));
        assert stack == next + [];
        current, next := next, [];
      }
      PendingPop(invoked, current, next, LevelOrder([upgradeOps]));
      PopShrinks(current, next);
      var op := stack[0];
      stack := stack[1..];
      if op.Leaf? && op.kind == DropTable {
        // "Tables should be dropped manually"
        assert invoked + Own(op) == invoked && next + Kids(op) == next;
      } else if op.Container? {
        stack := stack + op.ops;
        assert invoked + Own(op) == invoked;
        next := next + op.ops;
      } else {
        assert next + Kids(op) == next;
        invoked := invoked + [op];
      }
      current := current[1..];
    }
  }

  /** Popping the head and appending its operations shrinks the work list. */
  lemma PopShrinks(current: seq<MigrationOp>, next: seq<MigrationOp>)
    requires current != []
    ensures var stack := current + next;
      && stack[0] == current[0]
      && stack[1..] == current[1..] + next
      && stack[1..] + Kids(stack[0]) == current[1..] + (next + Kids(current[0]))
      && SizeAll(stack[1..] + Kids(stack[0])) < SizeAll(stack)
  {
    var stack := current + next;
    assert stack[1..] == current[1..] + next;
    SizeAllAppend([stack[0]], stack[1..]);
    assert [stack[0]] + stack[1..] == stack;
    SizeAllAppend(stack[1..], Kids(stack[0]));
    assert SizeAll([stack[0]]) == Size(stack[0]);
  }

  /** The loop invariant of Migrate: what is invoked so far followed by what the rest of
      the walk will invoke is the whole breadth-first order. */
  ghost predicate Pending(invoked: seq<MigrationOp>, current: seq<MigrationOp>, next: seq<MigrationOp>, target: seq<MigrationOp>)
  {
    invoked + (Invoked(current) + LevelOrder(next + Children(current))) == target
  }

  lemma PendingStart(root: MigrationOp)
    ensures Pending([], [root], [], LevelOrder([root]))
  {
    assert [] + Children([root]) == Children([root]);
  }

  /** Once a level is used up, the work list is exactly the next level. */
  lemma PendingNextLevel(invoked: seq<MigrationOp>, next: seq<MigrationOp>, target: seq<MigrationOp>)
    requires Pending(invoked, [], next, target)
    ensures Pending(invoked, next, [], target)
  {
    var none: seq<MigrationOp> := [];
    calc {
      invoked + (Invoked(next) + LevelOrder(none + Children(next)));
      { assert none + Children(next) == Children(next); }
      invoked + (Invoked(next) + LevelOrder(Children(next)));
      { LevelOrderUnfold(next); }
      invoked + LevelOrder(next);
      { assert Invoked(none) == none && Children(none) == none;
        assert next + Children(none) == next;
        assert Invoked(none) + LevelOrder(next + Children(none)) == LevelOrder(next); }
      invoked + (Invoked(none) + LevelOrder(next + Children(none)));
      target;
    }
  }

  lemma ConsSplit(current: seq<MigrationOp>)
    requires current != []
    ensures Invoked(current) == Own(current[0]) + Invoked(current[1..])
    ensures Children(current) == Kids(current[0]) + Children(current[1..])
  {
  }

  lemma Regroup<T>(a: seq<T>, b: seq<T>, c: seq<T>, d: seq<T>)
    ensures a + ((b + c) + d) == (a + b) + (c + d)
  {
  }

  lemma LevelOrderUnfold(q: seq<MigrationOp>)
    ensures LevelOrder(q) == Invoked(q) + LevelOrder(Children(q))
  {
    if q == [] {
      assert Invoked(q) == [] && Children(q) == [];
    }
  }

  /** Taking the head of the current level: its own leaf is invoked now, its children join
      the end of the next level. */
  lemma PendingPop(invoked: seq<MigrationOp>, current: seq<MigrationOp>, next: seq<MigrationOp>, target: seq<MigrationOp>)
    requires current != []
    requires Pending(invoked, current, next, target)
    ensures Pending(invoked + Own(current[0]), current[1..], next + Kids(current[0]), target)
  {
    var h, t := current[0], current[1..];
    ConsSplit(current);
    var rest := LevelOrder(next + Children(current));
    assert next + Children(current) == (next + Kids(h)) + Children(t);
    assert rest == LevelOrder((next + Kids(h)) + Children(t));
    assert target == invoked + ((Own(h) + Invoked(t)) + rest);
    Regroup(invoked, Own(h), Invoked(t), rest);
  }
}

=== FILE: errors.dfy ===
/** Shared result and error types: the exceptions the Python code raises, as values. */
module Errors {

  datatype Option<+T> = None | Some(value: T)

  /** Either a value or the exception that was raised instead. */
  datatype Result<+T> = Ok(value: T) | Err(error: Error)

  /** The `diag` of a psycopg2 error: the detail line and the table it names. */
  datatype Diag = Diag(messageDetail: string, tableName: string)

  /** A parsed unique-constraint violation: which table, which (reported) column, which value. */
  datatype Violation = Violation(table: string, column: string, value: string)

  datatype Error =
    // raised by the store (SQLAlchemy / psycopg2)
    | OperationalError                       // transient connectivity failure
    | IntegrityError(pgcode: string, diag: Diag)
    | StoreError(code: string)               // any other SQLAlchemyError
    // raised by the persistence layer itself
    | UniqueViolation(violation: Violation)
    | TimeoutError(message: string)
    // Python built-in exceptions the code can run into
    | ValueError
    | KeyError(key: string)
    | AttributeError(name: string)
    | TypeError(keyword: string)             // a keyword argument a constructor does not accept
    // HTTP errors of the route handlers
    | BadRequest(detail: string)
    | Unauthorized
    | Forbidden(reason: Option<string>)
    | NotFound(detail: string)
    | Conflict(detail: string)

  /** The errors that derive from `SQLAlchemyError`: those the store raises. */
  predicate IsStoreError(e: Error)
  {
    e.OperationalError? || e.IntegrityError? || e.StoreError?
  }

  /** The psycopg2 error code of a unique violation. */
  const UNIQUE_VIOLATION: string := "23505"
}

=== FILE: guards.dfy ===
/** The request guards every handler starts with: who is calling, which object the path
    names, whether the caller may touch it, and the translation of unique violations into
    409 responses. Objects are referred to by their position in their table. */
module Guards {
  import opened Errors
  import opened ModelBase

  /** The columns of a `User` (and of its `Profile`) that the handlers read or write.
      `profile` is the profile's id, `company` the id of the user's company if any. */
  datatype User = User(
    id: nat,
    email: string,
    phone: string,
    accessToken: string,
    passwordHash: string,
    profile: nat,
    company: Option<nat>,
    favorites: seq<ListingInfo>)

  /** The columns of a `Listing` that offers, favourites and chats read; `seller` is the
      seller's profile id. */
  datatype ListingInfo = ListingInfo(id: nat, uuid: string, seller: nat, title: string)

  /** `Listing.uuid`, the column `fetch(Listing)` looks the listing up by. */
  function ListingUuid(l: ListingInfo): string { l.uuid }

  /** No further condition on the fetched listing. */
  function AnyListing(l: ListingInfo): bool { true }

  /** The position of the first row satisfying `p`, or -1: `.filter(...).first()` and
      `Model.scalar` as a reference to the object. */
  function FirstIndex<T>(rows: seq<T>, p: T -> bool): (k: int)
    ensures -1 <= k < |rows|
    ensures k >= 0 ==> p(rows[k]) && forall j :: 0 <= j < k ==> !p(rows[j])
    ensures k < 0 ==> forall j :: 0 <= j < |rows| ==> !p(rows[j])
  {
    if rows == [] then -1
    else if p(rows[0]) then 0
    else
      var k := FirstIndex(rows[1..], p);
      assert forall j :: 1 <= j < |rows| ==> rows[j] == rows[1..][j - 1];
      if k < 0 then -1 else k + 1
  }

  /** The object `FirstIndex` points at is the one `Model.scalar` returns. */
  lemma {:induction false} FirstIndexIsScalar<T(!new)>(rows: seq<T>, p: T -> bool)
    ensures FirstIndex(rows, p) < 0 <==> Scalar(rows, p).None?
    ensures FirstIndex(rows, p) >= 0 ==> Scalar(rows, p) == Some(rows[FirstIndex(rows, p)])
    decreases |rows|
  {
    if rows != [] && !p(rows[0]) {
      FirstIndexIsScalar(rows[1..], p);
    }
  }

  /** `current_user`: the first user holding the access token, or 401. */
  function CurrentUser(users: seq<User>, token: string): (r: Result<nat>)
    ensures r.Err? <==> forall j :: 0 <= j < |users| ==> users[j].accessToken != token
    ensures r.Err? ==> r.error == Unauthorized
    ensures r.Ok? ==> r.value < |users| && users[r.value].accessToken == token
    ensures r.Ok? ==> forall j :: 0 <= j < r.value ==> users[j].accessToken != token
  {
    var k := FirstIndex(users, (u: User) => u.accessToken == token);
    if k < 0 then Err(Unauthorized) else Ok(k)
  }

  /** The message of `fetch`'s 404. */
  function NotFoundMessage(className: string): string
  {
    className + " not found"
  }

  /** `fetch(cls)(uuid)`: the first object of the class with that uuid, or 404.
      `filters` are the further conditions some callers hand to `fetch`. */
  function Fetch<T>(rows: seq<T>, uuidOf: T -> string, filters: T -> bool, className: string, uuid: string)
    : (r: Result<nat>)
    ensures r.Err? <==> forall j :: 0 <= j < |rows| ==> !(uuidOf(rows[j]) == uuid && filters(rows[j]))
    ensures r.Err? ==> r.error == NotFound(NotFoundMessage(className))
    ensures r.Ok? ==> r.value < |rows| && uuidOf(rows[r.value]) == uuid && filters(rows[r.value])
  {
    var k := FirstIndex(rows, (x: T) => uuidOf(x) == uuid && filters(x));
    if k < 0 then Err(NotFound(NotFoundMessage(className))) else Ok(k)
  }

  /** `fetch_allowed(cls)(uuid, user)`: the caller is resolved first (401), then the object
      (404), then `obj.allowed(user)` is checked (403). */
  function FetchAllowed<T>(users: seq<User>, token: string, rows: seq<T>, uuidOf: T -> string,
                           filters: T -> bool, allowed: (T, User) -> bool, className: string,
                           uuid: string): (r: Result<(nat, nat)>)
    ensures CurrentUser(users, token).Err? ==> r == Err(Unauthorized)
    ensures CurrentUser(users, token).Ok? && Fetch(rows, uuidOf, filters, className, uuid).Err? ==>
      r == Err(NotFound(NotFoundMessage(className)))
    ensures r.Ok? ==> r.value.0 == CurrentUser(users, token).value &&
                      r.value.1 == Fetch(rows, uuidOf, filters, className, uuid).value &&
                      allowed(rows[r.value.1], users[r.value.0])
    ensures r.Err? && r.error.Forbidden? ==> r.error == Forbidden(None)
    ensures CurrentUser(users, token).Ok? && Fetch(rows, uuidOf, filters, className, uuid).Ok? ==>
      (r.Ok? <==> allowed(rows[Fetch(rows, uuidOf, filters, className, uuid).value],
                          users[CurrentUser(users, token).value]))
  {
    var user := CurrentUser(users, token);
    if user.Err? then Err(user.error)
    else
      var obj := Fetch(rows, uuidOf, filters, className, uuid);
      if obj.Err? then Err(obj.error)
      else if !allowed(rows[obj.value], users[user.value]) then Err(Forbidden(None))
      else Ok((user.value, obj.value))
  }

  /** The attribute `fetch_allowed` looks up on the fetched object. */
  const ALLOWED: string := "allowed"

  /** `fetch_allowed(cls)(uuid, user)` for a class that defines no `allowed`, as `Listing`
      (quicksell/models/listing.py:20-53) and its base `Model` do not: the caller and the object
      are resolved as usual, and then `obj.allowed` raises `AttributeError`. */
  function FetchAllowedAsWritten<T>(users: seq<User>, token: string, rows: seq<T>, uuidOf: T -> string,
                                    filters: T -> bool, className: string, uuid: string): (r: Result<(nat, nat)>)
    ensures r.Err?
    ensures CurrentUser(users, token).Err? ==> r == Err(Unauthorized)
    ensures CurrentUser(users, token).Ok? && Fetch(rows, uuidOf, filters, className, uuid).Err? ==>
      r == Err(NotFound(NotFoundMessage(className)))
    ensures CurrentUser(users, token).Ok? && Fetch(rows, uuidOf, filters, className, uuid).Ok? ==>
      r == Err(AttributeError(ALLOWED))
  {
    var user := CurrentUser(users, token);
    if user.Err? then Err(user.error)
    else
      var obj := Fetch(rows, uuidOf, filters, className, uuid);
      if obj.Err? then Err(obj.error) else Err(AttributeError(ALLOWED))
  }

  /** Whatever `allowed` the class was meant to have, the guard as written refuses the same
      requests with the same 401 and 404, and every request the intended guard would answer,
      with the object or with 403, raises `AttributeError` instead. */
  lemma FetchAllowedAsWrittenRefusesAll<T>(users: seq<User>, token: string, rows: seq<T>, uuidOf: T -> string,
                                           filters: T -> bool, allowed: (T, User) -> bool, className: string,
                                           uuid: string)
    ensures var intended := FetchAllowed(users, token, rows, uuidOf, filters, allowed, className, uuid);
      var written := FetchAllowedAsWritten(users, token, rows, uuidOf, filters, className, uuid);
      && (intended.Err? && (intended.error.Unauthorized? || intended.error.NotFound?) ==> written == intended)
      && (intended.Ok? || intended.error.Forbidden? ==> written == Err(AttributeError(ALLOWED)))
  {
  }

  /** `unique_violation_check`: a unique violation raised by the body becomes a 409 with the
      violation's message; anything else passes through. */
  function UniqueViolationCheck<T>(outcome: Result<T>): (r: Result<T>)
    ensures outcome.Ok? ==> r == outcome
    ensures outcome.Err? && !outcome.error.UniqueViolation? ==> r == outcome
    ensures outcome.Err? && outcome.error.UniqueViolation? ==>
      r == Err(Conflict(ViolationMessage(outcome.error.violation)))
  {
    if outcome.Err? && outcome.error.UniqueViolation? then
      Err(Conflict(ViolationMessage(outcome.error.violation)))
    else outcome
  }

  /** The guard lets no unique violation out, and applying it twice is applying it once. */
  lemma UniqueViolationCheckIdempotent<T>(outcome: Result<T>)
    ensures !(UniqueViolationCheck(outcome).Err? && UniqueViolationCheck(outcome).error.UniqueViolation?)
    ensures UniqueViolationCheck(UniqueViolationCheck(outcome)) == UniqueViolationCheck(outcome)
  {
  }
}

=== FILE: listings.dfy ===
/** Listings: the defaults of a new listing, the filters the search endpoint assembles, the
    per-address view counter and the category checks of creation and update. */
module Listings {
  import opened Errors
  import opened ModelBase
  import opened Categories

  // ---------------------------------------------------------------------------
  // The Listing model
  // ---------------------------------------------------------------------------

  /** `Listing.State`. */
  datatype ListingState = Draft | Active | Sold | Closed | Deleted

  /** Seconds in `DEFAULT_LISTING_EXPIRATION_TIME`, thirty days. */
  const DEFAULT_LISTING_EXPIRATION_TIME: int := 30 * 24 * 60 * 60

  /** `set_expiration_date`, with the clock reading passed in as `now` (in seconds). */
  function ExpirationDate(now: int): (r: int)
    ensures r - now == 2592000
  {
    now + DEFAULT_LISTING_EXPIRATION_TIME
  }

  /** Where a listing is: the body's location dict, or the profile's default location. */
  datatype ListingLocation = Given(d: LocationDict) | ProfileDefault(s: string)

  /** The body of `POST /listings/` (`ListingCreate`); an unsent `quantity` or `location` is
      None and is dropped from the insert's arguments. */
  datatype ListingCreate = ListingCreate(
    title: string,
    description: string,
    price: int,
    isNew: bool,
    category: string,
    quantity: Option<int>,
    location: Option<LocationDict>)

  /** The body of `PATCH /listings/{uuid}/` (`ListingUpdate`): None for a field not sent. */
  datatype ListingUpdate = ListingUpdate(
    title: Option<string>,
    description: Option<string>,
    price: Option<int>,
    isNew: Option<bool>,
    category: Option<string>,
    quantity: Option<int>,
    location: Option<LocationDict>)

  /** The value a keyword argument gives an attribute: the sent one, else what it was. */
  function SentOr<T>(sent: Option<T>, current: T): (r: T)
    ensures sent.None? ==> r == current
    ensures sent.Some? ==> r == sent.value
  {
    if sent.Some? then sent.value else current
  }

  /** A row of the `Listing` table. */
  class Listing {
    const id: nat
    var seller: nat
    var state: ListingState
    var expires: int
    var title: string
    var description: string
    var price: int
    var isNew: bool
    var quantity: int
    var sold: int
    var views: int
    var category: Category
    var location: ListingLocation

    /** `Listing(**params, location=..., category=..., seller=...)`: the columns the body sends,
        and the declared default for every other column. */
    constructor (id: nat, seller: nat, body: ListingCreate, category: Category, location: ListingLocation, now: int)
      ensures this.id == id && this.seller == seller && this.category == category && this.location == location
      ensures title == body.title && description == body.description && price == body.price && isNew == body.isNew
      ensures quantity == SentOr(body.quantity, 1)
      ensures state == Active && expires == ExpirationDate(now) && sold == 0 && views == 0
    {
      this.id := id;
      this.seller := seller;
      this.category := category;
      this.location := location;
      title := body.title;
      description := body.description;
      price := body.price;
      isNew := body.isNew;
      quantity := SentOr(body.quantity, 1);
      state := Active;
      expires := ExpirationDate(now);
      sold := 0;
      views := 0;
    }
  }

  // ---------------------------------------------------------------------------
  // Search filters
  // ---------------------------------------------------------------------------

  /** The query parameters of `GET /listings/`; an absent parameter is None. */
  datatype ListingQuery = ListingQuery(
    title: Option<string>,
    minPrice: Option<int>,
    maxPrice: Option<int>,
    isNew: Option<bool>,
    category: Option<string>,
    seller: Option<string>,
    distance: Option<int>,
    latitude: Option<real>,
    longitude: Option<real>,
    orderBy: string,
    page: int)

  /** One SQL condition of the search. */
  datatype ListingFilter =
    | TitleContains(pattern: string)
    | PriceAtLeast(min: int)
    | PriceAtMost(max: int)
    | IsNew(isNew: bool)
    | CategoryJoin
    | CategoryNamed(name: string)
    | SellerJoin
    | SellerUuid(uuid: string)
    | InRange(latitude: real, longitude: real, distance: int)

  /** What the endpoint returns: the distance-ordered query or the paginated one. */
  datatype ListingSearch =
    | ByDistance(latitude: real, longitude: real, distance: int, filters: seq<ListingFilter>, desc: bool, page: int)
    | Paginated(filters: seq<ListingFilter>, orderBy: string, page: int)

  /** `s.removeprefix(prefix)`. */
  function RemovePrefix(s: string, prefix: string): (r: string)
    ensures r == s || s == prefix + r
    ensures |prefix| <= |s| && s[..|prefix|] == prefix ==> s == prefix + r
    ensures !(|prefix| <= |s| && s[..|prefix|] == prefix) ==> r == s
  {
    if |prefix| <= |s| && s[..|prefix|] == prefix then s[|prefix|..] else s
  }

  /** `s.startswith('-')`. */
  predicate Descending(orderBy: string)
  {
    |orderBy| > 0 && orderBy[0] == '-'
  }

  /** The distance ordering is asked for by exactly two spellings. */
  lemma DistanceOrderSpellings(orderBy: string)
    ensures RemovePrefix(orderBy, "-") == "distance" <==> orderBy == "distance" || orderBy == "-distance"
  {
    if orderBy == "-distance" {
      assert orderBy[..1] == "-";
    } else if orderBy == "distance" {
      assert orderBy[..1] != "-" by { assert orderBy[0] == 'd'; }
    } else {
      assert RemovePrefix(orderBy, "-") != "distance" by {
        assert "-" + "distance" == "-distance";
      }
    }
  }

  /** Distance, latitude and longitude are all given and non-zero. */
  predicate GeoGiven(q: ListingQuery)
  {
    && q.distance.Some? && q.distance.value != 0
    && q.latitude.Some? && q.latitude.value != 0.0
    && q.longitude.Some? && q.longitude.value != 0.0
  }

  /** The conditions on price and condition, appended in that order. */
  method PriceFilters(q: ListingQuery) returns (filters: seq<ListingFilter>)
    ensures forall p :: PriceAtLeast(p) in filters <==> q.minPrice == Some(p) && p >= 0
    ensures forall p :: PriceAtMost(p) in filters <==> q.maxPrice == Some(p) && p >= 0
    ensures forall b :: IsNew(b) in filters <==> q.isNew == Some(b)
    ensures forall f :: f in filters ==> f.PriceAtLeast? || f.PriceAtMost? || f.IsNew?
  {
    filters := [];
    if q.minPrice.Some? && q.minPrice.value >= 0 {
      filters := filters + [PriceAtLeast(q.minPrice.value)];
    }
    if q.maxPrice.Some? && q.maxPrice.value >= 0 {
      filters := filters + [PriceAtMost(q.maxPrice.value)];
    }
    if q.isNew.Some? {
      filters := filters + [IsNew(q.isNew.value)];
    }
  }

  /** The joins on category and seller, appended in that order. */
  method JoinFilters(q: ListingQuery) returns (filters: seq<ListingFilter>)
    ensures CategoryJoin in filters <==> Truthy(q.category)
    ensures forall c :: CategoryNamed(c) in filters <==> q.category == Some(c) && c != ""
    ensures SellerJoin in filters <==> Truthy(q.seller)
    ensures forall u :: SellerUuid(u) in filters <==> q.seller == Some(u) && u != ""
    ensures forall f :: f in filters ==> f.CategoryJoin? || f.CategoryNamed? || f.SellerJoin? || f.SellerUuid?
  {
    filters := [];
    if Truthy(q.category) {
      filters := filters + [CategoryJoin, CategoryNamed(q.category.value)];
    }
    if Truthy(q.seller) {
      filters := filters + [SellerJoin, SellerUuid(q.seller.value)];
    }
  }

  /** `filters` holds the title, price, condition, category and seller conditions exactly
      as the query asks for them. */
  ghost predicate HasColumnFilters(q: ListingQuery, filters: seq<ListingFilter>)
  {
    && (forall t :: TitleContains(t) in filters <==> q.title == Some(t) && |t| >= 3)
    && (forall p :: PriceAtLeast(p) in filters <==> q.minPrice == Some(p) && p >= 0)
    && (forall p :: PriceAtMost(p) in filters <==> q.maxPrice == Some(p) && p >= 0)
    && (forall b :: IsNew(b) in filters <==> q.isNew == Some(b))
    && (CategoryJoin in filters <==> Truthy(q.category))
    && (forall c :: CategoryNamed(c) in filters <==> q.category == Some(c) && c != "")
    && (SellerJoin in filters <==> Truthy(q.seller))
    && (forall u :: SellerUuid(u) in filters <==> q.seller == Some(u) && u != "")
  }

  /** The conditions on the listing's own columns, appended in the order of the source:
      title, prices, condition, category, seller. */
  method ColumnFilters(q: ListingQuery) returns (filters: seq<ListingFilter>)
    ensures HasColumnFilters(q, filters)
    ensures forall f :: f in filters ==> !f.InRange?
  {
    var title: seq<ListingFilter> := [];
    if q.title.Some? && |q.title.value| >= 3 {
      title := [TitleContains(q.title.value)];
    }
    var prices := PriceFilters(q);
    var joins := JoinFilters(q);
    filters := title + prices + joins;
    assert forall f :: f in filters <==> f in title || f in prices || f in joins;
    assert forall t :: TitleContains(t) in filters <==> TitleContains(t) in title;
    assert forall p :: PriceAtLeast(p) in filters <==> PriceAtLeast(p) in prices;
    assert forall p :: PriceAtMost(p) in filters <==> PriceAtMost(p) in prices;
    assert forall b :: IsNew(b) in filters <==> IsNew(b) in prices;
    assert CategoryJoin in filters <==> CategoryJoin in joins;
    assert SellerJoin in filters <==> SellerJoin in joins;
    assert forall c :: CategoryNamed(c) in filters <==> CategoryNamed(c) in joins;
    assert forall u :: SellerUuid(u) in filters <==> SellerUuid(u) in joins;
  }

  /** Appending the range condition leaves the column conditions as they are. */
  lemma AppendRange(q: ListingQuery, filters: seq<ListingFilter>, f: ListingFilter)
    requires HasColumnFilters(q, filters) && f.InRange?
    ensures HasColumnFilters(q, filters + [f])
  {
  }

  /** `get_listings_list`: the distance-ordered query when distance, latitude and longitude
      are all given and the ordering is by distance; otherwise the paginated query, with a
      range condition when the three are given. */
  method SearchListings(q: ListingQuery) returns (r: ListingSearch)
    ensures HasColumnFilters(q, r.filters)
    ensures r.ByDistance? <==> GeoGiven(q) && RemovePrefix(q.orderBy, "-") == "distance"
    ensures r.ByDistance? ==> r.desc == Descending(q.orderBy) && r.page == q.page
    ensures r.ByDistance? ==>
      r.latitude == q.latitude.value && r.longitude == q.longitude.value && r.distance == q.distance.value
    ensures forall la, lo, d :: InRange(la, lo, d) in r.filters <==>
      r.Paginated? && GeoGiven(q) && la == q.latitude.value && lo == q.longitude.value && d == q.distance.value
    ensures r.Paginated? ==> r.orderBy == q.orderBy && r.page == q.page
  {
    var filters := ColumnFilters(q);
    if GeoGiven(q) {
      if RemovePrefix(q.orderBy, "-") == "distance" {
        return ByDistance(q.latitude.value, q.longitude.value, q.distance.value, filters,
                          Descending(q.orderBy), q.page);
      }
      var range := InRange(q.latitude.value, q.longitude.value, q.distance.value);
      AppendRange(q, filters, range);
      filters := filters + [range];
    }
    r := Paginated(filters, q.orderBy, q.page);
  }

  /** `Listing` declares no `PAGE_SIZE`, and neither does `Model`. */
  const LISTING_PAGE_SIZE: Option<nat> := None

  /** As written, the paginated query ends in `Listing.paginate`, whose lookup of `PAGE_SIZE`
      raises for every search, whatever the rows and the page; a class that declares a size
      answers page 0 of any search. */
  lemma ListingPaginateAsWritten<T(!new)>(rows: seq<T>, p: T -> bool, page: int, declared: nat)
    ensures ClassPaginate(LISTING_PAGE_SIZE, rows, p, page) == Err(AttributeError("PAGE_SIZE"))
    ensures ClassPaginate(Some(declared), rows, p, 0).Ok?
  {
  }

  // ---------------------------------------------------------------------------
  // Counting views
  // ---------------------------------------------------------------------------

  /** The `View` table: one row per (listing id, client address); the pair is unique. */
  class ViewTable {
    var seen: set<(nat, string)>

    constructor ()
      ensures seen == {}
    {
      seen := {};
    }

    /** `View.insert(listing_id=..., ip=...)`: a pair already present makes the flush fail with
        a unique violation whose diagnostic is `diag`, and `save` raises what `FlushError`
        makes of it. */
    method Insert(tables: map<string, Table>, diag: Diag, listingId: nat, ip: string) returns (r: Result<()>)
      modifies this
      ensures (listingId, ip) in old(seen) ==>
        r == Err(FlushError(tables, IntegrityError(UNIQUE_VIOLATION, diag))) && seen == old(seen)
      ensures (listingId, ip) !in old(seen) ==> r == Ok(()) && seen == old(seen) + {(listingId, ip)}
    {
      if (listingId, ip) in seen {
        return Err(FlushError(tables, IntegrityError(UNIQUE_VIOLATION, diag)));
      }
      seen := seen + {(listingId, ip)};
      r := Ok(());
    }
  }

  /** The error a repeated view raises, for the diagnostic the store reports. */
  function RepeatViewError(tables: map<string, Table>, diag: Diag): Error
  {
    FlushError(tables, IntegrityError(UNIQUE_VIOLATION, diag))
  }

  /** A detail naming a column the `View` table has is parsed into a `UniqueViolation`, which
      `get_listing` swallows. */
  lemma RepeatViewCaught(tables: map<string, Table>, column: string, value: string)
    requires "View" in tables && ColumnNamed(tables["View"].columns, column).Some?
    requires '(' !in column && ')' !in column && ')' !in value
    ensures RepeatViewError(tables, Diag(UniqueDetail(column, value), "View")).UniqueViolation?
  {
    UniqueViolationFromDetail(tables, "View", column, value);
  }

  /** A constraint over two columns is reported as `Key (listing_id, ip)=(...)`; no column has
      that combined name, so parsing raises `KeyError`, which `get_listing` does not catch. */
  lemma RepeatViewComposite(tables: map<string, Table>, value: string)
    requires "View" in tables && ColumnNamed(tables["View"].columns, "listing_id, ip").None?
    requires ')' !in value
    ensures RepeatViewError(tables, Diag(UniqueDetail("listing_id, ip", value), "View")) == KeyError("listing_id, ip")
  {
    ParseDetailRoundTrip("listing_id, ip", value);
  }

  /** The addresses that have viewed listing `id`. */
  function Viewers(seen: set<(nat, string)>, id: nat): (r: set<string>)
    ensures forall ip :: ip in r <==> (id, ip) in seen
  {
    set p | p in seen && p.0 == id :: p.1
  }

  /** Recording a new viewer of `id` adds exactly that address to its viewers and changes no
      other listing's. */
  lemma ViewersAdd(seen: set<(nat, string)>, id: nat, ip: string, other: nat)
    requires (id, ip) !in seen
    ensures |Viewers(seen + {(id, ip)}, id)| == |Viewers(seen, id)| + 1
    ensures other != id ==> Viewers(seen + {(id, ip)}, other) == Viewers(seen, other)
  {
    assert Viewers(seen + {(id, ip)}, id) == Viewers(seen, id) + {ip};
  }

  /** A listing's counter equals the number of distinct addresses that have viewed it. */
  ghost predicate ViewsCounted(listing: Listing, table: ViewTable)
    reads listing, table
  {
    listing.views == |Viewers(table.seen, listing.id)|
  }

  /** `get_listing`: the counter goes up exactly when the view is new; a repeated view is
      ignored when its error is a `UniqueViolation` and escapes otherwise. */
  method GetListing(listing: Listing, table: ViewTable, tables: map<string, Table>, diag: Diag, ip: string)
    returns (r: Result<Listing>)
    modifies listing, table
    ensures (listing.id, ip) in old(table.seen) ==>
      && listing.views == old(listing.views) && table.seen == old(table.seen)
      && (RepeatViewError(tables, diag).UniqueViolation? ==> r == Ok(listing))
      && (!RepeatViewError(tables, diag).UniqueViolation? ==> r == Err(RepeatViewError(tables, diag)))
    ensures (listing.id, ip) !in old(table.seen) ==>
      && r == Ok(listing)
      && listing.views == old(listing.views) + 1 && table.seen == old(table.seen) + {(listing.id, ip)}
    ensures old(ViewsCounted(listing, table)) ==> ViewsCounted(listing, table)
    ensures listing.seller == old(listing.seller) && listing.state == old(listing.state)
      && listing.expires == old(listing.expires) && listing.title == old(listing.title)
      && listing.description == old(listing.description) && listing.price == old(listing.price)
      && listing.isNew == old(listing.isNew) && listing.quantity == old(listing.quantity)
      && listing.sold == old(listing.sold) && listing.category == old(listing.category)
      && listing.location == old(listing.location)
  {
    var inserted := table.Insert(tables, diag, listing.id, ip);
    if inserted.Err? {
      if !inserted.error.UniqueViolation? {
        return Err(inserted.error);
      }
    } else {
      listing.views := listing.views + 1;
      ViewersAdd(old(table.seen), listing.id, ip, listing.id);
    }
    r := Ok(listing);
  }

  /** A new listing has been viewed by nobody, and its counter says so. */
  lemma NewListingCounted(table: ViewTable, listing: Listing)
    requires listing.views == 0 && forall p :: p in table.seen ==> p.0 != listing.id
    ensures ViewsCounted(listing, table)
  {
    assert Viewers(table.seen, listing.id) == {};
  }

  // ---------------------------------------------------------------------------
  // Creating and updating
  // ---------------------------------------------------------------------------

  const NO_LOCATION: string := "Location not provided and user didn't set a default one"
  const INVALID_CATEGORY: string := "Invalid category"
  /** The attribute SQLAlchemy looks up on a value assigned to a relationship. */
  const SA_INSTANCE_STATE: string := "_sa_instance_state"

  /** `params.pop('location', user.profile.location)`: the body's location if it was sent,
      the profile's otherwise; None when the result is falsy. */
  function ChooseLocation(body: Option<LocationDict>, profile: Option<string>): (r: Option<ListingLocation>)
    ensures r.None? <==> body.None? && !Truthy(profile)
    ensures body.Some? ==> r == Some(Given(body.value))
  {
    if body.Some? then Some(Given(body.value))
    else if Truthy(profile) then Some(ProfileDefault(profile.value))
    else None
  }

  /** `Category.scalar(Category.name == name)` followed by the `assignable` check. */
  function AssignableCategory(rows: seq<Category>, name: string): (r: Result<Category>)
    ensures r.Ok? ==> r.value in rows && r.value.name == name && r.value.assignable
    ensures r.Err? ==> r.error == BadRequest(INVALID_CATEGORY)
    ensures (forall c :: c in rows ==> c.name != name) ==> r.Err?
  {
    var c := Scalar(rows, (c: Category) => c.name == name);
    if c.None? || !c.value.assignable then Err(BadRequest(INVALID_CATEGORY)) else Ok(c.value)
  }

  /** With unique names, the check passes exactly when the named row is assignable. */
  lemma AssignableCategoryIff(rows: seq<Category>, k: int)
    requires DistinctNames(rows) && 0 <= k < |rows|
    ensures AssignableCategory(rows, rows[k].name).Ok? <==> rows[k].assignable
  {
    var name := rows[k].name;
    var c := Scalar(rows, (c: Category) => c.name == name);
    assert rows[k] in rows;
    var i :| 0 <= i < |rows| && rows[i] == c.value && rows[i].name == name;
    assert i == k;
  }

  /** The checks of `create_listing`, in order: a location, then an assignable category. */
  function CreateListingCheck(rows: seq<Category>, categoryName: string, body: Option<LocationDict>,
                              profile: Option<string>): (r: Result<(ListingLocation, Category)>)
    ensures ChooseLocation(body, profile).None? ==> r == Err(BadRequest(NO_LOCATION))
    ensures ChooseLocation(body, profile).Some? ==> r.Err? == AssignableCategory(rows, categoryName).Err?
    ensures r.Ok? ==> r.value.0 == ChooseLocation(body, profile).value &&
                      r.value.1 in rows && r.value.1.name == categoryName && r.value.1.assignable
  {
    var location := ChooseLocation(body, profile);
    if location.None? then Err(BadRequest(NO_LOCATION))
    else
      var category := AssignableCategory(rows, categoryName);
      if category.Err? then Err(category.error) else Ok((location.value, category.value))
  }

  /** `create_listing`: the checks, then `Listing.insert`, whose flush has outcome `flush`. */
  method CreateListing(rows: seq<Category>, id: nat, seller: nat, body: ListingCreate, profile: Option<string>,
                       now: int, tables: map<string, Table>, flush: Option<Error>)
    returns (r: Result<Listing>)
    ensures var check := CreateListingCheck(rows, body.category, body.location, profile);
      && (check.Err? ==> r == Err(check.error))
      && (check.Ok? && flush.Some? ==> r == Err(FlushError(tables, flush.value)))
      && (check.Ok? && flush.None? ==> r.Ok?)
    ensures r.Ok? ==> fresh(r.value) && r.value.id == id && r.value.seller == seller
    ensures r.Ok? ==> r.value.views == 0 && r.value.sold == 0 && r.value.state == Active && r.value.expires == ExpirationDate(now)
    ensures r.Ok? ==> r.value.title == body.title && r.value.description == body.description &&
                      r.value.price == body.price && r.value.isNew == body.isNew
    ensures r.Ok? ==> r.value.quantity == SentOr(body.quantity, 1)
    ensures r.Ok? ==> r.value.category.assignable && r.value.category.name == body.category && r.value.category in rows
    ensures r.Ok? ==> r.value.location == ChooseLocation(body.location, profile).value
  {
    var check := CreateListingCheck(rows, body.category, body.location, profile);
    if check.Err? {
      return Err(check.error);
    }
    var listing := new Listing(id, seller, body, check.value.1, check.value.0, now);
    if flush.Some? {
      return Err(FlushError(tables, flush.value));
    }
    r := Ok(listing);
  }

  /** What the store raises when a dict is bound to a `String` column: psycopg2 cannot adapt
      the value, and SQLAlchemy reports it as a `ProgrammingError`, which has no SQLSTATE. */
  const CANNOT_ADAPT_DICT: Error := StoreError("can't adapt type 'dict'")

  /** The flush of a listing row as written: `Listing.location` is a `String` column, so a
      location dict from the body cannot be bound; a profile's location string leaves the
      flush with its outcome `flush`. */
  function LocationFlush(location: ListingLocation, flush: Option<Error>): (r: Option<Error>)
    ensures location.Given? ==> r == Some(CANNOT_ADAPT_DICT)
    ensures location.ProfileDefault? ==> r == flush
  {
    if location.Given? then Some(CANNOT_ADAPT_DICT) else flush
  }

  /** `create_listing` as written: a location sent in the body reaches the `String` column as
      a dict, and the insert's flush raises a store error that `save` does not translate, so
      only the profile's default location is ever stored. */
  method CreateListingAsWritten(rows: seq<Category>, id: nat, seller: nat, body: ListingCreate,
                                profile: Option<string>, now: int, tables: map<string, Table>,
                                flush: Option<Error>)
    returns (r: Result<Listing>)
    ensures var check := CreateListingCheck(rows, body.category, body.location, profile);
      && (check.Err? ==> r == Err(check.error))
      && (check.Ok? && body.location.Some? ==> r == Err(CANNOT_ADAPT_DICT))
      && (check.Ok? && body.location.None? && flush.Some? ==> r == Err(FlushError(tables, flush.value)))
      && (check.Ok? && body.location.None? && flush.None? ==> r.Ok?)
    ensures r.Ok? ==> r.value.location.ProfileDefault? && body.location.None?
  {
    var check := CreateListingCheck(rows, body.category, body.location, profile);
    var outcome := flush;
    if check.Ok? {
      outcome := LocationFlush(check.value.0, flush);
    }
    r := CreateListing(rows, id, seller, body, profile, now, tables, outcome);
  }

  /** `update_listing` as written: once the category check passes, a location sent in the
      body is set on the `String` column as a dict, and the save raises the store's error. */
  method UpdateListingAsWritten(listing: Listing, rows: seq<Category>, body: ListingUpdate,
                                tables: map<string, Table>, flush: Option<Error>)
    returns (r: Result<Listing>)
    modifies listing
    ensures body.location.Some? ==> r.Err?
    ensures body.location.Some? && body.category != Some("") &&
            !(Truthy(body.category) && AssignableCategory(rows, body.category.value).Err?) ==>
      r == Err(CANNOT_ADAPT_DICT)
    ensures body.location.None? && flush.None? && body.category != Some("") &&
            !(Truthy(body.category) && AssignableCategory(rows, body.category.value).Err?) ==>
      r == Ok(listing)
    ensures r.Ok? ==> listing.location == old(listing.location)
  {
    var outcome := if body.location.Some? then Some(CANNOT_ADAPT_DICT) else flush;
    r := UpdateListing(listing, rows, body, tables, outcome);
  }

  /** `update_listing`: a truthy category name must name an assignable category, or nothing
      changes. Then every sent field is set in the body's order (title, description, price,
      is_new, category, quantity, location) and the listing saved. A category sent as the
      empty string fails the truthiness test and stays a string, which the `category`
      relationship refuses with `AttributeError`, after the fields before it were set. */
  method UpdateListing(listing: Listing, rows: seq<Category>, body: ListingUpdate,
                       tables: map<string, Table>, flush: Option<Error>)
    returns (r: Result<Listing>)
    modifies listing
    ensures Truthy(body.category) && AssignableCategory(rows, body.category.value).Err? ==>
      r == Err(BadRequest(INVALID_CATEGORY)) && unchanged(listing)
    ensures !(Truthy(body.category) && AssignableCategory(rows, body.category.value).Err?) ==>
      && listing.title == SentOr(body.title, old(listing.title))
      && listing.description == SentOr(body.description, old(listing.description))
      && listing.price == SentOr(body.price, old(listing.price))
      && listing.isNew == SentOr(body.isNew, old(listing.isNew))
    ensures body.category == Some("") ==>
      && r == Err(AttributeError(SA_INSTANCE_STATE))
      && listing.category == old(listing.category) && listing.quantity == old(listing.quantity)
      && listing.location == old(listing.location)
    ensures body.category.None? || (Truthy(body.category) && AssignableCategory(rows, body.category.value).Ok?) ==>
      && listing.category == (if body.category.None? then old(listing.category)
                              else AssignableCategory(rows, body.category.value).value)
      && listing.quantity == SentOr(body.quantity, old(listing.quantity))
      && listing.location == (if body.location.Some? then Given(body.location.value) else old(listing.location))
      && r == (if flush.None? then Ok(listing) else Err(FlushError(tables, flush.value)))
    ensures listing.seller == old(listing.seller) && listing.state == old(listing.state)
    ensures listing.views == old(listing.views) && listing.sold == old(listing.sold)
    ensures listing.expires == old(listing.expires)
  {
    var category: Category := listing.category;
    if Truthy(body.category) {
      var found := AssignableCategory(rows, body.category.value);
      if found.Err? {
        return Err(found.error);
      }
      category := found.value;
    }
    r := ApplyUpdate(listing, body, category, tables, flush);
  }

  /** The `setattr` loop of `Model.update` and the save, once the category name has been
      resolved to `category`. */
  method ApplyUpdate(listing: Listing, body: ListingUpdate, category: Category,
                     tables: map<string, Table>, flush: Option<Error>)
    returns (r: Result<Listing>)
    modifies listing
    ensures && listing.title == SentOr(body.title, old(listing.title))
            && listing.description == SentOr(body.description, old(listing.description))
            && listing.price == SentOr(body.price, old(listing.price))
            && listing.isNew == SentOr(body.isNew, old(listing.isNew))
    ensures body.category == Some("") ==>
      && r == Err(AttributeError(SA_INSTANCE_STATE))
      && listing.category == old(listing.category) && listing.quantity == old(listing.quantity)
      && listing.location == old(listing.location)
    ensures body.category != Some("") ==>
      && listing.category == (if body.category.None? then old(listing.category) else category)
      && listing.quantity == SentOr(body.quantity, old(listing.quantity))
      && listing.location == (if body.location.Some? then Given(body.location.value) else old(listing.location))
      && r == (if flush.None? then Ok(listing) else Err(FlushError(tables, flush.value)))
    ensures listing.seller == old(listing.seller) && listing.state == old(listing.state)
    ensures listing.views == old(listing.views) && listing.sold == old(listing.sold)
    ensures listing.expires == old(listing.expires)
  {
    SetLeading(listing, body);
    if body.category.Some? {
      if body.category.value == "" {
        return Err(AttributeError(SA_INSTANCE_STATE));
      }
      listing.category := category;
    }
    listing.quantity := SentOr(body.quantity, listing.quantity);
    if body.location.Some? {
      listing.location := Given(body.location.value);
    }
    if flush.Some? {
      return Err(FlushError(tables, flush.value));
    }
    r := Ok(listing);
  }

  /** The fields that come before `category` in the body. */
  method SetLeading(listing: Listing, body: ListingUpdate)
    modifies listing
    ensures && listing.title == SentOr(body.title, old(listing.title))
            && listing.description == SentOr(body.description, old(listing.description))
            && listing.price == SentOr(body.price, old(listing.price))
            && listing.isNew == SentOr(body.isNew, old(listing.isNew))
    ensures listing.category == old(listing.category) && listing.quantity == old(listing.quantity)
    ensures listing.location == old(listing.location) && listing.seller == old(listing.seller)
    ensures listing.state == old(listing.state) && listing.views == old(listing.views)
    ensures listing.sold == old(listing.sold) && listing.expires == old(listing.expires)
  {
    listing.title := SentOr(body.title, listing.title);
    listing.description := SentOr(body.description, listing.description);
    listing.price := SentOr(body.price, listing.price);
    listing.isNew := SentOr(body.isNew, listing.isNew);
  }
}

=== FILE: model_base.dfy ===
/** The generic entity layer: the schema registry, unique-violation translation, the query
    helpers every model inherits, the save/update/delete path and the location mixin. */
module ModelBase {
  import opened Errors
  import opened Text

  // ---------------------------------------------------------------------------
  // Schema registry (Database.metadata)
  // ---------------------------------------------------------------------------

  /** The SQL type a column is declared with. */
  datatype SqlType = Integer | SmallInteger | String | Boolean | Float | DateTime

  datatype Column = Column(
    name: string,
    sqlType: SqlType,
    doc: Option<string>,
    references: Option<string>,   // target of the ForeignKey, "<Table>.id"
    primaryKey: bool,
    nullable: bool,
    index: bool)

  datatype Table = Table(name: string, columns: seq<Column>)

  /** `relationship(target, secondary=table)`. */
  datatype Relationship = Relationship(target: string, secondary: string)

  /** `Model.__tablename__`: a model's table is named after its class. */
  function TableName(className: string): string
  {
    className
  }

  /** `foreign_key(table_name, nullable, index)`, once the column is given its name. */
  function ForeignKeyColumn(name: string, table: string, nullable: bool, index: bool): (c: Column)
    ensures c.sqlType == Integer && c.references == Some(TableName(table) + ".id") && !c.primaryKey
    ensures c.nullable == nullable && c.index == index && c.name == name
  {
    Column(name, Integer, None, Some(table + ".id"), false, nullable, index)
  }

  /** `table.columns[key]`: the column with that name. */
  function ColumnNamed(columns: seq<Column>, key: string): (r: Option<Column>)
    ensures r.Some? ==> r.value in columns && r.value.name == key
    ensures r.None? ==> forall c :: c in columns ==> c.name != key
  {
    if columns == [] then None
    else if columns[0].name == key then Some(columns[0])
    else ColumnNamed(columns[1..], key)
  }

  /** The name `UniqueViolation` reports for a column: its `doc` when that is set and
      non-empty, otherwise its name. */
  function ReportedName(c: Column): string
  {
    if c.doc.Some? && c.doc.value != "" then c.doc.value else c.name
  }

  // ---------------------------------------------------------------------------
  // UniqueViolation
  // ---------------------------------------------------------------------------

  const KEY_VALUE_SEPARATOR: string := ")=("
  const DETAIL_TAIL: string := " already exists."

  /** The detail line PostgreSQL writes for a unique violation of column `c` by value `v`. */
  function UniqueDetail(c: string, v: string): string
  {
    "Key (" + c + KEY_VALUE_SEPARATOR + v + ")" + DETAIL_TAIL
  }

  /** The first half of `UniqueViolation.__init__`: split the detail at ")=(" (a ValueError
      unless it occurs exactly once), keep what follows the first "(" of the key and what
      precedes the first ")" of the value. */
  function ParseDetail(detail: string): (r: Result<(string, string)>)
    ensures r.Err? <==> |Split(detail, KEY_VALUE_SEPARATOR)| != 2
    ensures r.Err? ==> r.error == ValueError
  {
    var parts := Split(detail, KEY_VALUE_SEPARATOR);
    if |parts| != 2 then Err(ValueError)
    else
      var key := parts[0];
      var value := parts[1];
      Ok((DropPrefix(key, Find(key, "(") + 1), TakePrefix(value, Find(value, ")"))))
  }

  /** `UniqueViolation(diag)`: the parsed detail, the table it names and the reported column;
      unknown tables and columns raise KeyError. */
  function NewUniqueViolation(tables: map<string, Table>, diag: Diag): (r: Result<Violation>)
    ensures r.Ok? ==>
      && ParseDetail(diag.messageDetail).Ok?
      && r.value.table == diag.tableName
      && diag.tableName in tables
      && r.value.value == ParseDetail(diag.messageDetail).value.1
      && exists c :: c in tables[diag.tableName].columns &&
           c.name == ParseDetail(diag.messageDetail).value.0 && r.value.column == ReportedName(c)
    ensures ParseDetail(diag.messageDetail).Err? ==> r == Err(ValueError)
    ensures ParseDetail(diag.messageDetail).Ok? ==>
      (r.Ok? <==> diag.tableName in tables &&
                  ColumnNamed(tables[diag.tableName].columns, ParseDetail(diag.messageDetail).value.0).Some?)
    ensures ParseDetail(diag.messageDetail).Ok? && r.Err? ==> r.error.KeyError?
  {
    match ParseDetail(diag.messageDetail)
    case Err(e) => Err(e)
    case Ok((key, value)) =>
      if diag.tableName !in tables then Err(KeyError(diag.tableName))
      else match ColumnNamed(tables[diag.tableName].columns, key)
        case None => Err(KeyError(key))
        case Some(c) => Ok(Violation(diag.tableName, ReportedName(c), value))
  }

  /** `str(UniqueViolation)`. */
  function ViolationMessage(v: Violation): string
  {
    v.table + " with " + v.column + " '" + v.value + "' already exists"
  }

  lemma TailHasNoParenthesis()
    ensures ')' !in DETAIL_TAIL && '(' !in DETAIL_TAIL
  {
  }

  /** No separator starts at any index of what follows the separator in a detail line. */
  lemma RestHasNoSeparatorAt(v: string, j: nat)
    requires ')' !in v
    ensures !OccursAt(v + ")" + DETAIL_TAIL, KEY_VALUE_SEPARATOR, j)
  {
    var rest := v + ")" + DETAIL_TAIL;
    OccursAtHead(rest, KEY_VALUE_SEPARATOR, j);
    if j < |v| {
      assert rest[j] == v[j];
      assert v[j] in v;
    } else if j == |v| {
      assert j + 1 < |rest| ==> rest[j + 1] == ' ';
    } else if j < |rest| {
      TailHasNoParenthesis();
      assert rest[j] == DETAIL_TAIL[j - |v| - 1];
      assert DETAIL_TAIL[j - |v| - 1] in DETAIL_TAIL;
    }
  }

  /** What follows the separator in a detail line holds no separator. */
  lemma RestHasNoSeparator(v: string)
    requires ')' !in v
    ensures Find(v + ")" + DETAIL_TAIL, KEY_VALUE_SEPARATOR) == -1
  {
    var rest := v + ")" + DETAIL_TAIL;
    forall j: nat
      ensures !OccursAt(rest, KEY_VALUE_SEPARATOR, j)
    {
      RestHasNoSeparatorAt(v, j);
    }
    FindNone(rest, KEY_VALUE_SEPARATOR);
  }

  /** The first ")" after the separator ends the value, whatever follows it. */
  lemma RestValueEnd(v: string, tail: string)
    requires ')' !in v
    ensures Find(v + ")" + tail, ")") == |v|
  {
    var b := ")" + tail;
    assert v + ")" + tail == v + b;
    assert b[..1] == ")";
    FindAfter(v, b, ")");
  }

  /** A detail line splits at the separator into the key part and the rest. */
  lemma SplitDetail(c: string, v: string)
    requires ')' !in c && ')' !in v
    ensures Split(UniqueDetail(c, v), KEY_VALUE_SEPARATOR) == ["Key (" + c, v + ")" + DETAIL_TAIL]
  {
    var key := "Key (" + c;
    var rest := v + ")" + DETAIL_TAIL;
    var d := UniqueDetail(c, v);
    assert d == key + (KEY_VALUE_SEPARATOR + rest);
    assert Find(d, KEY_VALUE_SEPARATOR) == |key| by {
      assert ')' !in key by {
        assert ')' !in "Key (";
      }
      FindAfter(key, KEY_VALUE_SEPARATOR + rest, KEY_VALUE_SEPARATOR);
    }
    assert d[..|key|] == key && d[|key| + 3..] == rest;
    assert Find(rest, KEY_VALUE_SEPARATOR) == -1 by {
      RestHasNoSeparator(v);
    }
    SplitOnce(d, KEY_VALUE_SEPARATOR, |key|);
  }

  /** The key part of a detail line gives back the column name. */
  lemma DetailKey(c: string)
    ensures var key := "Key (" + c; DropPrefix(key, Find(key, "(") + 1) == c
  {
    var key := "Key (" + c;
    assert key == "Key " + ("(" + c);
    FindAfter("Key ", "(" + c, "(");
    assert key[5..] == c;
  }

  /** The rest of a detail line gives back the value. */
  lemma DetailValue(v: string)
    requires ')' !in v
    ensures var rest := v + ")" + DETAIL_TAIL; TakePrefix(rest, Find(rest, ")")) == v
  {
    var rest := v + ")" + DETAIL_TAIL;
    RestValueEnd(v, DETAIL_TAIL);
    assert rest[..|v|] == v;
  }

  /** Parsing PostgreSQL's detail line gives back the column key and the value, provided the
      column name has no parentheses and the value no ")". */
  lemma ParseDetailRoundTrip(c: string, v: string)
    requires '(' !in c && ')' !in c && ')' !in v
    ensures ParseDetail(UniqueDetail(c, v)) == Ok((c, v))
  {
    SplitDetail(c, v);
    DetailKey(c);
    DetailValue(v);
  }

  /** A duplicate value for a known column becomes a violation naming the table, the
      column's reported name and the value, and reads "<table> with <column> '<value>'
      already exists". */
  lemma UniqueViolationFromDetail(tables: map<string, Table>, table: string, c: string, v: string)
    requires '(' !in c && ')' !in c && ')' !in v
    requires table in tables && ColumnNamed(tables[table].columns, c).Some?
    ensures var col := ColumnNamed(tables[table].columns, c).value;
      && NewUniqueViolation(tables, Diag(UniqueDetail(c, v), table)) == Ok(Violation(table, ReportedName(col), v))
      && ViolationMessage(Violation(table, ReportedName(col), v)) ==
           table + " with " + ReportedName(col) + " '" + v + "' already exists"
  {
    ParseDetailRoundTrip(c, v);
  }

  // ---------------------------------------------------------------------------
  // Queries: select, scalar, paginate
  // ---------------------------------------------------------------------------

  predicate Distinct<T(==,!new)>(s: seq<T>)
  {
    forall i, j :: 0 <= i < j < |s| ==> s[i] != s[j]
  }

  /** The rows `.where(*filters)` keeps, in the query's order; `p` is the conjunction of
      the filters. */
  function Filter<T(==,!new)>(rows: seq<T>, p: T -> bool): (r: seq<T>)
    ensures forall x :: x in r <==> x in rows && p(x)
    ensures |r| <= |rows|
  {
    if rows == [] then []
    else (if p(rows[0]) then [rows[0]] else []) + Filter(rows[1..], p)
  }

  /** `.unique()` after skipping what is in `seen`: the first occurrence of each element,
      in order. */
  function UniqueFrom<T(==,!new)>(s: seq<T>, seen: set<T>): (r: seq<T>)
    ensures forall x :: x in r <==> x in s && x !in seen
    ensures Distinct(r)
    ensures |r| <= |s|
  {
    if s == [] then []
    else if s[0] in seen then UniqueFrom(s[1..], seen)
    else [s[0]] + UniqueFrom(s[1..], seen + {s[0]})
  }

  function Unique<T(==,!new)>(s: seq<T>): (r: seq<T>)
    ensures forall x :: x in r <==> x in s
    ensures Distinct(r) && |r| <= |s|
  {
    UniqueFrom(s, {})
  }

  /** `Model.select(*filters)`: every matching row exactly once. */
  function Select<T(==,!new)>(rows: seq<T>, p: T -> bool): (r: seq<T>)
    ensures forall x :: x in r <==> x in rows && p(x)
    ensures Distinct(r)
  {
    Unique(Filter(rows, p))
  }

  /** `Model.scalar(*filters)`: the first matching row, or None. */
  function Scalar<T(==,!new)>(rows: seq<T>, p: T -> bool): (r: Option<T>)
    ensures r.None? <==> forall x :: x in rows ==> !p(x)
    ensures r.Some? ==> exists i :: 0 <= i < |rows| && rows[i] == r.value && p(rows[i]) &&
                                    forall j :: 0 <= j < i ==> !p(rows[j])
  {
    if rows == [] then None
    else if p(rows[0]) then Some(rows[0])
    else
      var r := Scalar(rows[1..], p);
      assert forall x :: x in rows[1..] ==> x in rows;
      assert r.Some? ==> exists i :: 0 <= i < |rows[1..]| && rows[1..][i] == r.value && p(rows[1..][i]) &&
                                    forall j :: 0 <= j < i ==> !p(rows[1..][j]);
      if r.Some? then
        ghost var i :| 0 <= i < |rows[1..]| && rows[1..][i] == r.value && p(rows[1..][i]) &&
                       forall j :: 0 <= j < i ==> !p(rows[1..][j]);
        assert rows[i + 1] == r.value;
        assert forall j :: 0 <= j < i + 1 ==> !p(rows[j]) by {
          forall j | 0 <= j < i + 1 ensures !p(rows[j]) {
            if j > 0 { assert rows[j] == rows[1..][j - 1]; }
          }
        }
        r
      else r
  }

  /** `.offset(offset).limit(limit)` on an ordered result. */
  function Window<T(==,!new)>(s: seq<T>, offset: nat, limit: nat): (r: seq<T>)
    ensures |r| <= limit
    ensures offset >= |s| ==> r == []
    ensures forall x :: x in r <==> exists k :: offset <= k < offset + limit && k < |s| && s[k] == x
  {
    if offset >= |s| then []
    else
      var r := s[offset..if offset + limit <= |s| then offset + limit else |s|];
      assert forall x :: x in r ==> exists k :: offset <= k < offset + limit && k < |s| && s[k] == x by {
        forall x | x in r ensures exists k :: offset <= k < offset + limit && k < |s| && s[k] == x {
          var i :| 0 <= i < |r| && r[i] == x;
          assert s[offset + i] == x;
        }
      }
      assert forall k :: offset <= k < offset + limit && k < |s| ==> s[k] in r by {
        forall k | offset <= k < offset + limit && k < |s| ensures s[k] in r {
          assert r[k - offset] == s[k];
        }
      }
      r
  }

  /** The DataError PostgreSQL raises for a negative OFFSET. */
  const NEGATIVE_OFFSET: Error := StoreError("2201X")

  /** `Model.paginate(*filters, order_by, page)`: the matching rows, in the given order, from
      index `page * pageSize` on, at most `pageSize` of them; `.unique()` runs on the page. */
  function Paginate<T(==,!new)>(rows: seq<T>, p: T -> bool, page: int, pageSize: nat): (r: Result<seq<T>>)
    ensures r.Err? <==> page < 0 && pageSize > 0
    ensures r.Err? ==> r.error == NEGATIVE_OFFSET
    ensures r.Ok? ==> |r.value| <= pageSize && Distinct(r.value)
    ensures r.Ok? ==> forall x :: x in r.value ==> x in rows && p(x)
  {
    var offset := page * pageSize;
    MulSign(page, pageSize);
    if offset < 0 then Err(NEGATIVE_OFFSET)
    else Ok(Unique(Window(Filter(rows, p), offset, pageSize)))
  }

  /** `cls.paginate(...)` as it reads `cls.PAGE_SIZE`: `pageSize` is what the class declares,
      None when neither it nor `Model` declares one, and then the lookup raises. */
  function ClassPaginate<T(==,!new)>(pageSize: Option<nat>, rows: seq<T>, p: T -> bool, page: int): (r: Result<seq<T>>)
    ensures pageSize.None? ==> r == Err(AttributeError("PAGE_SIZE"))
    ensures pageSize.Some? ==> r == Paginate(rows, p, page, pageSize.value)
  {
    if pageSize.None? then Err(AttributeError("PAGE_SIZE")) else Paginate(rows, p, page, pageSize.value)
  }

  /** The offset of a page is negative exactly for a negative page of a non-empty size. */
  lemma MulSign(page: int, size: nat)
    ensures page * size < 0 <==> page < 0 && size > 0
  {
    if page < 0 && size > 0 {
      var q: nat := -page;
      assert q * size >= size;
      assert page * size == -(q * size);
    } else if page >= 0 {
      var q: nat := page;
      assert page * size == q * size;
    }
  }

  lemma MulMonotone(a: nat, b: nat, size: nat)
    requires a <= b
    ensures a * size <= b * size
  {
  }

  /** A page past the last matching row is empty rather than an error. */
  lemma PagePastEndIsEmpty<T(!new)>(rows: seq<T>, p: T -> bool, page: nat, pageSize: nat)
    requires page * pageSize >= |Filter(rows, p)|
    ensures Paginate(rows, p, page, pageSize) == Ok([])
  {
    assert Window(Filter(rows, p), page * pageSize, pageSize) == [];
    assert UniqueFrom<T>([], {}) == [];
  }

  /** When the filtered result has no repeated row, two different pages share no row. */
  lemma PagesDisjoint<T(!new)>(rows: seq<T>, p: T -> bool, i: nat, j: nat, pageSize: nat, x: T)
    requires Distinct(Filter(rows, p)) && i < j
    requires x in Paginate(rows, p, i, pageSize).value
    ensures x !in Paginate(rows, p, j, pageSize).value
  {
    var s := Filter(rows, p);
    assert x in Window(s, i * pageSize, pageSize);
    var k1 :| i * pageSize <= k1 < i * pageSize + pageSize && k1 < |s| && s[k1] == x;
    MulMonotone(i + 1, j, pageSize);
    assert (i + 1) * pageSize == i * pageSize + pageSize;
    forall k | j * pageSize <= k < j * pageSize + pageSize && k < |s|
      ensures s[k] != x
    {
      assert k1 < k;
    }
    assert x !in Window(s, j * pageSize, pageSize);
  }

  lemma DivBounds(k: nat, n: nat)
    requires n > 0
    ensures 0 <= (k / n) * n <= k < (k / n) * n + n
  {
    assert k == (k / n) * n + k % n;
  }

  /** Every matching row is on the page its position puts it on. */
  lemma PageContains<T(!new)>(rows: seq<T>, p: T -> bool, k: nat, pageSize: nat)
    requires k < |Filter(rows, p)| && pageSize > 0
    ensures Paginate(rows, p, k / pageSize, pageSize).Ok?
    ensures Filter(rows, p)[k] in Paginate(rows, p, k / pageSize, pageSize).value
  {
    DivBounds(k, pageSize);
    PageHolds(rows, p, k / pageSize, pageSize, k);
  }

  lemma PageHolds<T(!new)>(rows: seq<T>, p: T -> bool, page: nat, pageSize: nat, k: nat)
    requires page * pageSize <= k < page * pageSize + pageSize && k < |Filter(rows, p)|
    ensures Paginate(rows, p, page, pageSize).Ok?
    ensures Filter(rows, p)[k] in Paginate(rows, p, page, pageSize).value
  {
    var s := Filter(rows, p);
    var offset: nat := page * pageSize;
    PageIsWindow(rows, p, page, pageSize);
    WindowContains(s, offset, pageSize, k);
    var w := Window(s, offset, pageSize);
    assert s[k] in w;
    assert s[k] in Unique(w);
  }

  lemma WindowContains<T(!new)>(s: seq<T>, offset: nat, limit: nat, k: nat)
    requires offset <= k < offset + limit && k < |s|
    ensures s[k] in Window(s, offset, limit)
  {
  }

  /** When the matches are distinct rows, `.unique()` changes nothing and a page holds
      exactly the matches from `page * pageSize` on, up to `pageSize` of them, in order. */
  lemma PagePositions<T(!new)>(rows: seq<T>, p: T -> bool, page: nat, pageSize: nat)
    requires Distinct(Filter(rows, p))
    ensures var s := Filter(rows, p);
      var offset := page * pageSize;
      var r := Paginate(rows, p, page, pageSize);
      && r.Ok?
      && |r.value| == (if offset >= |s| then 0 else if offset + pageSize <= |s| then pageSize else |s| - offset)
      && forall i :: 0 <= i < |r.value| ==> r.value[i] == s[offset + i]
  {
    var s := Filter(rows, p);
    var offset: nat := page * pageSize;
    PageIsWindow(rows, p, page, pageSize);
    WindowPositions(s, offset, pageSize);
    UniqueFromDistinct(Window(s, offset, pageSize), {});
  }

  /** The window at `offset` is the slice of at most `limit` elements starting there, and it
      repeats nothing when the sequence does not. */
  lemma WindowPositions<T(!new)>(s: seq<T>, offset: nat, limit: nat)
    requires Distinct(s)
    ensures var w := Window(s, offset, limit);
      && |w| == (if offset >= |s| then 0 else if offset + limit <= |s| then limit else |s| - offset)
      && (forall i :: 0 <= i < |w| ==> w[i] == s[offset + i])
      && Distinct(w)
  {
    var w := Window(s, offset, limit);
    if offset < |s| {
      var end := if offset + limit <= |s| then offset + limit else |s|;
      assert w == s[offset..end];
      forall i, j | 0 <= i < j < |w| ensures w[i] != w[j] {
        assert w[i] == s[offset + i] && w[j] == s[offset + j];
      }
    }
  }

  /** `.unique()` keeps a sequence without repetitions, none of them already seen, as it is. */
  lemma {:induction false} UniqueFromDistinct<T(!new)>(s: seq<T>, seen: set<T>)
    requires Distinct(s) && forall x :: x in s ==> x !in seen
    ensures UniqueFrom(s, seen) == s
  {
    if s != [] {
      var tail := s[1..];
      assert Distinct(tail) by {
        forall i, j | 0 <= i < j < |tail| ensures tail[i] != tail[j] {
          assert tail[i] == s[i + 1] && tail[j] == s[j + 1];
        }
      }
      forall x | x in tail ensures x !in seen + {s[0]} {
        var i :| 0 <= i < |tail| && tail[i] == x;
        assert s[i + 1] == x;
      }
      UniqueFromDistinct(tail, seen + {s[0]});
      assert s == [s[0]] + tail;
    }
  }

  lemma PageIsWindow<T(!new)>(rows: seq<T>, p: T -> bool, page: nat, pageSize: nat)
    ensures page * pageSize >= 0
    ensures Paginate(rows, p, page, pageSize) == Ok(Unique(Window(Filter(rows, p), page * pageSize, pageSize)))
  {
    MulSign(page, pageSize);
  }

  // ---------------------------------------------------------------------------
  // Saving: add, flush and translate the flush error
  // ---------------------------------------------------------------------------

  /** What `save` raises for an error of `session.flush()`: a unique violation becomes a
      `UniqueViolation` (or whatever parsing it raises), everything else is re-raised. */
  function FlushError(tables: map<string, Table>, e: Error): (r: Error)
    ensures !(e.IntegrityError? && e.pgcode == UNIQUE_VIOLATION) ==> r == e
    ensures r.UniqueViolation? && r != e ==>
      e.IntegrityError? && e.pgcode == UNIQUE_VIOLATION && NewUniqueViolation(tables, e.diag) == Ok(r.violation)
    ensures e.IntegrityError? && e.pgcode == UNIQUE_VIOLATION ==>
      var parsed := NewUniqueViolation(tables, e.diag);
      && (parsed.Ok? ==> r == UniqueViolation(parsed.value))
      && (parsed.Err? ==> r == parsed.error)
  {
    if e.IntegrityError? && e.pgcode == UNIQUE_VIOLATION then
      match NewUniqueViolation(tables, e.diag)
      case Ok(v) => UniqueViolation(v)
      case Err(x) => x
    else e
  }

  /** An attribute value of a model instance. */
  datatype Value = Null | Int(i: int) | Str(s: string) | Bool(b: bool) | Real(r: real) | Ref(id: nat)

  /** The session's unit of work: what was added, what was marked for deletion, how many
      flushes ran. */
  class Session {
    var added: set<Entity>
    var deleted: set<Entity>
    var flushes: nat

    constructor ()
      ensures added == {} && deleted == {} && flushes == 0
    {
      added, deleted, flushes := {}, {}, 0;
    }
  }

  predicate DistinctKeys(kwargs: seq<(string, Value)>)
  {
    forall i, j :: 0 <= i < j < |kwargs| ==> kwargs[i].0 != kwargs[j].0
  }

  /** Keyword arguments set one after the other. */
  function KwargsMap(kwargs: seq<(string, Value)>): (m: map<string, Value>)
    ensures forall k :: k in m <==> exists i :: 0 <= i < |kwargs| && kwargs[i].0 == k
  {
    if kwargs == [] then map[]
    else
      var last := kwargs[|kwargs| - 1];
      var m := KwargsMap(kwargs[..|kwargs| - 1])[last.0 := last.1];
      assert forall k :: k in m ==> exists i :: 0 <= i < |kwargs| && kwargs[i].0 == k by {
        forall k | k in m ensures exists i :: 0 <= i < |kwargs| && kwargs[i].0 == k {
          if k != last.0 {
            var i :| 0 <= i < |kwargs| - 1 && kwargs[..|kwargs| - 1][i].0 == k;
            assert kwargs[i].0 == k;
          }
        }
      }
      assert forall i :: 0 <= i < |kwargs| ==> kwargs[i].0 in m by {
        forall i | 0 <= i < |kwargs| ensures kwargs[i].0 in m {
          if i < |kwargs| - 1 {
            assert kwargs[..|kwargs| - 1][i] == kwargs[i];
          }
        }
      }
      m
  }

  /** With distinct names, every keyword argument's value is the one its name is set to. */
  lemma {:induction false} KwargsMapAt(kwargs: seq<(string, Value)>, i: nat)
    requires DistinctKeys(kwargs) && i < |kwargs|
    ensures kwargs[i].0 in KwargsMap(kwargs) && KwargsMap(kwargs)[kwargs[i].0] == kwargs[i].1
  {
    var n := |kwargs| - 1;
    if i < n {
      var init := kwargs[..n];
      assert init[i] == kwargs[i];
      assert DistinctKeys(init) by {
        forall a, b | 0 <= a < b < |init| ensures init[a].0 != init[b].0 {
          assert init[a] == kwargs[a] && init[b] == kwargs[b];
        }
      }
      KwargsMapAt(init, i);
      assert kwargs[i].0 != kwargs[n].0;
    }
  }

  /** `update(**kwargs)` sets every given attribute to its value and leaves the others. */
  lemma UpdateSetsGiven(attrs: map<string, Value>, kwargs: seq<(string, Value)>)
    requires DistinctKeys(kwargs)
    ensures forall i :: 0 <= i < |kwargs| ==> (attrs + KwargsMap(kwargs))[kwargs[i].0] == kwargs[i].1
    ensures forall k :: (forall i :: 0 <= i < |kwargs| ==> kwargs[i].0 != k) ==>
      (k in attrs + KwargsMap(kwargs) <==> k in attrs) &&
      (k in attrs ==> (attrs + KwargsMap(kwargs))[k] == attrs[k])
  {
    forall i | 0 <= i < |kwargs|
      ensures (attrs + KwargsMap(kwargs))[kwargs[i].0] == kwargs[i].1
    {
      KwargsMapAt(kwargs, i);
    }
  }

  /** Setting one more keyword argument on top of the ones set so far. */
  lemma UpdateStep(attrs: map<string, Value>, kwargs: seq<(string, Value)>, i: nat)
    requires i < |kwargs|
    ensures (attrs + KwargsMap(kwargs[..i]))[kwargs[i].0 := kwargs[i].1] == attrs + KwargsMap(kwargs[..i + 1])
  {
    assert kwargs[..i + 1][..i] == kwargs[..i];
    assert KwargsMap(kwargs[..i + 1]) == KwargsMap(kwargs[..i])[kwargs[i].0 := kwargs[i].1];
  }

  /** An instance of a model: its class (and so its table) and its attributes. */
  class Entity {
    const table: string
    var attrs: map<string, Value>

    /** `cls(**kwargs)` */
    constructor (className: string, kwargs: map<string, Value>)
      ensures table == TableName(className) && attrs == kwargs
    {
      table := className;
      attrs := kwargs;
    }

    /** `Model.save()`: add to the session and flush; `flush` is the flush's outcome. */
    method Save(session: Session, tables: map<string, Table>, flush: Option<Error>) returns (r: Result<Entity>)
      modifies session
      ensures session.added == old(session.added) + {this}
      ensures session.deleted == old(session.deleted) && session.flushes == old(session.flushes) + 1
      ensures r == if flush.None? then Ok(this) else Err(FlushError(tables, flush.value))
    {
      session.added := session.added + {this};
      session.flushes := session.flushes + 1;
      if flush.Some? {
        return Err(FlushError(tables, flush.value));
      }
      r := Ok(this);
    }

    /** `Model.update(**kwargs)`: set each given attribute, then save. */
    method Update(kwargs: seq<(string, Value)>, session: Session, tables: map<string, Table>, flush: Option<Error>)
      returns (r: Result<Entity>)
      modifies this, session
      ensures attrs == old(attrs) + KwargsMap(kwargs)
      ensures session.added == old(session.added) + {this}
      ensures session.deleted == old(session.deleted) && session.flushes == old(session.flushes) + 1
      ensures r == if flush.None? then Ok(this) else Err(FlushError(tables, flush.value))
    {
      var i := 0;
      while i < |kwargs|
        invariant 0 <= i <= |kwargs|
        invariant attrs == old(attrs) + KwargsMap(kwargs[..i])
        modifies this
      {
        var (attribute, value) := kwargs[i];
        attrs := attrs[attribute := value];
        UpdateStep(old(attrs), kwargs, i);
        i := i + 1;
      }
      assert kwargs[..i] == kwargs;
      r := Save(session, tables, flush);
    }

    /** `Model.delete()`: mark for deletion in the session. */
    method Delete(session: Session)
      modifies session
      ensures session.deleted == old(session.deleted) + {this}
      ensures session.added == old(session.added) && session.flushes == old(session.flushes)
    {
      session.deleted := session.deleted + {this};
    }
  }

  /** `Model.insert(**kwargs)`: construct and save. */
  method Insert(className: string, kwargs: map<string, Value>, session: Session,
                tables: map<string, Table>, flush: Option<Error>)
    returns (e: Entity, r: Result<Entity>)
    modifies session
    ensures fresh(e) && e.table == className && e.attrs == kwargs
    ensures session.added == old(session.added) + {e} && session.deleted == old(session.deleted)
    ensures r == if flush.None? then Ok(e) else Err(FlushError(tables, flush.value))
  {
    e := new Entity(className, kwargs);
    r := e.Save(session, tables, flush);
  }

  /** A flush that hits a unique violation on a known column makes `save` raise the
      corresponding UniqueViolation. */
  lemma SaveDuplicateRaisesViolation(tables: map<string, Table>, table: string, c: string, v: string)
    requires '(' !in c && ')' !in c && ')' !in v
    requires table in tables && ColumnNamed(tables[table].columns, c).Some?
    ensures FlushError(tables, IntegrityError(UNIQUE_VIOLATION, Diag(UniqueDetail(c, v), table))) ==
            UniqueViolation(Violation(table, ReportedName(ColumnNamed(tables[table].columns, c).value), v))
  {
    UniqueViolationFromDetail(tables, table, c, v);
  }

  // ---------------------------------------------------------------------------
  // association and the registry
  // ---------------------------------------------------------------------------

  /** The name of the association table of two models: "Association" and the two names in
      sorted order. */
  function AssociationName(a: string, b: string): (r: string)
    ensures r == "Association" + a + b || r == "Association" + b + a
    ensures LexLessEq(a, b) ==> r == "Association" + a + b
  {
    if LexLessEq(a, b) then "Association" + a + b else "Association" + b + a
  }

  /** Argument order does not matter. */
  lemma AssociationNameSymmetric(a: string, b: string)
    ensures AssociationName(a, b) == AssociationName(b, a)
  {
    LexTotal(a, b);
    if LexLessEq(a, b) && LexLessEq(b, a) {
      LexAntisymmetric(a, b);
    }
  }

  /** The column `association` declares for one side. */
  function AssociationColumn(model: string): Column
  {
    Column(Lower(model) + "_id", Integer, None, Some(model + ".id"), true, false, true)
  }

  /** The table `association(tableFrom, tableTo)` creates. */
  function AssociationTable(tableFrom: string, tableTo: string): (t: Table)
    ensures t.name == AssociationName(tableFrom, tableTo)
    ensures |t.columns| == 2
    ensures forall c :: c in t.columns ==> c.primaryKey && c.index
    ensures t.columns[0].name == Lower(tableFrom) + "_id" && t.columns[0].references == Some(tableFrom + ".id")
    ensures t.columns[1].name == Lower(tableTo) + "_id" && t.columns[1].references == Some(tableTo + ".id")
  {
    Table(AssociationName(tableFrom, tableTo), [AssociationColumn(tableFrom), AssociationColumn(tableTo)])
  }

  /** `Database.metadata`: the registry of declared tables. */
  class Metadata {
    var tables: map<string, Table>

    constructor (declared: map<string, Table>)
      ensures tables == declared
    {
      tables := declared;
    }

    /** `association(tableFrom, tableTo)`: get or create the link table and return the
        relationship to `tableTo` through it. */
    method Association(tableFrom: string, tableTo: string) returns (rel: Relationship)
      modifies this
      ensures rel == Relationship(tableTo, AssociationName(tableFrom, tableTo))
      ensures AssociationName(tableFrom, tableTo) in tables
      ensures AssociationName(tableFrom, tableTo) in old(tables) ==> tables == old(tables)
      ensures AssociationName(tableFrom, tableTo) !in old(tables) ==>
        tables == old(tables)[AssociationName(tableFrom, tableTo) := AssociationTable(tableFrom, tableTo)]
    {
      var tableName := AssociationName(tableFrom, tableTo);
      if tableName !in tables {
        tables := tables[tableName := AssociationTable(tableFrom, tableTo)];
      }
      rel := Relationship(tableTo, tableName);
    }
  }

  /** Declaring the association the other way round reuses the table the first call made. */
  method AssociationBothWays(m: Metadata, a: string, b: string) returns (first: Relationship, second: Relationship)
    modifies m
    ensures first.secondary == second.secondary
    ensures first.target == b && second.target == a
    ensures |m.tables.Keys - old(m.tables.Keys)| <= 1
  {
    first := m.Association(a, b);
    ghost var afterFirst := m.tables;
    AssociationNameSymmetric(a, b);
    second := m.Association(b, a);
    assert m.tables == afterFirst;
    assert m.tables.Keys - old(m.tables.Keys) <= {AssociationName(a, b)};
  }

  // ---------------------------------------------------------------------------
  // LocationMixin
  // ---------------------------------------------------------------------------

  /** The dict the `location` property reads and writes. */
  datatype LocationDict = LocationDict(latitude: Option<real>, longitude: Option<real>, address: Option<string>)

  /** Python truthiness of an optional string. */
  predicate Truthy(s: Option<string>)
  {
    s.Some? && s.value != ""
  }

  /** A model with the three location columns. */
  class Located {
    var latitude: Option<real>
    var longitude: Option<real>
    var address: Option<string>

    constructor ()
      ensures latitude == None && longitude == None && address == None
    {
      latitude, longitude, address := None, None, None;
    }

    /** The `location` getter: None when there is no address. */
    function Location(): (r: Option<LocationDict>)
      reads this
      ensures r.None? <==> !Truthy(address)
      ensures r.Some? ==> r.value == LocationDict(latitude, longitude, address)
    {
      if !Truthy(address) then None else Some(LocationDict(latitude, longitude, address))
    }

    /** The `location` setter, followed by the getter: a dict with an address reads back
        unchanged. */
    method SetLocation(d: LocationDict)
      modifies this
      ensures latitude == d.latitude && longitude == d.longitude && address == d.address
      ensures Location() == if Truthy(d.address) then Some(d) else None
    {
      latitude := d.latitude;
      longitude := d.longitude;
      address := d.address;
    }
  }
}

=== FILE: notifications.dfy ===
/** Push notifications: the failure counter each device keeps and the members of a chat a
    new message is pushed to. Delivery itself is an outcome handed in by the caller. */
module Notifications {
  import opened Errors
  import opened ModelBase

  /** What delivery to one device came back with: the client raised `FCMError`, or a
      response whose `success` field counts the delivered messages. */
  datatype PushOutcome = FcmError | Response(success: int)

  /** The columns of a `Device` that `push` reads and writes. */
  datatype DeviceState = DeviceState(isActive: bool, failsCount: int)

  /** `push`, with the deactivation threshold `Device.MAX_FAILS` as `maxFails`: an inactive
      device and a raised `FCMError` change nothing; a response that did not deliver exactly
      one message counts a failure and deactivates the device at the threshold; a delivered
      message clears the counter. */
  function PushStep(s: DeviceState, maxFails: int, outcome: PushOutcome): (t: DeviceState)
  {
    if !s.isActive || outcome.FcmError? then s
    else if outcome.success != 1 then
      DeviceState(s.isActive && s.failsCount + 1 < maxFails, s.failsCount + 1)
    else if s.failsCount != 0 then s.(failsCount := 0)
    else s
  }

  /** `push` never activates a device. */
  lemma PushNeverReactivates(s: DeviceState, maxFails: int, outcome: PushOutcome)
    ensures PushStep(s, maxFails, outcome).isActive ==> s.isActive
  {
  }

  /** An inactive device is left alone, and so is every device when the client raises. */
  lemma PushUntouched(s: DeviceState, maxFails: int, outcome: PushOutcome)
    ensures !s.isActive || outcome.FcmError? ==> PushStep(s, maxFails, outcome) == s
  {
  }

  /** On an active device a failed delivery adds one failure and deactivates the device
      exactly when the threshold is reached; a delivered message leaves no failures. */
  lemma PushCounts(s: DeviceState, maxFails: int, success: int)
    requires s.isActive
    ensures success != 1 ==> PushStep(s, maxFails, Response(success)).failsCount == s.failsCount + 1
    ensures success != 1 ==> (PushStep(s, maxFails, Response(success)).isActive <==> s.failsCount + 1 < maxFails)
    ensures success == 1 ==> PushStep(s, maxFails, Response(success)) == DeviceState(true, 0)
  {
  }

  /** An active device has fewer failures than the threshold, and `push` keeps it so. */
  predicate BelowThreshold(s: DeviceState, maxFails: int)
  {
    s.isActive ==> 0 <= s.failsCount < maxFails
  }

  lemma PushKeepsBelowThreshold(s: DeviceState, maxFails: int, outcome: PushOutcome)
    requires BelowThreshold(s, maxFails)
    ensures BelowThreshold(PushStep(s, maxFails, outcome), maxFails)
  {
  }

  /** `push` applied once per delivery outcome, in order; an inactive device is left alone. */
  function PushAll(s: DeviceState, maxFails: int, outcomes: seq<PushOutcome>): (t: DeviceState)
    ensures !s.isActive ==> t == s
    decreases |outcomes|
  {
    if outcomes == [] then s else PushAll(PushStep(s, maxFails, outcomes[0]), maxFails, outcomes[1..])
  }

  /** Every outcome in `outcomes` is a failed delivery. */
  predicate AllFailed(outcomes: seq<PushOutcome>)
  {
    forall k :: 0 <= k < |outcomes| ==> outcomes[k].Response? && outcomes[k].success != 1
  }

  /** `maxFails` failed deliveries in a row deactivate an active device below the threshold. */
  lemma {:induction false} FailuresDeactivate(s: DeviceState, maxFails: int, outcomes: seq<PushOutcome>)
    requires s.isActive && BelowThreshold(s, maxFails) && s.failsCount + |outcomes| >= maxFails
    requires AllFailed(outcomes)
    ensures !PushAll(s, maxFails, outcomes).isActive
    decreases |outcomes|
  {
    var t := PushStep(s, maxFails, outcomes[0]);
    if t.isActive {
      assert AllFailed(outcomes[1..]) by {
        forall k | 0 <= k < |outcomes[1..]|
          ensures outcomes[1..][k].Response? && outcomes[1..][k].success != 1
        {
          assert outcomes[1..][k] == outcomes[k + 1];
        }
      }
      FailuresDeactivate(t, maxFails, outcomes[1..]);
    }
  }

  /** `push` as written: `Device` declares no `MAX_FAILS`, so after a failed delivery has
      been counted, reading the threshold raises `AttributeError` and the device stays
      active. */
  function PushStepAsWritten(s: DeviceState, outcome: PushOutcome): (r: (DeviceState, Result<()>))
  {
    if !s.isActive || outcome.FcmError? then (s, Ok(()))
    else if outcome.success != 1 then (s.(failsCount := s.failsCount + 1), Err(AttributeError("MAX_FAILS")))
    else if s.failsCount != 0 then (s.(failsCount := 0), Ok(()))
    else (s, Ok(()))
  }

  /** As written, no outcome ever deactivates a device, and every failed delivery to an
      active device raises; wherever it does not raise it agrees with `PushStep`. */
  lemma AsWrittenNeverDeactivates(s: DeviceState, maxFails: int, outcome: PushOutcome)
    ensures PushStepAsWritten(s, outcome).0.isActive == s.isActive
    ensures PushStepAsWritten(s, outcome).1.Err? <==> s.isActive && outcome.Response? && outcome.success != 1
    ensures PushStepAsWritten(s, outcome).1.Ok? ==> PushStepAsWritten(s, outcome).0 == PushStep(s, maxFails, outcome)
  {
  }

  /** A fresh device whose first delivery fails: with a threshold of one it should be
      deactivated, but as written it stays active and the call raises. */
  lemma AsWrittenFirstFailure()
    ensures PushStep(DeviceState(true, 0), 1, Response(0)) == DeviceState(false, 1)
    ensures PushStepAsWritten(DeviceState(true, 0), Response(0)) == (DeviceState(true, 1), Err(AttributeError("MAX_FAILS")))
  {
  }

  /** A row of the `Device` table. */
  class Device {
    const fcmId: string
    var isActive: bool
    var failsCount: int

    function State(): DeviceState
      reads this
    {
      DeviceState(isActive, failsCount)
    }

    /** A registered device: active, without failures (the column defaults). */
    constructor (fcmId: string)
      ensures this.fcmId == fcmId && isActive && failsCount == 0
    {
      this.fcmId := fcmId;
      isActive := true;
      failsCount := 0;
    }

    /** `push` with the threshold as a parameter; `sent` says whether delivery was tried. */
    method Push(maxFails: int, outcome: PushOutcome) returns (sent: bool)
      modifies this
      ensures sent == old(isActive)
      ensures State() == PushStep(old(State()), maxFails, outcome)
    {
      sent := isActive;
      if !isActive {
        return;
      }
      if outcome.FcmError? {
        return;
      }
      if outcome.success != 1 {
        failsCount := failsCount + 1;
        if failsCount >= maxFails {
          isActive := false;
        }
      } else if failsCount != 0 {
        failsCount := 0;
      }
    }

    /** `push` as written, raising where the missing threshold is read. */
    method PushAsWritten(outcome: PushOutcome) returns (r: Result<()>)
      modifies this
      ensures (State(), r) == PushStepAsWritten(old(State()), outcome)
    {
      r := Ok(());
      if !isActive {
        return;
      }
      if outcome.FcmError? {
        return;
      }
      if outcome.success != 1 {
        failsCount := failsCount + 1;
        return Err(AttributeError("MAX_FAILS"));
      } else if failsCount != 0 {
        failsCount := 0;
      }
    }
  }

  /** `m is not author`. */
  function NotAuthor(author: nat): nat -> bool
  {
    (m: nat) => m != author
  }

  /** `notify_chat_members`: every member of the chat except the author of its last message
      is pushed to, in member order; the title is read from the author's `full_name`.
      `members` are profile ids, `devices[k]` is the device
      of `members[k]` and `outcomes[k]` what delivery to it came back with. */
  method NotifyChatMembers(members: seq<nat>, author: nat, devices: seq<Device>, outcomes: seq<PushOutcome>,
                           maxFails: int)
    returns (recipients: seq<nat>)
    requires |devices| == |members| && |outcomes| == |members|
    requires forall i, j :: 0 <= i < j < |devices| ==> devices[i] != devices[j]
    modifies set k | 0 <= k < |devices| :: devices[k]
    ensures recipients == Filter(members, NotAuthor(author))
    ensures forall k :: 0 <= k < |members| && members[k] != author ==>
      devices[k].State() == PushStep(old(devices[k].State()), maxFails, outcomes[k])
    ensures forall k :: 0 <= k < |members| && members[k] == author ==>
      devices[k].State() == old(devices[k].State())
  {
    recipients := [];
    for i := 0 to |members|
      invariant recipients == Filter(members[..i], NotAuthor(author))
      invariant forall k :: 0 <= k < i && members[k] != author ==>
        devices[k].State() == PushStep(old(devices[k].State()), maxFails, outcomes[k])
      invariant forall k :: 0 <= k < |members| && (i <= k || members[k] == author) ==>
        devices[k].State() == old(devices[k].State())
    {
      if members[i] != author {
        var _ := devices[i].Push(maxFails, outcomes[i]);
        recipients := recipients + [members[i]];
      }
      OthersStep(members, author, i);
    }
    assert members[..|members|] == members;
  }

  /** The attributes a `Profile` has: its declared columns and the `user` backref that
      `User.profile` adds. */
  const PROFILE_ATTRIBUTES: set<string> :=
    {"id", "uuid", "phone", "full_name", "about", "online", "rating", "avatar", "location", "user"}

  /** Reading attribute `name` of a profile: only the attributes it has can be read; any
      other raises `AttributeError(name)`. */
  function ProfileAttribute(name: string): (r: Result<()>)
    ensures r.Ok? <==> name in PROFILE_ATTRIBUTES
    ensures r.Err? ==> r.error == AttributeError(name)
  {
    if name in PROFILE_ATTRIBUTES then Ok(()) else Err(AttributeError(name))
  }

  /** `notify_chat_members` as written: the title reads `message.author.name`, which a
      `Profile` does not have, so the call raises before any member is pushed to and every
      device is left as it was. `NotifyChatMembers` reads `full_name` instead. */
  method NotifyChatMembersAsWritten(members: seq<nat>, author: nat, devices: seq<Device>,
                                    outcomes: seq<PushOutcome>, maxFails: int)
    returns (r: Result<seq<nat>>)
    requires |devices| == |members| && |outcomes| == |members|
    requires forall i, j :: 0 <= i < j < |devices| ==> devices[i] != devices[j]
    modifies set k | 0 <= k < |devices| :: devices[k]
    ensures r == Err(AttributeError("name"))
    ensures forall k :: 0 <= k < |devices| ==> devices[k].State() == old(devices[k].State())
  {
    match ProfileAttribute("name") {
      case Err(e) =>
        r := Err(e);
      case Ok(_) =>
        // not reached: `name` is not among the attributes of a `Profile`
        r := Err(AttributeError("name"));
    }
  }

  /** The members up to `i + 1` other than the author. */
  lemma OthersStep(members: seq<nat>, author: nat, i: nat)
    requires i < |members|
    ensures Filter(members[..i + 1], NotAuthor(author)) ==
      Filter(members[..i], NotAuthor(author)) + (if members[i] != author then [members[i]] else [])
  {
    assert members[..i + 1] == members[..i] + [members[i]];
    FilterSnoc(members[..i], members[i], NotAuthor(author));
  }

  /** Filtering a sequence extended by one element. */
  lemma {:induction false} FilterSnoc<T(!new)>(s: seq<T>, x: T, p: T -> bool)
    ensures Filter(s + [x], p) == Filter(s, p) + (if p(x) then [x] else [])
    decreases |s|
  {
    if s != [] {
      assert (s + [x])[1..] == s[1..] + [x];
      FilterSnoc(s[1..], x, p);
    }
  }

  /** The author of the message is never pushed to, and every other member is. */
  lemma RecipientsAreOthers(members: seq<nat>, author: nat)
    ensures author !in Filter(members, NotAuthor(author))
    ensures forall m :: m in members && m != author ==> m in Filter(members, NotAuthor(author))
  {
  }
}

=== FILE: offers.dfy ===
/** Offers companies make on listings: creation with its three refusals, editing by the
    offering company, the seller's answer and the soft delete, together with the rule the
    creation check keeps, at most one active offer per company and listing. */
module Offers {
  import opened Errors
  import opened ModelBase
  import opened Guards

  /** `Offer.PAGE_SIZE`. */
  const PAGE_SIZE: nat := 30

  /** A row of the `Offer` table. `accepted` is None while the seller has not answered. */
  datatype Offer = Offer(
    id: nat,
    uuid: string,
    listing: nat,
    company: nat,
    price: int,
    comment: Option<string>,
    accepted: Option<bool>,
    active: bool)

  /** A new offer: active, not yet answered. */
  function NewOffer(id: nat, uuid: string, listing: nat, company: nat, price: int, comment: Option<string>)
    : (o: Offer)
    ensures o.active && o.accepted.None?
    ensures o.listing == listing && o.company == company && o.price == price && o.comment == comment
  {
    Offer(id, uuid, listing, company, price, comment, None, true)
  }

  /** `Offer.allowed(user)`: the user's company is the offering company. */
  predicate Allowed(o: Offer, user: User)
  {
    user.company == Some(o.company)
  }

  /** No company has two active offers on the same listing. */
  predicate AtMostOneActive(offers: seq<Offer>)
  {
    forall i, j :: 0 <= i < j < |offers| && offers[i].active && offers[j].active ==>
      (offers[i].listing, offers[i].company) != (offers[j].listing, offers[j].company)
  }

  /** `Offer.scalar(Offer.listing_id == listing, Offer.company_id == company, Offer.active)`
      finds something. */
  predicate HasActiveOffer(offers: seq<Offer>, listing: nat, company: nat)
  {
    exists k :: 0 <= k < |offers| && offers[k].listing == listing && offers[k].company == company && offers[k].active
  }

  function OfferUuid(o: Offer): string { o.uuid }
  function IsActive(o: Offer): bool { o.active }
  function Unanswered(o: Offer): bool { o.active && o.accepted.None? }

  /** What `get_offers_list` shows the user at `u`: active offers of the user's company, or,
      for a user without one, active offers on the user's listings. */
  predicate Visible(o: Offer, listings: seq<ListingInfo>, u: User)
  {
    && o.active
    && (if u.company.Some? then o.company == u.company.value
        else exists l :: l in listings && l.id == o.listing && l.seller == u.profile)
  }

  /** `get_offers_list`: `paginate` is called without a page, so it always serves page 0. */
  function OffersList(offers: seq<Offer>, listings: seq<ListingInfo>, users: seq<User>, token: string)
    : (r: Result<seq<Offer>>)
    ensures r.Err? <==> CurrentUser(users, token).Err?
    ensures r.Err? ==> r.error == Unauthorized
    ensures r.Ok? ==> |r.value| <= PAGE_SIZE
    ensures r.Ok? ==> forall o :: o in r.value ==>
      o in offers && Visible(o, listings, users[CurrentUser(users, token).value])
  {
    var user := CurrentUser(users, token);
    if user.Err? then Err(user.error)
    else
      var u := users[user.value];
      Paginate(offers, (o: Offer) => Visible(o, listings, u), 0, PAGE_SIZE)
  }

  /** The first page of the list holds the first visible offers, up to a page of them. */
  lemma OffersListFirstPage(offers: seq<Offer>, listings: seq<ListingInfo>, users: seq<User>, token: string, k: nat)
    requires CurrentUser(users, token).Ok? && k < PAGE_SIZE
    requires var u := users[CurrentUser(users, token).value];
      k < |Filter(offers, (o: Offer) => Visible(o, listings, u))|
    ensures var u := users[CurrentUser(users, token).value];
      Filter(offers, (o: Offer) => Visible(o, listings, u))[k] in OffersList(offers, listings, users, token).value
  {
    var u := users[CurrentUser(users, token).value];
    PageContains(offers, (o: Offer) => Visible(o, listings, u), k, PAGE_SIZE);
    assert k / PAGE_SIZE == 0;
  }

  /** The seller of the listing with id `listing`, as `offer.listing.seller` reads it. */
  function SellerOf(listings: seq<ListingInfo>, listing: nat): (r: Option<nat>)
    ensures r.None? <==> forall l :: l in listings ==> l.id != listing
    ensures r.Some? ==> exists l :: l in listings && l.id == listing && l.seller == r.value
  {
    var k := FirstIndex(listings, (l: ListingInfo) => l.id == listing);
    if k < 0 then None else Some(listings[k].seller)
  }

  const NO_COMPANY: string := "You must register a company first"
  const OWN_LISTING: string := "You can't make offers for your own listing"
  const ALREADY_OFFERED: string := "You've already made an offer for the listing"
  const ALREADY_ACCEPTED: string := "Offer has already been accepted"
  const NOT_FOR_YOU: string := "Offer is not for you"

  /** The `Offer` table. */
  class OfferTable {
    var offers: seq<Offer>

    constructor ()
      ensures offers == []
    {
      offers := [];
    }

    /** `create_offer`: 401, then 400 without a company, 404 for an unknown listing, 400 on
        the user's own listing and 409 when the company already has an active offer on it;
        otherwise the new offer is appended. */
    method CreateOffer(users: seq<User>, listings: seq<ListingInfo>, token: string, listingUuid: string,
                       price: int, comment: Option<string>, id: nat, uuid: string)
      returns (r: Result<Offer>)
      modifies this
      ensures var user := CurrentUser(users, token);
        var found := Fetch(listings, ListingUuid, AnyListing, "Listing", listingUuid);
        && (user.Err? ==> r == Err(Unauthorized))
        && (user.Ok? && users[user.value].company.None? ==> r == Err(BadRequest(NO_COMPANY)))
        && (user.Ok? && users[user.value].company.Some? ==>
              var u := users[user.value];
              && (found.Err? ==> r == Err(NotFound(NotFoundMessage("Listing"))))
              && (found.Ok? && listings[found.value].seller == u.profile ==> r == Err(BadRequest(OWN_LISTING)))
              && (found.Ok? && listings[found.value].seller != u.profile ==>
                    var l := listings[found.value];
                    && (HasActiveOffer(old(offers), l.id, u.company.value) ==> r == Err(Conflict(ALREADY_OFFERED)))
                    && (!HasActiveOffer(old(offers), l.id, u.company.value) ==>
                          r == Ok(NewOffer(id, uuid, l.id, u.company.value, price, comment)))))
      ensures r.Err? ==> offers == old(offers)
      ensures r.Ok? ==> offers == old(offers) + [r.value]
      ensures AtMostOneActive(old(offers)) ==> AtMostOneActive(offers)
    {
      var user := CurrentUser(users, token);
      if user.Err? {
        return Err(user.error);
      }
      var u := users[user.value];
      if u.company.None? {
        return Err(BadRequest(NO_COMPANY));
      }
      var found := Fetch(listings, ListingUuid, AnyListing, "Listing", listingUuid);
      if found.Err? {
        return Err(found.error);
      }
      var listing := listings[found.value];
      if listing.seller == u.profile {
        return Err(BadRequest(OWN_LISTING));
      }
      var k := FirstIndex(offers, (o: Offer) => o.listing == listing.id && o.company == u.company.value && o.active);
      if k >= 0 {
        return Err(Conflict(ALREADY_OFFERED));
      }
      var offer := NewOffer(id, uuid, listing.id, u.company.value, price, comment);
      offers := offers + [offer];
      r := Ok(offer);
    }

    /** `update_offer`: through `fetch_allowed` on the active offers; an accepted offer is
        refused with 400 and left as it is. Only the fields sent are changed. */
    method UpdateOffer(users: seq<User>, token: string, uuid: string, price: Option<int>, comment: Option<string>)
      returns (r: Result<Offer>)
      modifies this
      ensures var g := FetchAllowed(users, token, old(offers), OfferUuid, IsActive, Allowed, "Offer", uuid);
        && (g.Err? ==> r == Err(g.error) && offers == old(offers))
        && (g.Ok? && old(offers)[g.value.1].accepted == Some(true) ==>
              r == Err(BadRequest(ALREADY_ACCEPTED)) && offers == old(offers))
        && (g.Ok? && old(offers)[g.value.1].accepted != Some(true) ==>
              var o := old(offers)[g.value.1];
              var o' := o.(price := if price.Some? then price.value else o.price,
                           comment := if comment.Some? then comment else o.comment);
              r == Ok(o') && offers == old(offers)[g.value.1 := o'])
      ensures AtMostOneActive(old(offers)) ==> AtMostOneActive(offers)
    {
      var g := FetchAllowed(users, token, offers, OfferUuid, IsActive, Allowed, "Offer", uuid);
      if g.Err? {
        return Err(g.error);
      }
      var o := offers[g.value.1];
      if o.accepted == Some(true) {
        return Err(BadRequest(ALREADY_ACCEPTED));
      }
      var o' := o.(price := if price.Some? then price.value else o.price,
                   comment := if comment.Some? then comment else o.comment);
      offers := offers[g.value.1 := o'];
      r := Ok(o');
    }

    /** `accept_offer`: the offer is looked up among the active, unanswered ones (404) before
        the caller (401); only the listing's seller may answer (403). Accepting keeps the
        offer active; rejecting deactivates it. */
    method AcceptOffer(users: seq<User>, listings: seq<ListingInfo>, token: string, uuid: string, accept: bool)
      returns (r: Result<()>)
      modifies this
      ensures var f := Fetch(old(offers), OfferUuid, Unanswered, "Offer", uuid);
        var user := CurrentUser(users, token);
        && (f.Err? ==> r == Err(NotFound(NotFoundMessage("Offer"))) && offers == old(offers))
        && (f.Ok? && user.Err? ==> r == Err(Unauthorized) && offers == old(offers))
        && (f.Ok? && user.Ok? ==>
              var o := old(offers)[f.value];
              var u := users[user.value];
              && (SellerOf(listings, o.listing) != Some(u.profile) ==>
                    r == Err(Forbidden(Some(NOT_FOR_YOU))) && offers == old(offers))
              && (SellerOf(listings, o.listing) == Some(u.profile) ==>
                    r == Ok(()) && offers == old(offers)[f.value := o.(accepted := Some(accept), active := accept)]))
      ensures |offers| == |old(offers)|
      ensures forall k :: 0 <= k < |offers| ==> offers[k].active ==> old(offers)[k].active
      ensures AtMostOneActive(old(offers)) ==> AtMostOneActive(offers)
    {
      var f := Fetch(offers, OfferUuid, Unanswered, "Offer", uuid);
      if f.Err? {
        return Err(f.error);
      }
      var user := CurrentUser(users, token);
      if user.Err? {
        return Err(user.error);
      }
      var o := offers[f.value];
      var u := users[user.value];
      if SellerOf(listings, o.listing) != Some(u.profile) {
        return Err(Forbidden(Some(NOT_FOR_YOU)));
      }
      if accept {
        offers := offers[f.value := o.(accepted := Some(true))];
      } else {
        offers := offers[f.value := o.(accepted := Some(false), active := false)];
      }
      r := Ok(());
    }

    /** `delete_offer`: a soft delete of an active offer of the caller's company. */
    method DeleteOffer(users: seq<User>, token: string, uuid: string) returns (r: Result<()>)
      modifies this
      ensures var g := FetchAllowed(users, token, old(offers), OfferUuid, IsActive, Allowed, "Offer", uuid);
        && (g.Err? ==> r == Err(g.error) && offers == old(offers))
        && (g.Ok? ==> r == Ok(()) && offers == old(offers)[g.value.1 := old(offers)[g.value.1].(active := false)])
      ensures |offers| == |old(offers)|
      ensures AtMostOneActive(old(offers)) ==> AtMostOneActive(offers)
    {
      var g := FetchAllowed(users, token, offers, OfferUuid, IsActive, Allowed, "Offer", uuid);
      if g.Err? {
        return Err(g.error);
      }
      offers := offers[g.value.1 := offers[g.value.1].(active := false)];
      r := Ok(());
    }
  }

  /** Appending an offer keeps the rule exactly when no active offer has its key. */
  lemma AppendKeepsOneActive(offers: seq<Offer>, o: Offer)
    requires AtMostOneActive(offers) && !HasActiveOffer(offers, o.listing, o.company)
    ensures AtMostOneActive(offers + [o])
  {
    var s := offers + [o];
    forall i, j | 0 <= i < j < |s| && s[i].active && s[j].active
      ensures (s[i].listing, s[i].company) != (s[j].listing, s[j].company)
    {
      if j == |offers| {
        assert s[i] == offers[i];
      }
    }
  }

  /** Changing an offer without activating it or changing its key keeps the rule. */
  lemma ReplaceKeepsOneActive(offers: seq<Offer>, k: nat, o: Offer)
    requires AtMostOneActive(offers) && k < |offers|
    requires o.active ==> offers[k].active && o.listing == offers[k].listing && o.company == offers[k].company
    ensures AtMostOneActive(offers[k := o])
  {
  }
}

=== FILE: text.dfy ===
/** The few Python string operations the core relies on: find, split, lower and `<=`. */
module Text {

  /** `pat` occurs in `s` starting at index `j`. */
  predicate OccursAt(s: string, pat: string, j: int)
  {
    0 <= j && j + |pat| <= |s| && s[j..j + |pat|] == pat
  }

  /** Python's `s.find(pat)`: the first index where `pat` occurs, or -1. */
  function Find(s: string, pat: string): (r: int)
    ensures -1 <= r <= |s|
    ensures r >= 0 ==> OccursAt(s, pat, r)
    ensures r >= 0 ==> forall j :: 0 <= j < r ==> !OccursAt(s, pat, j)
    ensures r < 0 ==> forall j :: !OccursAt(s, pat, j)
    decreases |s|
  {
    if |s| < |pat| then -1
    else if s[..|pat|] == pat then 0
    else
      var k := Find(s[1..], pat);
      assert !OccursAt(s, pat, 0) by { assert s[0..|pat|] == s[..|pat|]; }
      assert forall j :: 1 <= j ==> (OccursAt(s, pat, j) <==> OccursAt(s[1..], pat, j - 1)) by {
        forall j | 1 <= j
          ensures OccursAt(s, pat, j) <==> OccursAt(s[1..], pat, j - 1)
        {
          if j + |pat| <= |s| {
            assert s[1..][j - 1..j - 1 + |pat|] == s[j..j + |pat|];
          }
        }
      }
      if k < 0 then -1 else k + 1
  }

  /** Find is pinned down by the first occurrence. */
  lemma FindFirst(s: string, pat: string, p: int)
    requires OccursAt(s, pat, p)
    requires forall j :: 0 <= j < p ==> !OccursAt(s, pat, j)
    ensures Find(s, pat) == p
  {
  }

  /** Find returns -1 when there is no occurrence. */
  lemma FindNone(s: string, pat: string)
    requires forall j :: 0 <= j ==> !OccursAt(s, pat, j)
    ensures Find(s, pat) == -1
  {
  }

  /** An occurrence begins with the pattern's first two characters. */
  lemma OccursAtHead(s: string, pat: string, j: int)
    requires |pat| > 0
    ensures OccursAt(s, pat, j) ==> 0 <= j < |s| && s[j] == pat[0]
    ensures OccursAt(s, pat, j) && |pat| >= 2 ==> j + 1 < |s| && s[j + 1] == pat[1]
  {
    if OccursAt(s, pat, j) {
      assert s[j..j + |pat|][0] == s[j];
      if |pat| >= 2 {
        assert s[j..j + |pat|][1] == s[j + 1];
      }
    }
  }

  /** When `pat` starts `b` and its first character does not occur in `a`, `a + b` finds it
      right after `a`. */
  lemma FindAfter(a: string, b: string, pat: string)
    requires |pat| > 0 && pat[0] !in a && OccursAt(b, pat, 0)
    ensures Find(a + b, pat) == |a|
  {
    var s := a + b;
    assert s[|a|..|a| + |pat|] == b[..|pat|];
    forall j | 0 <= j < |a|
      ensures !OccursAt(s, pat, j)
    {
      OccursAtHead(s, pat, j);
      assert s[j] == a[j];
      assert a[j] in a;
    }
    FindFirst(s, pat, |a|);
  }

  /** Python's `s.split(sep)` for a non-empty separator. */
  function Split(s: string, sep: string): (parts: seq<string>)
    requires |sep| > 0
    ensures |parts| >= 1
    decreases |s|
  {
    var i := Find(s, sep);
    if i < 0 then [s] else [s[..i]] + Split(s[i + |sep|..], sep)
  }

  /** A string with exactly one separator, at `i`, splits into the parts before and after it. */
  lemma {:induction false} SplitOnce(s: string, sep: string, i: nat)
    requires |sep| > 0 && i + |sep| <= |s|
    requires Find(s, sep) == i && Find(s[i + |sep|..], sep) == -1
    ensures Split(s, sep) == [s[..i], s[i + |sep|..]]
  {
    SplitAt(s, sep, i);
    SplitNone(s[i + |sep|..], sep);
  }

  /** Unfolds `Split` once at the first separator. */
  lemma {:induction false} SplitAt(s: string, sep: string, i: nat)
    requires |sep| > 0 && i + |sep| <= |s| && Find(s, sep) == i
    ensures Split(s, sep) == [s[..i]] + Split(s[i + |sep|..], sep)
  {
  }

  /** A string without the separator is its own only part. */
  lemma {:induction false} SplitNone(s: string, sep: string)
    requires |sep| > 0 && Find(s, sep) == -1
    ensures Split(s, sep) == [s]
  {
  }

  /** Python's `s[i:]` for an index in -1 .. |s| as produced by Find + 1 arithmetic. */
  function DropPrefix(s: string, i: int): string
  {
    if i <= 0 then s else if i >= |s| then [] else s[i..]
  }

  /** Python's `s[:i]` for an index i >= -1 (a negative index counts from the end). */
  function TakePrefix(s: string, i: int): string
  {
    if i >= |s| then s
    else if i >= 0 then s[..i]
    else if |s| + i >= 0 then s[..|s| + i]
    else []
  }

  /** Python's `str.lower()` on ASCII letters; other characters are kept. */
  function LowerChar(c: char): char
  {
    if 'A' <= c <= 'Z' then (c as int + 32) as char else c
  }

  function Lower(s: string): (r: string)
    ensures |r| == |s|
    ensures forall i :: 0 <= i < |s| ==> r[i] == LowerChar(s[i])
  {
    seq(|s|, i requires 0 <= i < |s| => LowerChar(s[i]))
  }

  /** Python's `a <= b` on strings: lexicographic order of code points. */
  predicate LexLessEq(a: string, b: string)
    decreases |a|
  {
    if a == [] then true
    else if b == [] then false
    else if a[0] != b[0] then a[0] < b[0]
    else LexLessEq(a[1..], b[1..])
  }

  lemma {:induction false} LexTotal(a: string, b: string)
    ensures LexLessEq(a, b) || LexLessEq(b, a)
    decreases |a|
  {
    if a != [] && b != [] && a[0] == b[0] {
      LexTotal(a[1..], b[1..]);
    }
  }

  lemma {:induction false} LexAntisymmetric(a: string, b: string)
    requires LexLessEq(a, b) && LexLessEq(b, a)
    ensures a == b
    decreases |a|
  {
    if a != [] {
      LexAntisymmetric(a[1..], b[1..]);
      assert a == [a[0]] + a[1..];
      assert b == [b[0]] + b[1..];
    }
  }
}

=== FILE: users.dfy ===
/** Accounts: registration with its 409 on a taken email or phone, login, and the
    favourites list. */
module Users {
  import opened Errors
  import opened ModelBase
  import opened Guards

  /** `list.remove(x)`: drop the first occurrence; the `ValueError` of a missing element is
      swallowed by the handler, so nothing changes then. */
  function RemoveFirst<T(==)>(s: seq<T>, x: T): (r: seq<T>)
    ensures x !in s ==> r == s
    ensures x in s ==> |r| == |s| - 1 && multiset(r) == multiset(s) - multiset{x}
  {
    if s == [] then []
    else
      assert s == [s[0]] + s[1..];
      if s[0] == x then s[1..] else [s[0]] + RemoveFirst(s[1..], x)
  }

  /** Adding a listing that is not yet a favourite and removing it again restores the list. */
  lemma {:induction false} AddThenRemove<T>(s: seq<T>, x: T)
    requires x !in s
    ensures RemoveFirst(s + [x], x) == s
  {
    if s != [] {
      assert (s + [x])[1..] == s[1..] + [x];
      AddThenRemove(s[1..], x);
    }
  }

  /** Removing keeps the order of what stays: everything before the first occurrence, then
      everything after it. */
  lemma {:induction false} RemoveFirstSplits<T>(s: seq<T>, x: T, k: nat)
    requires k < |s| && s[k] == x && x !in s[..k]
    ensures RemoveFirst(s, x) == s[..k] + s[k + 1..]
  {
    if k > 0 {
      var tail := s[1..];
      assert s[0] == s[..k][0];
      RemoveFirstCons(s, x);
      assert tail[..k - 1] == s[1..k];
      assert s[..k] == [s[0]] + s[1..k];
      assert x !in tail[..k - 1];
      RemoveFirstSplits(tail, x, k - 1);
      assert tail[k..] == s[k + 1..];
      calc {
        RemoveFirst(s, x);
        [s[0]] + RemoveFirst(tail, x);
        [s[0]] + (s[1..k] + s[k + 1..]);
        ([s[0]] + s[1..k]) + s[k + 1..];
        s[..k] + s[k + 1..];
      }
    }
  }

  /** Removing from a sequence that does not start with the element keeps its head. */
  lemma RemoveFirstCons<T>(s: seq<T>, x: T)
    requires s != [] && s[0] != x
    ensures RemoveFirst(s, x) == [s[0]] + RemoveFirst(s[1..], x)
  {
  }

  const TABLE_USER: string := "User"
  const TABLE_PROFILE: string := "Profile"

  /** The violation the store reports for a new user: `User.email` is checked before
      `Profile.phone`, because the user row is written first. */
  function RegistrationViolation(users: seq<User>, email: string, phone: string): (r: Option<Violation>)
    ensures r.None? <==> forall u :: u in users ==> u.email != email && u.phone != phone
    ensures (exists u :: u in users && u.email == email) ==> r == Some(Violation(TABLE_USER, "email", email))
    ensures r.Some? && r.value.table == TABLE_PROFILE ==> r == Some(Violation(TABLE_PROFILE, "phone", phone))
  {
    if exists u :: u in users && u.email == email then Some(Violation(TABLE_USER, "email", email))
    else if exists u :: u in users && u.phone == phone then Some(Violation(TABLE_PROFILE, "phone", phone))
    else None
  }

  /** The request body of `create_user`: the fields `UserCreate` declares. */
  datatype UserCreate = UserCreate(email: string, password: string, fullName: string, fcmId: string, phone: string)

  const USER_CREATE_FIELDS: set<string> := {"email", "password", "full_name", "fcm_id", "phone"}

  /** Attribute access on a request body: a name the schema does not declare raises
      `AttributeError`. */
  function BodyField(body: UserCreate, name: string): (r: Result<string>)
    ensures r.Ok? <==> name in USER_CREATE_FIELDS
    ensures r.Err? ==> r.error == AttributeError(name)
    ensures name == "full_name" ==> r == Ok(body.fullName)
    ensures name == "phone" ==> r == Ok(body.phone)
  {
    if name == "email" then Ok(body.email)
    else if name == "password" then Ok(body.password)
    else if name == "full_name" then Ok(body.fullName)
    else if name == "fcm_id" then Ok(body.fcmId)
    else if name == "phone" then Ok(body.phone)
    else Err(AttributeError(name))
  }

  /** The `User` table, with each user's profile and favourites. */
  class UserTable {
    var users: seq<User>

    constructor ()
      ensures users == []
    {
      users := [];
    }

    /** `create_user`: insert inside `unique_violation_check`. The hash and the token are
        what `hash_password` and `generate_access_token` returned. */
    method CreateUser(id: nat, email: string, phone: string, passwordHash: string, token: string, profile: nat)
      returns (r: Result<User>)
      modifies this
      ensures var v := RegistrationViolation(old(users), email, phone);
        && (v.Some? ==> r == Err(Conflict(ViolationMessage(v.value))) && users == old(users))
        && (v.None? ==> r.Ok? && users == old(users) + [r.value])
      ensures r.Ok? ==> r.value == User(id, email, phone, token, passwordHash, profile, None, [])
    {
      var outcome: Result<User>;
      var v := RegistrationViolation(users, email, phone);
      if v.Some? {
        outcome := Err(UniqueViolation(v.value));
      } else {
        var u := User(id, email, phone, token, passwordHash, profile, None, []);
        users := users + [u];
        outcome := Ok(u);
      }
      r := UniqueViolationCheck(outcome);
    }

    /** `create_user` as written: the profile is built from `body.name`, which `UserCreate`
        does not declare, so reading it raises before anything is inserted, and
        `unique_violation_check` lets that error through. */
    method CreateUserAsWritten(body: UserCreate, passwordHash: string, token: string, id: nat, profile: nat)
      returns (r: Result<User>)
      modifies this
      ensures r == Err(AttributeError("name")) && users == old(users)
    {
      var outcome: Result<User>;
      match BodyField(body, "name") {
        case Err(e) =>
          outcome := Err(e);
        case Ok(_) =>
          // `Profile` has no `name` column either, so its constructor would refuse the keyword
          outcome := Err(TypeError("name"));
      }
      r := UniqueViolationCheck(outcome);
    }

    /** `login`: 401 when no user has the email or the password does not match; otherwise
        the user's token is replaced by the freshly generated one, which is returned.
        `checkPassword` stands for `check_password`. */
    method Login(email: string, password: string, checkPassword: (string, string) -> bool, newToken: string)
      returns (r: Result<string>)
      modifies this
      ensures var k := FirstIndex(old(users), (u: User) => u.email == email);
        && (k < 0 ==> r == Err(Unauthorized) && users == old(users))
        && (k >= 0 && !checkPassword(password, old(users)[k].passwordHash) ==>
              r == Err(Unauthorized) && users == old(users))
        && (k >= 0 && checkPassword(password, old(users)[k].passwordHash) ==>
              r == Ok(newToken) && users == old(users)[k := old(users)[k].(accessToken := newToken)])
    {
      var k := FirstIndex(users, (u: User) => u.email == email);
      if k < 0 || !checkPassword(password, users[k].passwordHash) {
        return Err(Unauthorized);
      }
      users := users[k := users[k].(accessToken := newToken)];
      r := Ok(newToken);
    }

    /** `add_to_favorites`: 401, then 404 for an unknown listing; otherwise the listing is
        appended to the caller's favourites. */
    method AddToFavorites(listings: seq<ListingInfo>, token: string, listingUuid: string) returns (r: Result<()>)
      modifies this
      ensures var user := CurrentUser(old(users), token);
        var found := Fetch(listings, ListingUuid, AnyListing, "Listing", listingUuid);
        && (user.Err? ==> r == Err(Unauthorized) && users == old(users))
        && (user.Ok? && found.Err? ==> r == Err(found.error) && users == old(users))
        && (user.Ok? && found.Ok? ==>
              var u := old(users)[user.value];
              r == Ok(()) && users == old(users)[user.value := u.(favorites := u.favorites + [listings[found.value]])])
    {
      var user := CurrentUser(users, token);
      if user.Err? {
        return Err(user.error);
      }
      var found := Fetch(listings, ListingUuid, AnyListing, "Listing", listingUuid);
      if found.Err? {
        return Err(found.error);
      }
      var u := users[user.value];
      users := users[user.value := u.(favorites := u.favorites + [listings[found.value]])];
      r := Ok(());
    }

    /** `remove_from_favorites`: 401, then 404 for an unknown listing; otherwise the first
        occurrence of the listing leaves the favourites, and a listing that is not there
        changes nothing. */
    method RemoveFromFavorites(listings: seq<ListingInfo>, token: string, listingUuid: string) returns (r: Result<()>)
      modifies this
      ensures var user := CurrentUser(old(users), token);
        var found := Fetch(listings, ListingUuid, AnyListing, "Listing", listingUuid);
        && (user.Err? ==> r == Err(Unauthorized) && users == old(users))
        && (user.Ok? && found.Err? ==> r == Err(found.error) && users == old(users))
        && (user.Ok? && found.Ok? ==>
              var u := old(users)[user.value];
              r == Ok(()) && users == old(users)[user.value := u.(favorites := RemoveFirst(u.favorites, listings[found.value]))])
    {
      var user := CurrentUser(users, token);
      if user.Err? {
        return Err(user.error);
      }
      var found := Fetch(listings, ListingUuid, AnyListing, "Listing", listingUuid);
      if found.Err? {
        return Err(found.error);
      }
      var u := users[user.value];
      users := users[user.value := u.(favorites := RemoveFirst(u.favorites, listings[found.value]))];
      r := Ok(());
    }
  }

  /** After a login, the new token identifies the user who logged in, provided no earlier
      user already holds it. */
  lemma LoginThenCurrentUser(users: seq<User>, k: nat, newToken: string)
    requires k < |users|
    requires forall j :: 0 <= j < k ==> users[j].accessToken != newToken
    ensures CurrentUser(users[k := users[k].(accessToken := newToken)], newToken) == Ok(k)
  {
    var after := users[k := users[k].(accessToken := newToken)];
    var r := CurrentUser(after, newToken);
    assert after[k].accessToken == newToken;
    assert r.Ok?;
    assert !(r.value < k) && !(r.value > k);
  }
}
